=== FILE: README.md ===
# nemlc core in Dafny

A Dafny model of the compiler core of `nemlc`, a compiler for an outline language.

**What the compiler does.** An outline file is read line by line. Each line is cut into segments (today always the whole line) and handed to the section opened by the last marker line:

- a `#[import]` section holds lines `use a/b.{c as x, d}`. Each is cut at `/` into a path prefix and a target, the target at `.` into an anchor and a member list, and each member into a `Dependency` (path, anchor, alias). A malformed member becomes the placeholder dependency `/unknow`;
- a `#[content]` section holds outline items:
  - an unindented line is a root item (`name [macro]`);
  - a line indented by `2n` spaces is an item at level `n`, either a plain entity (`body [attr]`) or a relation `name X relation`, where `X` is one of `+ - *`.

When every line is read, three passes run over the item list:

1. the **level pass** gives every item its index and its root: the latest open item one level up, or the sentinel 0 when the item is deeper than the open path;
2. the **child-list pass** appends every item to its parent's list of children;
3. the **build pass** turns the list into a forest of endpoint nodes under a node 0 named `"root"`. Each item appears in it exactly once, and top-level items come in file order.

**How the model is laid out.** One module per source file:

| module | file | source |
|---|---|---|
| `FindUtil` | `find.dfy` | `utils/find.rs` |
| `StripUtil` | `strip.dfy` | `utils/strip.rs` |
| `ConcatUtil` | `concat.dfy` | `utils/concat.rs` |
| `ParseUtil` | `parse.dfy` | `parse/parse.rs` |
| `EndpointTree` | `endpoint.dfy` | `engine/endpoint.rs` |
| `ImportEngine` | `import.dfy` | `engine/import.rs` |
| `ContentEngine` | `content.dfy` | `engine/content.rs` |
| `SegmentEngine` | `engine.dfy` | `engine/engine.rs` |

Four more modules hold the reference definitions the contracts are stated against:

- `Levels` (`levels.dfy`): the level pass as a pure fold;
- `Forest` (`forest.dfy`): the build pass as pure recursion;
- `ContentLine` (`content_line.dfy`): what one content line yields;
- `Text` (`text.dfy`): the Rust string operations the core uses (`trim`, `find`, `split`, `starts_with`, `ends_with`).

`Results` defines `Option`, `Result` and `Outcome`. An `Outcome` is either `Normal` or `Panic`; a `Panic` is a Rust panic: an `unwrap` of an `Err`, or a slice or index outside the string.

**How the source's objects become Dafny.**

- The stateful objects are classes whose methods update their fields in place: `Engine`, `Content`, `Import`, `LevelTable`, `NeiEndpoint` and `Endpoint`.
- The `processed` array of the build pass is a Dafny `array<bool>`.
- The source's `while` and `for` loops over text, lists and the item arena become `while` or `for` loops with invariants. Each is proved against a pure function, and the properties the compiler relies on are proved as lemmas about that function.
- The two `captures_iter` loops of `parse_plain` become scan functions. The first gathers both groups of every match, and the line is a relation only when there is exactly one match; it becomes `SymbolSegments`, which cuts the matches out, and `LastSymbol`, which finds each match's split point. The second keeps only the last ` X ` match and becomes `LastSpacedSymbol`.
- `ImportExamples` (`import_examples.dfy`) works concrete import lines through the model: a plain name, an alias, a braced member list and the cuts of `line_seg`.

## Model

| member | source | states |
|---|---|---|
| FindUtil.RunLength | nemlc/src/utils/find.rs:4-23 | the run that `next_point`, `next_strip` and `space_count` measure is never longer than the input |
| FindUtil.RunLengthSpec | nemlc/src/utils/find.rs:4-23 | every character of the run qualifies, and the character right after the run (if any) does not |
| FindUtil.RunLengthUnique | nemlc/src/utils/find.rs:31-54 | any length with the two facts above is the run length, so the scanners are pinned down by them |
| FindUtil.NextPoint | nemlc/src/utils/find.rs:4-23 | `next_point` is always `Ok`, with the distance to the first character that is (or is not) the target, or to the end |
| FindUtil.NextPointStops | nemlc/src/utils/find.rs:4-23 | read over the whole string, the scan stays inside it, passes only non-stop characters and ends on a stop character or at the end |
| FindUtil.NextSub | nemlc/src/utils/find.rs:25-29 | `next_sub` gives the offset of the first occurrence of the target from `off` on, and `None` exactly when there is none |
| FindUtil.SpaceCount | nemlc/src/utils/find.rs:31-54 | `space_count` counts the leading characters equal to (or different from) the target, stopping at the first that breaks the run |
| StripUtil.WithoutTrailing | nemlc/src/utils/strip.rs:4-15 | the result is a prefix of the input, does not end with the mark, and everything dropped is the mark |
| StripUtil.RStrip | nemlc/src/utils/strip.rs:4-15 | `rstrip` removes exactly the trailing run of the mark |
| StripUtil.RStripIdempotent | nemlc/src/utils/strip.rs:4-15 | stripping twice strips nothing more |
| StripUtil.RStripKeepsUnterminated | nemlc/src/utils/strip.rs:4-15 | input not ending with the mark comes back unchanged |
| StripUtil.ColonStrip | nemlc/src/utils/strip.rs:17-28 | unquoted input is unchanged; quoted input shorter than 3 gives ""; otherwise the opening quote and the last two characters are dropped and the rest is kept |
| StripUtil.ColonStripDropsLastTwo | nemlc/src/utils/strip.rs:17-28 | the quoted name `"ab"` becomes `a` |
| StripUtil.NextStrip | nemlc/src/utils/strip.rs:30-49 | `next_strip` is always `Ok`, with the length of the run of the target (or non-target) from `off` |
| ConcatUtil.RawConcat | nemlc/src/utils/concat.rs:4-13 | both sides non-empty: prefix, separator, anchor; an empty side contributes nothing and brings no separator |
| ConcatUtil.SlashConcat | nemlc/src/utils/concat.rs:15-41 | `slash_concat` folds the first `count` pieces with "/" and appends the anchor; with `count` 0 it is the anchor |
| ConcatUtil.SlashFoldJoins | nemlc/src/utils/concat.rs:15-41 | non-empty pieces fold to the pieces joined by single slashes |
| ConcatUtil.SlashConcatJoins | nemlc/src/utils/concat.rs:15-41 | with non-empty pieces and anchor, `slash_concat` is the slash-separated path of the pieces and the anchor |
| ParseUtil.ParseSimple | nemlc/src/parse/parse.rs:1-8 | the line, unchanged, is the only segment |
| ParseUtil.ParseSimpleVector | nemlc/src/parse/parse.rs:10-22 | every token is non-empty and blank-free, and the tokens in order spell the line without its whitespace |
| EndpointTree.NeiEndpoint.New | nemlc/src/engine/endpoint.rs:14-20 | a node with the given index and name and no children |
| EndpointTree.NeiEndpoint.Attach | nemlc/src/engine/endpoint.rs:22-34 | the child becomes the last child, earlier children keep their order, the first attach creates a one-element list, index and name stay |
| EndpointTree.Endpoint.New | nemlc/src/engine/endpoint.rs:70-76 | a named node with no parent and no children |
| EndpointTree.Endpoint.Attach | nemlc/src/engine/endpoint.rs:92-106 | always `Ok`; the child is stored under its own name, replacing any child of that name, and every other child stays |
| Text.Trim | nemlc/src/engine/import.rs:166-168 | `trim` gives no longer a string that neither starts nor ends with whitespace |
| Text.TrimEmptyIff | nemlc/src/engine/import.rs:366-372 | a segment trims to "" exactly when it is all whitespace |
| Text.TrimIdempotent | nemlc/src/engine/import.rs:182-184 | trimming twice is trimming once |
| Text.IndexOf | nemlc/src/engine/import.rs:246-264 | `find` gives the first position at which the needle occurs, and `None` exactly when it occurs nowhere |
| Text.Split | nemlc/src/engine/import.rs:346-347 | Rust's `str::split` with a non-empty separator never returns an empty list |
| Text.SplitStep | nemlc/src/engine/import.rs:246-264 | the split at the first occurrence is the text before it followed by the split of the rest |
| Text.JoinSplit | nemlc/src/engine/import.rs:346-347 | splitting loses nothing: joining the pieces with the separator restores the input |
| Text.SplitPiecesFree | nemlc/src/engine/import.rs:346-347 | no piece of a split contains the separator |
| Text.SplitCharCount | nemlc/src/engine/import.rs:160-174 | splitting at a character gives one piece more than the character's occurrences |
| ImportEngine.CleanNameTrimmed | nemlc/src/engine/import.rs:182-184 | a cleaned name carries no outer whitespace |
| ImportEngine.PlainAtomParse | nemlc/src/engine/import.rs:176-229 | a member is `Unknown` or a dependency with no path and an anchor |
| ImportEngine.AtomTrimmed | nemlc/src/engine/import.rs:176-229 | anchor and alias carry no outer whitespace, and an anchor without alias is never empty |
| ImportEngine.AtomWithoutAlias | nemlc/src/engine/import.rs:181-201 | without " as " the cleaned member is the anchor, or `Unknown` when nothing is left |
| ImportEngine.AtomWithAlias | nemlc/src/engine/import.rs:202-218 | with exactly one " as " the cleaned text before it is the anchor and after it the alias |
| ImportEngine.AtomTwoAliases | nemlc/src/engine/import.rs:219-228 | two or more " as " make the member `Unknown` |
| ImportEngine.MulParsePieces | nemlc/src/engine/import.rs:160-174 | one dependency per comma piece, one more than there are commas, the k-th read from the trimmed k-th piece |
| ImportEngine.Import.PlainMulParse | nemlc/src/engine/import.rs:160-174 | `plain_mul_parse` returns exactly the per-piece dependencies above |
| ImportEngine.WithPath | nemlc/src/engine/import.rs:283-290 | every member keeps its anchor and alias and gets the given path, in order |
| ImportEngine.Import.SetPaths | nemlc/src/engine/import.rs:286-288 | the loop sets the path of every member to the anchor path |
| ImportEngine.ParseTarget | nemlc/src/engine/import.rs:241-302 | a target always yields at least one dependency |
| ImportEngine.TargetParts | nemlc/src/engine/import.rs:262-301 | an empty `{}` list is `Unknown`; otherwise every dependency lies under the prefix joined to the anchor |
| ImportEngine.TargetUnderAnchor | nemlc/src/engine/import.rs:246-266 | with a "." the target is cut at its first "." into anchor and rest |
| ImportEngine.TargetPartsBraced | nemlc/src/engine/import.rs:268-290 | a braced list after the "." is the member list with every member under the anchor path |
| ImportEngine.TargetWithoutDot | nemlc/src/engine/import.rs:246-260 | a target without "." is `[Unknown]` |
| ImportEngine.Import.PlainParseTarget | nemlc/src/engine/import.rs:241-302 | `plain_parse_target` computes `ParseTarget` |
| ImportEngine.RunEndIsRunLength | nemlc/src/engine/import.rs:74-99 | the line_seg cursor after a `next_strip` or `next_point` is the end of the run it measures |
| ImportEngine.SkipBlanks | nemlc/src/engine/import.rs:74-76 | the cursor moves forward and stays inside the line |
| ImportEngine.FindFrom | nemlc/src/engine/import.rs:78-81 | the cursor moves forward and stays inside the line |
| ImportEngine.SegRound | nemlc/src/engine/import.rs:71-134 | a round that yields a piece ends it inside the line and moves the cursor strictly forward |
| ImportEngine.GroupRound | nemlc/src/engine/import.rs:88-114 | a group piece ends after the "{" and the cursor moves past it |
| ImportEngine.PlainRound | nemlc/src/engine/import.rs:115-125 | a plain piece runs to the next "," and the cursor moves past it |
| ImportEngine.SegRoundNoDot | nemlc/src/engine/import.rs:78-88 | a piece without "." panics on the slice past the end |
| ImportEngine.SegRoundDotAtEnd | nemlc/src/engine/import.rs:83-88 | only blanks after the "." panic on the index past the end |
| ImportEngine.SegRoundGroup | nemlc/src/engine/import.rs:88-114 | a "{" after the "." and its blanks makes the round a group |
| ImportEngine.SegRoundPlain | nemlc/src/engine/import.rs:115-125 | anything else after the "." makes the round a plain piece |
| ImportEngine.GroupRoundUnclosed | nemlc/src/engine/import.rs:90-101 | a group without "}" panics on the slice past the end |
| ImportEngine.GroupRoundClosed | nemlc/src/engine/import.rs:93-114 | a closed group ends the line, is followed by "," or makes the line `Err("Invalid")` |
| ImportEngine.LineSegPiece | nemlc/src/engine/import.rs:101-133 | a round that yields a piece puts it, trimmed, before the pieces of the rest of the line |
| ImportEngine.LineSegFrom | nemlc/src/engine/import.rs:67-137 | every piece `line_seg` returns costs at least one character of the line, so a line of `n` characters yields at most `n` pieces |
| ImportEngine.LineSegDone | nemlc/src/engine/import.rs:71-136 | at the end of the line nothing more is cut and the result is `Ok` |
| ImportEngine.SegStep | nemlc/src/engine/import.rs:72-88 | the loop body's cursor work up to the "." computes the round |
| ImportEngine.AfterDot | nemlc/src/engine/import.rs:81-125 | the loop body from the "." on computes the round |
| ImportEngine.GroupStep | nemlc/src/engine/import.rs:88-93 | the group branch computes the group round |
| ImportEngine.AfterGroup | nemlc/src/engine/import.rs:95-114 | the group branch after the "}" computes the group round |
| ImportEngine.PlainStep | nemlc/src/engine/import.rs:115-125 | the plain branch computes the plain round |
| ImportEngine.LineSeg | nemlc/src/engine/import.rs:67-137 | `line_seg` computes `LineSegFrom(s, 0)`: the pieces cut at the "," outside groups, `Err("Invalid")`, or a panic |
| ImportEngine.LineSegTrimmed | nemlc/src/engine/import.rs:101-124 | every piece `line_seg` returns is trimmed |
| ImportEngine.TargetsStep | nemlc/src/engine/import.rs:147-152 | the targets of one more piece come after those of the earlier pieces |
| ImportEngine.Targets | nemlc/src/engine/import.rs:147-152 | at least one target per member-list piece: a piece that names nothing still gives `Unknown` |
| ImportEngine.PushAll | nemlc/src/engine/import.rs:149-151 | pushing every element keeps them all, in order, after what was there |
| ImportEngine.MulAnchorParse | nemlc/src/engine/import.rs:139-158 | `plain_mul_anchor_parse` panics exactly when `line_seg` does |
| ImportEngine.InvalidGroupNothing | nemlc/src/engine/import.rs:144-155 | a member list that `line_seg` rejects as an invalid group gives no dependency and no panic |
| ImportEngine.Import.PlainMulAnchorParse | nemlc/src/engine/import.rs:139-158 | the method computes `MulAnchorParse`: nothing for `Err`, the targets of the pieces for `Ok` |
| ImportEngine.Prefixed | nemlc/src/engine/import.rs:328-337 | one entry per dependency with the same anchor and alias, and a path exactly when it had one |
| ImportEngine.PrefixedStep | nemlc/src/engine/import.rs:328-337 | one more loop round agrees with `Prefixed` up to that entry and leaves the rest alone |
| ImportEngine.Import.PrefixPaths | nemlc/src/engine/import.rs:328-337 | the loop of `plain_parse_impl` computes `Prefixed` |
| ImportEngine.Import.PlainParseImpl | nemlc/src/engine/import.rs:304-343 | `plain_parse_impl` computes `ParseImpl` |
| ImportEngine.ParseImpl | nemlc/src/engine/import.rs:304-343 | the last "/"-piece panics exactly when it is a braced list `{...}` of at least three characters whose inside makes `line_seg` panic; a single target never panics |
| ImportEngine.EmptyBracesUnknown | nemlc/src/engine/import.rs:309-322 | an empty braced list `{}` is a single `Unknown` |
| ImportEngine.ParseObject | nemlc/src/engine/import.rs:231-239 | `plain_parse` can panic only when the last "/"-piece is a braced list |
| ImportEngine.Extracted | nemlc/src/engine/import.rs:345-363 | without a "/" the whole text is parsed as the last piece under an empty prefix |
| ImportEngine.Import.PlainParse | nemlc/src/engine/import.rs:231-239 | `plain_parse` parses the last "/"-piece under the slash-joined other pieces |
| ImportEngine.Import.AlisSimpleProcess | nemlc/src/engine/import.rs:345-350 | `alis_simple_process` computes `Extracted` |
| ImportEngine.Import.Extract | nemlc/src/engine/import.rs:352-363 | `extract` always goes on to `alis_simple_process` |
| ImportEngine.ImportLines | nemlc/src/engine/import.rs:365-385 | a line panics exactly when one of its segments does |
| ImportEngine.ImportLine | nemlc/src/engine/import.rs:367-384 | blank and `//` segments never panic; any other segment shorter than four characters panics slicing off "use "; a longer one panics exactly when its text after the first four characters does in `extract` |
| ImportEngine.Import.Init | nemlc/src/engine/import.rs:24-28 | no dependencies |
| ImportEngine.Import.ParseItem | nemlc/src/engine/import.rs:365-385 | `parse_item` skips blank and `//` segments, panics on a short one or where extraction panics, and never changes the dependency list |
| ImportExamples.AtomWithAliasExample | nemlc/src/engine/import.rs:202-218 | `c as x` is the anchor `c` under the alias `x` |
| ImportExamples.AtomPlainExample | nemlc/src/engine/import.rs:181-201 | `d` is the anchor `d` with no alias |
| ImportExamples.MemberListExample | nemlc/src/engine/import.rs:160-174 | `c as x, d` gives two dependencies, in order |
| ImportExamples.BracedTargetExample | nemlc/src/engine/import.rs:262-290 | `b.{c as x, d}` under `a` gives both members the path `a/b` |
| ImportExamples.ExtractGroupExample | nemlc/src/engine/import.rs:345-363 | `a/b.{c as x, d}` gives two dependencies with path `a/b`, the first aliased |
| ImportExamples.ExtractTrailingSlashExample | nemlc/src/engine/import.rs:246-260 | `a/` gives the single dependency `Unknown` |
| ImportExamples.LineSegNoDotExample | nemlc/src/engine/import.rs:78-101 | `line_seg("a")` panics on the slice past the end |
| ImportExamples.LineSegInvalidGroupExample | nemlc/src/engine/import.rs:104-107 | `line_seg("a.{b}c")` is `Err("Invalid")` |
| ImportExamples.LineSegTwoPiecesExample | nemlc/src/engine/import.rs:67-137 | `a.b, c.{d, e}` is cut into `a.b` and `c.{d, e}`: the "," inside the group does not cut |
| Levels.Enter | nemlc/src/engine/content.rs:86-103 | entering an item keeps the table's shape: one slot per open level, the sentinel first |
| Levels.Resolve | nemlc/src/engine/content.rs:347-363 | the level pass gives one root per item and keeps the table's shape |
| Levels.RootAt | nemlc/src/engine/content.rs:86-94 | the root given to an item is always an entry of the open ancestor path (the sentinel 0 included) |
| Levels.ResolvePrefix | nemlc/src/engine/content.rs:355-362 | later items never change the roots already given |
| Levels.ResolveNext | nemlc/src/engine/content.rs:355-362 | item `n+1` takes its root from the table after items `1..n` and is entered into it, as one call of `parse_item_level` does |
| Levels.ResolveShape | nemlc/src/engine/content.rs:94-103 | each open slot `j` names an earlier item at level `j-1` |
| Levels.RootsPointBack | nemlc/src/engine/content.rs:82-106 | every root is an earlier item (root < item); a level-0 item hangs under 0; a non-zero root is exactly one level up |
| Levels.RootPointsBack | nemlc/src/engine/content.rs:86-105 | item `k+1`'s root is at most `k`, 0 at level 0, and otherwise an item exactly one level up |
| Levels.LastAt | nemlc/src/engine/content.rs:73-81 | the latest item at a level is in range and at that level |
| Levels.WellNestedPath | nemlc/src/engine/content.rs:82-106 | in a well-nested outline slot `j` is the latest item at level `j-1` |
| Levels.RootIsLatestParent | nemlc/src/engine/content.rs:73-106 | in a well-nested outline every root is the latest earlier item one level up, or 0 at level 0 |
| Levels.CommentOutline | nemlc/src/engine/content.rs:73-81 | levels 0, 1, 2, 1, 2 get roots 0, 1, 2, 1, 4 |
| Levels.JumpOrphans | nemlc/src/engine/content.rs:86-88 | in any outline, an item whose level is deeper than the open path gets root 0 and leaves the table as it was |
| Levels.JumpIsOrphaned | nemlc/src/engine/content.rs:86-88 | the outline of levels 0, 2: the second item gets root 0 and the table stays `[0, 1]` |
| ContentEngine.LevelTable.Seed | nemlc/src/engine/content.rs:348-353 | the table starts as the sentinel alone at level 0 |
| ContentEngine.Content.Init | nemlc/src/engine/content.rs:50-71 | level 0 and the sentinel item alone, nothing linked |
| ContentEngine.Content.ParseItemLevel | nemlc/src/engine/content.rs:82-106 | the table afterwards is `Enter` of the table before, and the returned root is `RootAt` |
| ContentEngine.LevelsOf | nemlc/src/engine/content.rs:355-362 | the levels of items `1..`, in order |
| ContentEngine.Leveled | nemlc/src/engine/content.rs:347-363 | the level pass keeps the list's length |
| ContentEngine.LeveledLinked | nemlc/src/engine/content.rs:347-363 | after the level pass every item knows its own position and points back to an earlier item, and no child list changed |
| ContentEngine.LevelRound | nemlc/src/engine/content.rs:356-361 | one round of `parse_level` moves table and list one item further along `Resolve` and `Leveled` |
| ContentEngine.Content.ParseLevel | nemlc/src/engine/content.rs:347-363 | `parse_level` leaves exactly `Leveled` of the old list |
| ContentEngine.Content.UpdateSubList | nemlc/src/engine/content.rs:281-284 | only the root item's child list changes: the sub-index is appended |
| ContentEngine.Content.GetRootFromIndex | nemlc/src/engine/content.rs:286-290 | on linked items the index read is the item's root |
| ContentEngine.WithChildLists | nemlc/src/engine/content.rs:292-299 | each item's child list is extended by exactly its children, in ascending order |
| ContentEngine.ChildIndicesSpec | nemlc/src/engine/content.rs:292-299 | `i` is among `j`'s children exactly when its parent index is `j`, and they come in ascending order |
| ContentEngine.InExactlyOneChildList | nemlc/src/engine/content.rs:292-299 | every item `i >= 1` is in the child list of its parent and of no other item |
| ContentEngine.ChildListsForward | nemlc/src/engine/content.rs:292-299 | after the child-list pass every child list names only later items |
| ContentEngine.LinkedRoots | nemlc/src/engine/content.rs:286-290 | on linked items the parent index is the root, an earlier item |
| ContentEngine.ChildAfterParent | nemlc/src/engine/content.rs:292-299 | every child comes after its parent |
| ContentEngine.Content.ParseSubArch | nemlc/src/engine/content.rs:292-299 | `parse_sub_arch` leaves exactly `WithChildLists` of the old list |
| ContentEngine.SubArchStep | nemlc/src/engine/content.rs:294-297 | one round adds item `index` to its parent's list and keeps the loop invariant |
| ContentEngine.SubArchDone | nemlc/src/engine/content.rs:292-299 | the invariant at the end of the loop is `WithChildLists` |
| ContentEngine.MarkOne | nemlc/src/engine/content.rs:319 | setting one processed flag marks exactly one more item |
| ContentEngine.Content.BuildSubList | nemlc/src/engine/content.rs:301-323 | the subtree is `Build` over the processed set, and the processed array afterwards marks `Build`'s set |
| ContentEngine.Content.ParseBuildArch | nemlc/src/engine/content.rs:325-345 | `parse_build_arch` returns `Arch` of the item list |
| ContentEngine.Content.ParsePlain | nemlc/src/engine/content.rs:182-274 | `parse_plain` panics exactly when the line's reading does, returns its items, updates the level when the line sets one and never touches the list |
| ContentEngine.Content.ParseItem | nemlc/src/engine/content.rs:379-395 | the items of every segment that is neither empty nor a comment are appended in order; the level is the last one set; a panic ends the line |
| ContentEngine.SegmentItemsUnlinked | nemlc/src/engine/content.rs:379-395 | every item a line adds is unlinked |
| ContentEngine.AddSegment | nemlc/src/engine/content.rs:382-393 | one segment appends at most one item |
| ContentEngine.SegmentItems | nemlc/src/engine/content.rs:379-395 | a line adds at most one item per segment |
| ContentEngine.SegmentItemsNext | nemlc/src/engine/content.rs:381-394 | one more segment is added to what the earlier segments gave |
| ContentEngine.AddSegmentNormal | nemlc/src/engine/content.rs:390-393 | a parsed segment adds its items and moves the level to the one it sets |
| ContentEngine.SegmentItemsPanicStays | nemlc/src/engine/content.rs:390 | once a segment panics, the line does |
| ContentLine.RootItemSpec | nemlc/src/engine/content.rs:108-147 | more than two space pieces is `Err("Invalid")`; otherwise an unlinked level-0 item named by the trimmed first piece, with no direction or relation; one piece gives no macro, two pieces give the trimmed second piece as the macro |
| ContentLine.ParseRootItem | nemlc/src/engine/content.rs:108-147 | `Err` exactly when the line has more than two space-separated pieces; an `Ok` item is unlinked, at level 0, named, and has no direction |
| ContentLine.RootItemBySpaces | nemlc/src/engine/content.rs:108-147 | a root line fails exactly when it holds two or more spaces, and has a macro exactly when it holds one |
| ContentLine.ElementParseSpec | nemlc/src/engine/content.rs:149-180 | always `Some`; the body is `None` exactly for blank input, opens the trimmed input and holds no space; an attribute closes the trimmed input, is trimmed and comes with a body |
| ContentLine.ElementParse | nemlc/src/engine/content.rs:149-180 | always `Some`, an entity with index, level and root 0 |
| ContentLine.ElementParseExact | nemlc/src/engine/content.rs:149-180 | the body is the trimmed text before the first space of the trimmed input and the attribute the trimmed text from that space on, each `None` exactly when empty |
| ContentLine.LastSymbol | nemlc/src/engine/content.rs:202-203 | the split point of the greedy pattern is the last relation mark, and `None` exactly when the text has no mark |
| ContentLine.SymbolSegments | nemlc/src/engine/content.rs:223-228 | every kept newline-free segment holds a relation mark |
| ContentLine.LastSpacedSymbol | nemlc/src/engine/content.rs:238-250 | a direction found is a relation mark or the incoming one; without a ` X ` match from the cursor on, the incoming value comes back unchanged |
| ContentLine.LastSpacedSymbolSpec | nemlc/src/engine/content.rs:238-250 | with a match, the result is the mark of a ` X ` match after which no further match starts, the last one the scan meets |
| ContentLine.NoSpacedSymbol | nemlc/src/engine/content.rs:238-241 | without a spaced mark there is no direction |
| ContentLine.RelationItem | nemlc/src/engine/content.rs:229-263 | at most one item, and when there is one it is unlinked, at the line's level, and carries the mark as its direction |
| ContentLine.RelationItemSpec | nemlc/src/engine/content.rs:230-266 | at most one item, present exactly when both sides of the mark are non-blank, carrying the mark, a name and a relation |
| ContentLine.RelationItems | nemlc/src/engine/content.rs:220-270 | the relation branch gives at most one item, at the line's level, whose direction is a single mark |
| ContentLine.RelationItemsSpec | nemlc/src/engine/content.rs:220-270 | a relation line gives at most one unlinked item, at the line's level, with a direction, a name and a relation |
| ContentLine.ParsePlainLineSpec | nemlc/src/engine/content.rs:182-274 | a line gives at most one item, unlinked, whose direction is a relation mark when it has one |
| ContentLine.ParsePlainLine | nemlc/src/engine/content.rs:182-274 | a panic only for an unindented line with more than two space-separated pieces |
| ContentLine.OddLine | nemlc/src/engine/content.rs:192-196 | an odd indent gives nothing and keeps the level |
| ContentLine.EvenLine | nemlc/src/engine/content.rs:192-200 | an even indent sets the level to half of it, and the item sits there |
| ContentLine.RootLine | nemlc/src/engine/content.rs:185-190 | an unindented line is a root item at level 0, and panics exactly when the root item fails |
| ContentLine.EntityLine | nemlc/src/engine/content.rs:203-219 | an indented line without a mark is one entity item from `element_parse` of the trimmed line |
| ContentLine.PlainEntityLine | nemlc/src/engine/content.rs:203-219 | such a line is one item with no relation, named exactly when the line is not blank |
| ContentLine.RelationLine | nemlc/src/engine/content.rs:220-270 | an indented line with a mark gives the relation items at half the indent |
| ContentLine.RelationNeedsSpacedMark | nemlc/src/engine/content.rs:238-241 | without a ` X ` anywhere a relation line gives nothing |
| Forest.Arch | nemlc/src/engine/content.rs:325-345 | the forest's root is node 0 named "root" |
| Forest.Build | nemlc/src/engine/content.rs:301-323 | `build_sub_list` returns the node it was asked for, under the given name, with at most one subtree per child-list entry, and only adds to the processed set |
| Forest.Grow | nemlc/src/engine/content.rs:310-320 | after the first `k` child-list entries there are at most `k` subtrees, each rooted at a child of the node, and the processed set has only grown |
| Forest.TopLevel | nemlc/src/engine/content.rs:334-342 | every top-level subtree found among items `1 .. i-1` is rooted at one of them |
| Forest.Indices | nemlc/src/engine/content.rs:335-342 | one index per subtree |
| Forest.GrowBuilt | nemlc/src/engine/content.rs:314-319 | a child not yet processed adds its subtree and is then marked |
| Forest.GrowSkipped | nemlc/src/engine/content.rs:311-313 | a processed child is passed over |
| Forest.BuildFacts | nemlc/src/engine/content.rs:301-323 | a subtree holds its own index first and then only later, unprocessed items, each once; afterwards exactly those are processed too |
| Forest.GrowFacts | nemlc/src/engine/content.rs:310-320 | the children built so far hold each node once, all later than the node and unprocessed before |
| Forest.GrowFactsBuilt | nemlc/src/engine/content.rs:314-319 | building and attaching an unprocessed child keeps the invariant of the loop |
| Forest.GrowOrder | nemlc/src/engine/content.rs:310-320 | a node's children come in the order of its child list |
| Forest.TopStep | nemlc/src/engine/content.rs:336-340 | an unprocessed item becomes the next top-level subtree and the loop invariant is kept |
| Forest.TopSkip | nemlc/src/engine/content.rs:336 | an item already processed adds nothing at the top level |
| Forest.TopLevelFacts | nemlc/src/engine/content.rs:334-342 | the top-level loop keeps its invariant |
| Forest.ArchCoversOnce | nemlc/src/engine/content.rs:325-345 | node 0 comes first, every item appears exactly once, nothing else appears, and top-level items are in ascending order |
| SegmentEngine.Marker | nemlc/src/engine/engine.rs:143-152 | a segment opens a section exactly when it is `#[import]` or `#[content]`, never `SegInit` |
| SegmentEngine.HasMarkerIff | nemlc/src/engine/engine.rs:140-154 | a line has a marker exactly when one of its segments is one |
| SegmentEngine.NoMarkerKeepsStatus | nemlc/src/engine/engine.rs:140-158 | a line without markers leaves the section as it was |
| SegmentEngine.LastMarkerWins | nemlc/src/engine/engine.rs:142-154 | the section after a line is the one its last marker opens |
| SegmentEngine.RunPanicStays | nemlc/src/engine/engine.rs:65-67 | once a line panics, the run does |
| SegmentEngine.RawStep | nemlc/src/engine/engine.rs:161-171 | parsing a line in a section keeps the section and only appends items; before the first marker nothing can panic |
| SegmentEngine.LineStep | nemlc/src/engine/engine.rs:133-159 | a line only appends items; only a non-empty line without a marker, read in the import or content section, can panic |
| SegmentEngine.Run | nemlc/src/engine/engine.rs:65-67 | the lines read one after another only ever append to the item list |
| SegmentEngine.LineStepUnbuilt | nemlc/src/engine/engine.rs:133-171 | a line keeps the items unlinked and only ever appends |
| SegmentEngine.RunUnbuilt | nemlc/src/engine/engine.rs:65-67 | reading all lines keeps the items unlinked and only ever appends |
| SegmentEngine.Linking | nemlc/src/engine/engine.rs:69-70 | the level and child-list passes leave child lists that name only later items |
| SegmentEngine.CompiledForest | nemlc/src/engine/engine.rs:69-74 | the compiled forest has root 0 and holds every item of the file exactly once |
| SegmentEngine.MarkerLineSwitches | nemlc/src/engine/engine.rs:140-158 | a line with a marker only switches the section |
| SegmentEngine.InitIgnoresLines | nemlc/src/engine/engine.rs:161-163 | before the first marker lines are dropped unread |
| SegmentEngine.ImportKeepsContent | nemlc/src/engine/engine.rs:164-166 | import lines never change the content items or level |
| SegmentEngine.Segments | nemlc/src/engine/engine.rs:50-53 | one segment list per line read |
| SegmentEngine.Engine.Init | nemlc/src/engine/engine.rs:39-45 | no section yet, both parsers fresh |
| SegmentEngine.Engine.SegStatusSwitch | nemlc/src/engine/engine.rs:125-131 | the section becomes the given one, nothing else changes |
| SegmentEngine.Engine.ParseRawLine | nemlc/src/engine/engine.rs:161-171 | the line goes to the parser of the current section, as `RawStep` says, panicking exactly when it does |
| SegmentEngine.Engine.ParseLine | nemlc/src/engine/engine.rs:133-159 | an empty line does nothing, a marker line switches to the last marker's section unparsed, any other line is parsed, as `LineStep` says |
| SegmentEngine.Engine.BuildArch | nemlc/src/engine/engine.rs:69-72 | the three passes return `Arch` of the linked items |
| SegmentEngine.Engine.ParseLines | nemlc/src/engine/engine.rs:65-67 | every line is parsed in turn, as `Run` says; the first panic ends the run |
| SegmentEngine.Engine.Compile | nemlc/src/engine/engine.rs:47-75 | `compile` panics exactly when reading the lines does; otherwise it returns a fresh forest that is `Arch` of the linked items read |
| SegmentEngine.Lines | nemlc/src/engine/engine.rs:65-67 | the segments of the collected lines, in order |
| SegmentEngine.ReadLines | nemlc/src/engine/engine.rs:48-63 | every line loses its trailing newlines, becomes its segments and is numbered from 1 |

## Left out

- File I/O: `BufReader`, the `io::Error` of `compile`, `env` and the `ComCanvas` output. `Compile` takes the lines of the file as a parameter.
- `start`, `generate_object_tree`, `init_config`, `NeiEndpoint::create_object_tree`, `Endpoint::show` and every `println!`. They only print or draw, and nothing in the core reads their result.
- Regular expressions are replaced by the scans they perform:
  - `(.*)[+\-*](.*)` is the last relation mark of each newline-free segment (`LastSymbol`, `SymbolSegments`);
  - `[ ][+\-*][ ]` is the scan for the last spaced mark (`LastSpacedSymbol`);
  - `(.+/)?(.*)` matches every text, so `extract` always goes on.
- `Rc<RefCell<..>>` sharing of the item list. `Content` owns its list as a `seq`; the source shares it with no other owner.
- Strings are sequences of characters. UTF-8 byte offsets and char-boundary panics are not modelled, so lines are taken to be ASCII.
- `plain_alias_parse` and `plain_target_parse` are not modelled. Nothing outside the pair calls them: `plain_target_parse` returns a constant `Element`, and `plain_alias_parse` returns a fixed path and anchor with the second piece of its input as alias (and panics on fewer than two pieces).
- `empty_item` is not modelled. Nothing calls it.
- `Content::extract` is not modelled separately. It only forwards to `parse_plain`.
- Panic texts are kept only as short descriptive reasons (`SliceFault`, `IndexFault`, `ShortLine`). Which message Rust prints is not modelled; only that a panic happens.
- Module paths and file-level wiring (`mod.rs`, `main.rs`, `lib.rs`) are not part of this model.
- Where the code departs from what its names and comments suggest, the model follows the code:
  - `colon_strip` drops the opening quote and the last two characters, not just the quotes (`ColonStripDropsLastTwo`);
  - the direction of a relation is the last ` X ` match in the line, not the first;
  - the table comment beside `parse_item_level` writes the table after the third item as `[0, 1, 2, 2]`, while the code gives `[0, 1, 2, 3]` (`CommentOutline`);
  - an unindented line with two or more spaces, such as `a - b`, is a panic of `parse_plain`, not a relation;
  - `Import::parse_item` trims each segment, while `Content::parse_item` does not.
- ConcatUtil.SlashConcat: requires `count <= |tc0|`. With a larger `count` the source's loop indexes past the list and panics, except that an empty list with `count` 1 returns the anchor. The only caller, `plain_parse`, passes the length minus one, so it always meets this.
- ParseUtil.ParseSimpleVector: the contract states that the tokens are non-empty, blank-free and spell the line without its whitespace. It does not state that each token is maximal, i.e. that two tokens were separated by whitespace.
- ContentEngine.Content.BuildSubList requires `Forward` (child lists name only later items), and so does `ParseBuildArch`. The level and child-list passes establish it (`Linking`, `ChildListsForward`). A hand-made list with a cycle, on which the source would recurse without end, is not modelled.
- ContentEngine.Content.ParseSubArch requires `RootsInRange`, which the level pass establishes (`LinkedRoots`). On other lists the source's indexing would panic.
- ImportEngine.Import.PlainParse requires at least one piece. `split` never returns an empty list, so every caller meets this.
- SegmentEngine.Engine.Compile requires the content items to be unlinked (`Unbuilt`), which holds for an engine fresh from `init`. Running `compile` twice on one engine is not modelled.
- SegmentEngine.Linking maps a list that reading cannot produce (one with child lists already set) to the empty list.
- ImportEngine.Member: states only that a member has no path and has an anchor. The exact anchor and alias are stated by `AtomWithoutAlias` and `AtomWithAlias`.
- ImportEngine.MulParse: its own definition carries no contract. What it computes, one dependency per comma piece, is stated by `MulParsePieces`.
- The loops of `plain_parse_target` and `plain_parse_impl` sit in the helper methods `SetPaths` and `PrefixPaths`. The body of `line_seg`'s loop is split into `SegStep`, `AfterDot`, `GroupStep`, `AfterGroup` and `PlainStep`, with the same cursor arithmetic as the source.
- The `"\n"` in a line is handled as the source does: `compile` strips trailing newlines, and the relation pattern works per newline-free segment.

=== FILE: concat.dfy ===
/** The path joiners of `Concat` (utils/concat.rs). */
module ConcatUtil {
  import opened Text

  /**
   * `raw_concat`: `prefix`, `e`, `anchor` in a row when both sides are
   * non-empty; an empty side contributes nothing and brings no separator.
   */
  function RawConcat(prefix: string, e: string, anchor: string): (r: string)
    ensures |prefix| > 0 && |anchor| > 0 ==> r == prefix + e + anchor
    ensures prefix == [] ==> r == anchor
    ensures anchor == [] ==> r == prefix
  {
    if |prefix| > 0 && |anchor| > 0 then prefix + e + anchor else prefix + anchor
  }

  /** Left fold of `RawConcat(_, "/", _)` over `pieces`, starting from "". */
  function SlashFold(pieces: seq<string>): string
  {
    if pieces == [] then "" else RawConcat(SlashFold(pieces[..|pieces| - 1]), "/", pieces[|pieces| - 1])
  }

  /**
   * `slash_concat`: joins the first `count` pieces and then `anchor`, each
   * step a `RawConcat` with "/".
   */
  method SlashConcat(tc0: seq<string>, count: nat, anchor: string) returns (r: string)
    requires count <= |tc0|
    ensures r == RawConcat(SlashFold(tc0[..count]), "/", anchor)
    ensures count == 0 ==> r == anchor
  {
    var start := "";
    if |tc0| >= count && count > 0 {
      start := tc0[0];
      assert tc0[..1][..0] == [];
    }
    var i := 1;
    while i < count
      invariant count == 0 || (1 <= i <= count)
      invariant count > 0 ==> start == SlashFold(tc0[..i])
      invariant count == 0 ==> start == ""
    {
      var ele := tc0[i];
      assert tc0[..i + 1][..i] == tc0[..i];
      if |start| > 0 && |ele| > 0 {
        start := start + "/" + ele;
      } else {
        start := start + ele;
      }
      i := i + 1;
    }
    assert count == 0 ==> start == SlashFold(tc0[..count]) by {
      assert tc0[..0] == [];
    }
    if |start| > 0 && |anchor| > 0 {
      start := start + "/" + anchor;
    } else {
      start := start + anchor;
    }
    r := start;
  }

  lemma {:induction false} JoinSnoc(parts: seq<string>, x: string, sep: string)
    requires |parts| >= 1
    ensures Join(parts + [x], sep) == Join(parts, sep) + sep + x
    decreases |parts|
  {
    if |parts| > 1 {
      assert (parts + [x])[1..] == parts[1..] + [x];
      JoinSnoc(parts[1..], x, sep);
    }
  }

  /** Non-empty pieces are folded into the pieces joined by single slashes. */
  lemma {:induction false} SlashFoldJoins(pieces: seq<string>)
    requires |pieces| >= 1
    requires forall i :: 0 <= i < |pieces| ==> |pieces[i]| > 0
    ensures SlashFold(pieces) == Join(pieces, "/")
    ensures |SlashFold(pieces)| > 0
    decreases |pieces|
  {
    if |pieces| > 1 {
      var init := pieces[..|pieces| - 1];
      SlashFoldJoins(init);
      JoinSnoc(init, pieces[|pieces| - 1], "/");
      assert init + [pieces[|pieces| - 1]] == pieces;
    } else {
      assert pieces[..0] == [];
    }
  }

  /** With every piece and the anchor non-empty, `slash_concat` is the slash-separated join. */
  lemma SlashConcatJoins(tc0: seq<string>, count: nat, anchor: string)
    requires 1 <= count <= |tc0|
    requires forall i :: 0 <= i < count ==> |tc0[i]| > 0
    requires |anchor| > 0
    ensures RawConcat(SlashFold(tc0[..count]), "/", anchor) == Join(tc0[..count] + [anchor], "/")
  {
    SlashFoldJoins(tc0[..count]);
    JoinSnoc(tc0[..count], anchor, "/");
  }
}

=== FILE: content.dfy ===
/**
 * `Content` (engine/content.rs): the arena of parsed items and the passes
 * that link them into a forest. The shared `Rc<RefCell<Vec<Item>>>` is a
 * sequence field that the methods reassign.
 */
module ContentEngine {
  import opened Results
  import opened Text
  import opened ContentLine
  import opened Levels
  import opened Forest
  import opened EndpointTree

  /** `LevelTable`: the ancestor table that `parse_level` threads through its calls. */
  class LevelTable {
    var table: seq<nat>
    var currentLevel: nat

    /** The seed `parse_level` starts from: the sentinel alone, at level 0. */
    constructor Seed()
      ensures table == [0] && currentLevel == 0 && Valid()
    {
      table := [0];
      currentLevel := 0;
    }

    /** One slot per open level, the sentinel in slot 0. */
    predicate Valid()
      reads this
    {
      ValidTable(Table(table, currentLevel))
    }
  }

  /** The levels of items `1 .. |data|-1`, in order. */
  function LevelsOf(data: seq<Item>): (r: seq<nat>)
    ensures |r| == if data == [] then 0 else |data| - 1
    ensures forall k :: 0 <= k < |r| ==> r[k] == data[k + 1].level
  {
    if data == [] then [] else seq(|data| - 1, k requires 0 <= k < |data| - 1 => data[k + 1].level)
  }

  /** The list as `parse_level` leaves it: item `i >= 1` gets index `i` and the root the level fold gives it. */
  function Leveled(data: seq<Item>): (r: seq<Item>)
    ensures |r| == |data|
  {
    var roots := Resolve(LevelsOf(data)).roots;
    seq(|data|, i requires 0 <= i < |data| => if i == 0 then data[0] else data[i].(index := i, root := roots[i - 1]))
  }

  /**
   * After the level pass every item knows its position and points back to
   * an earlier item; levels, names and child lists are untouched.
   */
  lemma LeveledLinked(data: seq<Item>)
    requires |data| >= 1 && data[0].index == 0
    ensures Linked(Leveled(data))
    ensures forall i :: 0 <= i < |data| ==> Leveled(data)[i].subList == data[i].subList
  {
    var levels := LevelsOf(data);
    RootsPointBack(levels);
    forall i | 1 <= i < |data| ensures Leveled(data)[i].root < i {
      assert Leveled(data)[i].root == Resolve(levels).roots[i - 1];
    }
  }

  /**
   * One round of `parse_level` for item `n`, seen on values: with the table
   * and the root `parse_item_level` produced, the table is the fold's after
   * item `n`, and the list agrees with `Leveled(data)` one item further.
   */
  lemma LevelRound(data: seq<Item>, d: seq<Item>, n: nat, before: Table, after: Table, rootIndex: nat)
    requires 1 <= n < |d| == |data|
    requires d == Leveled(data)[..n] + data[n..]
    requires before == Resolve(LevelsOf(data)[..n - 1]).table
    requires after == Enter(before, d[n].level, n) && rootIndex == RootAt(before, d[n].level)
    ensures after == Resolve(LevelsOf(data)[..n]).table
    ensures d[n := d[n].(index := n, root := rootIndex)] == Leveled(data)[..n + 1] + data[n + 1..]
  {
    assert d[n] == data[n];
    ResolveNext(LevelsOf(data), n - 1);
    LeveledGrow(data, d, n, rootIndex);
  }

  lemma LeveledGrow(data: seq<Item>, d: seq<Item>, n: nat, rootIndex: nat)
    requires 1 <= n < |d| == |data|
    requires d == Leveled(data)[..n] + data[n..]
    requires rootIndex == Resolve(LevelsOf(data)).roots[n - 1]
    ensures d[n := d[n].(index := n, root := rootIndex)] == Leveled(data)[..n + 1] + data[n + 1..]
  {
    var e := d[n := d[n].(index := n, root := rootIndex)];
    var g := Leveled(data)[..n + 1] + data[n + 1..];
    forall i | 0 <= i < |d| ensures e[i] == g[i] {
      if i < n {
        assert e[i] == d[i] == Leveled(data)[i];
      } else if i == n {
        assert d[n] == data[n];
      } else {
        assert e[i] == d[i] == data[i];
      }
    }
  }

  /** Each item's root, and the index stored in that root, lie inside the list. */
  predicate RootsInRange(data: seq<Item>) {
    forall i :: 1 <= i < |data| ==> data[i].root < |data| && data[data[i].root].index < |data|
  }

  /** The index that `get_root_from_index` reads for item `i`: the one stored in its root item. */
  function ParentIndex(data: seq<Item>, i: nat): nat
    requires i < |data| && data[i].root < |data|
  {
    data[data[i].root].index
  }

  /** What the level pass leaves: every item knows its own position and points back to an earlier one. */
  predicate Linked(data: seq<Item>) {
    |data| >= 1 && data[0].index == 0 &&
    forall i :: 1 <= i < |data| ==> data[i].index == i && data[i].root < i
  }

  /** Items `1 .. m-1` whose parent index is `j`, ascending. */
  function ChildIndices(data: seq<Item>, j: nat, m: nat): seq<nat>
    requires m <= |data| && RootsInRange(data)
  {
    if m <= 1 then []
    else ChildIndices(data, j, m - 1) + (if ParentIndex(data, m - 1) == j then [m - 1] else [])
  }

  /** Every item with its child list extended by its children, as `parse_sub_arch` leaves the list. */
  function WithChildLists(data: seq<Item>): (r: seq<Item>)
    requires RootsInRange(data)
    ensures |r| == |data|
    ensures forall j :: 0 <= j < |data| ==> r[j] == data[j].(subList := data[j].subList + ChildIndices(data, j, |data|))
  {
    seq(|data|, j requires 0 <= j < |data| => data[j].(subList := data[j].subList + ChildIndices(data, j, |data|)))
  }

  /**
   * Item `i` is in the child list of `j` exactly when `1 <= i < m` and its
   * parent index is `j`, and the list is strictly increasing.
   */
  lemma {:induction false} ChildIndicesSpec(data: seq<Item>, j: nat, m: nat)
    requires m <= |data| && RootsInRange(data)
    ensures forall i :: i in ChildIndices(data, j, m) <==> 1 <= i < m && ParentIndex(data, i) == j
    ensures StrictlyIncreasing(ChildIndices(data, j, m))
    decreases m
  {
    if m > 1 {
      ChildIndicesSpec(data, j, m - 1);
      var pre := ChildIndices(data, j, m - 1);
      if ParentIndex(data, m - 1) == j {
        var all := pre + [m - 1];
        forall a, b | 0 <= a < b < |all| ensures all[a] < all[b] {
          assert all[a] == pre[a] || a == |pre|;
          assert a < |pre| ==> pre[a] in pre;
        }
      }
    }
  }

  /** After `parse_sub_arch` every item `1 .. |data|-1` sits in the child list of its parent and of no other item. */
  lemma InExactlyOneChildList(data: seq<Item>, i: nat, j: nat)
    requires RootsInRange(data) && 1 <= i < |data| && j < |data|
    ensures i in ChildIndices(data, j, |data|) <==> j == ParentIndex(data, i)
  {
    ChildIndicesSpec(data, j, |data|);
  }

  /**
   * Linked items with empty child lists get forward child lists from
   * `parse_sub_arch`: every child comes after its parent.
   */
  lemma ChildListsForward(data: seq<Item>)
    requires Linked(data)
    requires forall j :: 0 <= j < |data| ==> data[j].subList == []
    ensures RootsInRange(data) && Forward(WithChildLists(data)) && Linked(WithChildLists(data))
  {
    LinkedRoots(data);
    var r := WithChildLists(data);
    forall j, k | 0 <= j < |r| && 0 <= k < |r[j].subList| ensures j < r[j].subList[k] < |r| {
      assert r[j].subList == ChildIndices(data, j, |data|);
      ChildAfterParent(data, j, r[j].subList[k]);
    }
  }

  /** On linked items the parent index of an item is its root, an earlier item. */
  lemma LinkedRoots(data: seq<Item>)
    requires Linked(data)
    ensures RootsInRange(data)
    ensures forall i :: 1 <= i < |data| ==> ParentIndex(data, i) == data[i].root < i
  {
  }

  /** On linked items every child comes after its parent. */
  lemma ChildAfterParent(data: seq<Item>, j: nat, i: nat)
    requires Linked(data) && RootsInRange(data) && i in ChildIndices(data, j, |data|)
    ensures j < i < |data|
  {
    ChildIndicesSpec(data, j, |data|);
    LinkedRoots(data);
  }

  /** What one segment list adds to the item list, and the level `current_level` ends at. */
  datatype Parsed = Parsed(items: seq<Item>, level: nat)

  /** A segment that `parse_item` skips: empty, or a `//` comment. */
  predicate Skipped(rs: string) {
    |rs| == 0 || StartsWith(rs, "//")
  }

  /** One segment added to what the earlier segments gave. */
  function AddSegment(acc: Parsed, rs: string): (r: Outcome<Parsed>)
    ensures r.Normal? ==> |acc.items| <= |r.value.items| <= |acc.items| + 1
  {
    if Skipped(rs) then Normal(acc)
    else
      ParsePlainLineSpec(rs);
      match ParsePlainLine(rs)
      case Panic(e) => Panic(e)
      case Normal(o) =>
        Normal(Parsed(acc.items + o.items, if o.newLevel.Some? then o.newLevel.value else acc.level))
  }

  /**
   * The segments of one line parsed in order from `level`: skipped segments
   * add nothing; the first segment that panics ends everything.
   */
  function SegmentItems(seg: seq<string>, level: nat): (r: Outcome<Parsed>)
    ensures r.Normal? ==> |r.value.items| <= |seg|
  {
    if seg == [] then Normal(Parsed([], level))
    else
      match SegmentItems(seg[..|seg| - 1], level)
      case Panic(e) => Panic(e)
      case Normal(acc) => AddSegment(acc, seg[|seg| - 1])
  }

  /** Every item a line adds is unlinked: index 0, root 0 and an empty child list. */
  lemma {:induction false} SegmentItemsUnlinked(seg: seq<string>, level: nat)
    ensures SegmentItems(seg, level).Normal? ==>
      forall k :: 0 <= k < |SegmentItems(seg, level).value.items| ==> Unlinked(SegmentItems(seg, level).value.items[k])
    decreases |seg|
  {
    if seg != [] {
      SegmentItemsUnlinked(seg[..|seg| - 1], level);
      ParsePlainLineSpec(seg[|seg| - 1]);
    }
  }

  /** `Content`: the current level of the line parser and the item arena. */
  class Content {
    var currentLevel: nat
    var dataList: seq<Item>

    /** The sentinel stays first, with index 0 and root 0. */
    predicate Valid()
      reads this
    {
      |dataList| >= 1 && dataList[0].index == 0 && dataList[0].root == 0
    }

    /** Nothing linked yet: no item has a child list. */
    predicate Unbuilt()
      reads this
    {
      Valid() && forall j :: 0 <= j < |dataList| ==> dataList[j].subList == []
    }

    /** `Content::init`: level 0 and the sentinel item alone. */
    constructor Init()
      ensures currentLevel == 0 && dataList == [Sentinel]
      ensures Valid() && Unbuilt()
    {
      currentLevel := 0;
      dataList := [Sentinel];
    }

    /**
     * `parse_item_level`: an item deeper than the table's current level gets
     * root 0 and leaves the table as it was. Any other item at level `lv`
     * gets slot `lv` as its root; the table keeps slots `0 .. lv`, gains the
     * item's index as slot `lv + 1` (a push when `lv` is the current level,
     * an overwrite and truncation otherwise) and its level becomes `lv + 1`:
     * the step `Enter` and `RootAt` describe.
     */
    method ParseItemLevel(index: nat, t: LevelTable) returns (rootIndex: nat)
      requires index < |dataList| && t.Valid()
      modifies t
      ensures t.Valid()
      ensures Table(t.table, t.currentLevel) ==
        Enter(old(Table(t.table, t.currentLevel)), dataList[index].level, dataList[index].index)
      ensures rootIndex == RootAt(old(Table(t.table, t.currentLevel)), dataList[index].level)
    {
      var ent := dataList[index];
      if ent.level > t.currentLevel {
        return 0;
      }
      rootIndex := t.table[ent.level];
      if ent.level + 1 > t.currentLevel {
        t.table := t.table + [ent.index];
      } else {
        t.table := t.table[ent.level + 1 := ent.index];
        t.table := t.table[..ent.level + 2];
      }
      t.currentLevel := ent.level + 1;
    }

    /**
     * `parse_level`: every item `i >= 1` gets index `i` and the root the level
     * fold gives it; the sentinel and all other fields stay as they were.
     */
    method ParseLevel()
      requires Valid()
      modifies this
      ensures Valid() && currentLevel == old(currentLevel)
      ensures dataList == Leveled(old(dataList))
    {
      var t := new LevelTable.Seed();
      ghost var data0 := dataList;
      ghost var goal := Leveled(data0);
      assert LevelsOf(data0)[..0] == [];
      assert dataList == goal[..1] + data0[1..];
      var index := 1;
      while index < |dataList|
        invariant 1 <= index <= |dataList| == |data0|
        invariant currentLevel == old(currentLevel)
        invariant t.Valid() && Table(t.table, t.currentLevel) == Resolve(LevelsOf(data0)[..index - 1]).table
        invariant dataList == goal[..index] + data0[index..]
      {
        ghost var d := dataList;
        dataList := dataList[index := dataList[index].(index := index)];
        ghost var before := Table(t.table, t.currentLevel);
        var rootIndex := ParseItemLevel(index, t);
        LevelRound(data0, d, index, before, Table(t.table, t.currentLevel), rootIndex);
        dataList := dataList[index := dataList[index].(root := rootIndex)];
        assert dataList == d[index := d[index].(index := index, root := rootIndex)];
        index := index + 1;
      }
      assert goal[..index] == goal && data0[index..] == [];
    }

    /** `update_sub_list`: `subIndex` joins the end of item `rootIndex`'s child list. */
    method UpdateSubList(rootIndex: nat, subIndex: nat)
      requires rootIndex < |dataList|
      modifies this
      ensures currentLevel == old(currentLevel)
      ensures dataList == old(dataList)[rootIndex := old(dataList)[rootIndex].(subList := old(dataList)[rootIndex].subList + [subIndex])]
    {
      var item := dataList[rootIndex];
      dataList := dataList[rootIndex := item.(subList := item.subList + [subIndex])];
    }

    /** `get_root_from_index`: the index stored in the root item; on linked items, the root itself. */
    function GetRootFromIndex(index: nat): (r: nat)
      reads this
      requires index < |dataList| && dataList[index].root < |dataList|
      ensures Linked(dataList) ==> r == dataList[index].root
    {
      dataList[dataList[index].root].index
    }

    /** `parse_sub_arch`: every item `i >= 1` is appended to its parent's child list, in ascending order of `i`. */
    method ParseSubArch()
      requires Valid() && RootsInRange(dataList)
      modifies this
      ensures Valid() && currentLevel == old(currentLevel)
      ensures dataList == WithChildLists(old(dataList))
    {
      ghost var data0 := dataList;
      var index := 1;
      while index < |dataList|
        invariant 1 <= index <= |dataList| == |data0|
        invariant currentLevel == old(currentLevel)
        invariant SubArchAt(data0, dataList, index)
      {
        SubArchRoots(data0, dataList, index);
        var rootIndex := GetRootFromIndex(index);
        ghost var before := dataList;
        UpdateSubList(rootIndex, index);
        SubArchStep(data0, before, index);
        index := index + 1;
      }
      SubArchDone(data0, dataList);
    }

    /**
     * `build_sub_list`: the node `index` with the subtrees of its children
     * that are unprocessed when their turn comes, in child-list order; each
     * such child is marked processed once its subtree is attached.
     */
    method BuildSubList(index: nat, name: Option<string>, processed: array<bool>) returns (end: NeiEndpoint)
      requires Forward(dataList) && index < |dataList| && processed.Length == |dataList|
      modifies processed
      ensures fresh(end)
      ensures end.Value() == Build(dataList, index, name, Marked(old(processed[..]))).tree
      ensures Marked(processed[..]) == Build(dataList, index, name, Marked(old(processed[..]))).done
      decreases |dataList| - index
    {
      end := new NeiEndpoint.New(index, name);
      var kids := dataList[index].subList;
      ghost var done0 := Marked(processed[..]);
      var k := 0;
      while k < |kids|
        invariant 0 <= k <= |kids|
        invariant fresh(end) && end.index == index && end.name == name
        invariant Grow(dataList, index, k, done0) == Grown(end.Children(), Marked(processed[..]))
      {
        var c := kids[k];
        assert index < c < |dataList|;
        ghost var g := Grown(end.Children(), Marked(processed[..]));
        if !processed[c] {
          assert c !in g.done;
          var sub := BuildSubList(c, dataList[c].name, processed);
          GrowBuilt(dataList, index, k, done0, g, Build(dataList, c, dataList[c].name, g.done));
          end.Attach(sub);
          MarkOne(processed[..], c);
          processed[c] := true;
        } else {
          assert c in g.done;
          GrowSkipped(dataList, index, k, done0, g);
        }
        k := k + 1;
      }
    }

    /**
     * `parse_build_arch`: node 0 named "root" over a subtree for every item,
     * in index order, that no earlier subtree has taken in.
     */
    method ParseBuildArch() returns (end: NeiEndpoint)
      requires Forward(dataList)
      ensures fresh(end) && end.Value() == Arch(dataList)
    {
      end := new NeiEndpoint.New(0, Some("root"));
      var processed := new bool[|dataList|](_ => false);
      assert Marked(processed[..]) == {};
      var index := 1;
      while index < |dataList|
        invariant 1 <= index && (index <= |dataList| || |dataList| == 0)
        invariant fresh(end) && fresh(processed) && end.index == 0 && end.name == Some("root")
        invariant processed.Length == |dataList|
        invariant TopLevel(dataList, if index <= |dataList| then index else 0) == Grown(end.Children(), Marked(processed[..]))
      {
        if !processed[index] {
          assert index !in Marked(processed[..]);
          var sub := BuildSubList(index, dataList[index].name, processed);
          end.Attach(sub);
        } else {
          assert index in Marked(processed[..]);
        }
        index := index + 1;
      }
    }

    /**
     * `parse_plain`: the items of one line; `current_level` becomes the
     * line's level when the line sets one. The item list is not touched.
     */
    method ParsePlain(s: string) returns (r: Outcome<seq<Item>>)
      modifies this
      ensures dataList == old(dataList)
      ensures r.Panic? <==> ParsePlainLine(s).Panic?
      ensures r.Normal? ==> r.value == ParsePlainLine(s).value.items
      ensures r.Normal? && ParsePlainLine(s).value.newLevel.Some? ==> currentLevel == ParsePlainLine(s).value.newLevel.value
      ensures r.Normal? && ParsePlainLine(s).value.newLevel.None? ==> currentLevel == old(currentLevel)
    {
      var out := ParsePlainLine(s);
      match out
      case Panic(e) =>
        r := Panic(e);
      case Normal(o) =>
        if o.newLevel.Some? {
          currentLevel := o.newLevel.value;
        }
        r := Normal(o.items);
    }

    /**
     * `parse_item`: the items of every segment that is neither empty nor a
     * `//` comment are appended in order; a segment that panics ends the run.
     */
    method ParseItem(seg: seq<string>) returns (r: Outcome<()>)
      modifies this
      ensures r.Panic? <==> SegmentItems(seg, old(currentLevel)).Panic?
      ensures r.Normal? ==>
        dataList == old(dataList) + SegmentItems(seg, old(currentLevel)).value.items &&
        currentLevel == SegmentItems(seg, old(currentLevel)).value.level
    {
      ghost var level0 := currentLevel;
      ghost var added: seq<Item> := [];
      assert seg[..0] == [];
      var k := 0;
      while k < |seg|
        invariant 0 <= k <= |seg|
        invariant dataList == old(dataList) + added
        invariant SegmentItems(seg[..k], level0) == Normal(Parsed(added, currentLevel))
      {
        SegmentItemsNext(seg, k, level0);
        var rs := seg[k];
        if Skipped(rs) {
          k := k + 1;
          continue;
        }
        ghost var acc := Parsed(added, currentLevel);
        var ptc := ParsePlain(rs);
        if ptc.Panic? {
          SegmentItemsPanicStays(seg, k + 1, level0);
          return Panic(ptc.reason);
        }
        AddSegmentNormal(acc, rs, ptc.value, currentLevel);
        dataList := dataList + ptc.value;
        added := added + ptc.value;
        k := k + 1;
      }
      assert seg[..|seg|] == seg;
      r := Normal(());
    }
  }

  /** The list as `parse_sub_arch` leaves it after items `1 .. index-1`. */
  ghost predicate SubArchAt(data0: seq<Item>, data: seq<Item>, index: nat)
    requires RootsInRange(data0) && index <= |data0|
  {
    |data| == |data0| &&
    forall j :: 0 <= j < |data| ==>
      data[j] == data0[j].(subList := data0[j].subList + ChildIndices(data0, j, index))
  }

  /** Only child lists change, so the roots and indices still point where they did. */
  lemma SubArchRoots(data0: seq<Item>, data: seq<Item>, index: nat)
    requires RootsInRange(data0) && 1 <= index < |data0| && SubArchAt(data0, data, index)
    ensures data[index].root < |data| && data[data[index].root].index == ParentIndex(data0, index)
    ensures ParentIndex(data0, index) < |data|
  {
    assert data[index].root == data0[index].root;
    assert data[data0[index].root].index == data0[data0[index].root].index;
  }

  lemma SubArchStep(data0: seq<Item>, data: seq<Item>, index: nat)
    requires RootsInRange(data0) && 1 <= index < |data0| && SubArchAt(data0, data, index)
    requires ParentIndex(data0, index) < |data|
    ensures var p := ParentIndex(data0, index);
      SubArchAt(data0, data[p := data[p].(subList := data[p].subList + [index])], index + 1)
  {
    var p := ParentIndex(data0, index);
    var next := data[p := data[p].(subList := data[p].subList + [index])];
    forall j | 0 <= j < |next|
      ensures next[j] == data0[j].(subList := data0[j].subList + ChildIndices(data0, j, index + 1))
    {
      assert ChildIndices(data0, j, index + 1) ==
        ChildIndices(data0, j, index) + (if p == j then [index] else []);
    }
  }

  lemma SubArchDone(data0: seq<Item>, data: seq<Item>)
    requires RootsInRange(data0) && |data0| >= 1 && SubArchAt(data0, data, |data0|)
    ensures data == WithChildLists(data0)
  {
  }

  /** Setting one more flag marks exactly one more index. */
  lemma MarkOne(s: seq<bool>, c: nat)
    requires c < |s|
    ensures Marked(s[c := true]) == Marked(s) + {c}
  {
  }

  /** A parsed segment adds its items and moves the level to the one it sets, if any. */
  lemma AddSegmentNormal(acc: Parsed, rs: string, items: seq<Item>, level: nat)
    requires !Skipped(rs) && ParsePlainLine(rs).Normal? && items == ParsePlainLine(rs).value.items
    requires ParsePlainLine(rs).value.newLevel.Some? ==> level == ParsePlainLine(rs).value.newLevel.value
    requires ParsePlainLine(rs).value.newLevel.None? ==> level == acc.level
    ensures AddSegment(acc, rs) == Normal(Parsed(acc.items + items, level))
  {
  }

  /** The segments up to `k + 1`: those up to `k`, then segment `k`. */
  lemma SegmentItemsNext(seg: seq<string>, k: nat, level: nat)
    requires k < |seg|
    ensures SegmentItems(seg[..k + 1], level) ==
      match SegmentItems(seg[..k], level)
      case Panic(e) => Panic(e)
      case Normal(acc) => AddSegment(acc, seg[k])
  {
    assert seg[..k + 1][..k] == seg[..k];
  }

  /** Once a prefix of the segments panics, the whole list does. */
  lemma {:induction false} SegmentItemsPanicStays(seg: seq<string>, k: nat, level: nat)
    requires k <= |seg| && SegmentItems(seg[..k], level).Panic?
    ensures SegmentItems(seg, level).Panic?
    decreases |seg| - k
  {
    if k < |seg| {
      assert seg[..k + 1][..k] == seg[..k];
      SegmentItemsPanicStays(seg, k + 1, level);
    } else {
      assert seg[..k] == seg;
    }
  }
}

=== FILE: content_line.dfy ===
/**
 * The line parser of engine/content.rs: one content line becomes zero or
 * one `Item`. The two regular expressions of the source are explicit scans.
 */
module ContentLine {
  import opened Results
  import opened Text
  import opened FindUtil

  /** One content line; `index`, `root` and `subList` are filled in by later passes. */
  datatype Item = Item(
    level: nat,
    name: Option<string>,
    nameMacro: Option<string>,
    dir: Option<string>,
    relation: Option<string>,
    relMacro: Option<string>,
    index: nat,
    root: nat,
    subList: seq<nat>)

  /** The result of `element_parse`; only `body` and `attr` are ever set. */
  datatype Entity = Entity(index: nat, body: Option<string>, attr: Option<string>, level: nat, root: nat)

  /** The synthetic item at index 0 that `Content::init` puts first. */
  const Sentinel := Item(0, None, None, None, None, None, 0, 0, [])

  /** A freshly parsed item: index, root and child list not yet assigned. */
  function NewItem(level: nat, name: Option<string>, nameMacro: Option<string>,
                   dir: Option<string>, relation: Option<string>, relMacro: Option<string>): Item
  {
    Item(level, name, nameMacro, dir, relation, relMacro, 0, 0, [])
  }

  predicate Unlinked(it: Item) {
    it.index == 0 && it.root == 0 && it.subList == []
  }

  /**
   * `parse_root_item`: splits at single spaces; more than two pieces is
   * `Err("Invalid")`, one piece a name, two a name and its macro.
   */
  function ParseRootItem(s: string): (r: Result<Item>)
    ensures r.Err? <==> |Split(s, " ")| > 2
    ensures r.Ok? ==> Unlinked(r.value) && r.value.level == 0 && r.value.name.Some? && r.value.dir.None?
  {
    var tc := Split(s, " ");
    if |tc| > 2 then Err("Invalid")
    else
      var name := Trim(tc[0]);
      if |tc| == 1 then Ok(NewItem(0, Some(name), None, None, None, None))
      else Ok(NewItem(0, Some(name), Some(Trim(tc[1])), None, None, None))
  }

  /**
   * More than two space-separated pieces is `Err("Invalid")`; otherwise the
   * first piece, trimmed, is the name of an unlinked level-0 item with no
   * relation, and a second piece, trimmed, is its macro.
   */
  lemma RootItemSpec(s: string)
    ensures ParseRootItem(s).Err? <==> |Split(s, " ")| > 2
    ensures ParseRootItem(s).Err? ==> ParseRootItem(s).error == "Invalid"
    ensures ParseRootItem(s).Ok? ==>
      var it := ParseRootItem(s).value;
      Unlinked(it) && it.level == 0 && it.name == Some(Trim(Split(s, " ")[0])) &&
      it.dir == None && it.relation == None && it.relMacro == None &&
      (it.nameMacro.Some? <==> |Split(s, " ")| == 2)
    ensures |Split(s, " ")| == 1 ==>
      ParseRootItem(s) == Ok(NewItem(0, Some(Trim(Split(s, " ")[0])), None, None, None, None))
    ensures |Split(s, " ")| == 2 ==>
      ParseRootItem(s) == Ok(NewItem(0, Some(Trim(Split(s, " ")[0])), Some(Trim(Split(s, " ")[1])), None, None, None))
  {
  }

  /** A root line fails exactly when it holds two or more spaces, and carries a macro exactly when it holds one. */
  lemma RootItemBySpaces(s: string)
    ensures ParseRootItem(s).Err? <==> CountChar(s, ' ') >= 2
    ensures ParseRootItem(s).Ok? ==> (ParseRootItem(s).value.nameMacro.Some? <==> CountChar(s, ' ') == 1)
  {
    RootItemSpec(s);
    SplitCharCount(s, ' ');
  }

  /**
   * `element_parse`: the trimmed input up to its first space is the body, the
   * trimmed rest the attribute; each is `None` exactly when empty.
   */
  function ElementParse(s: string): (r: Option<Entity>)
    ensures r.Some? && r.value.index == 0 && r.value.level == 0 && r.value.root == 0
  {
    var newS := Trim(s);
    var ai := RunLength(newS, ' ', false);
    var body := Trim(newS[..ai]);
    var attr := if |body| < |newS| then Trim(newS[|body|..]) else "";
    Some(Entity(0, if |body| > 0 then Some(body) else None, if |attr| > 0 then Some(attr) else None, 0, 0))
  }

  /**
   * The body is `None` exactly when the trimmed input is empty; otherwise it
   * opens the trimmed input and holds no space. The attribute, when there is
   * one, closes the trimmed input, is its own trim and comes with a body;
   * without a space there is none.
   */
  lemma ElementParseSpec(s: string)
    ensures var r := ElementParse(s);
      r.Some? && r.value.index == 0 && r.value.level == 0 && r.value.root == 0 &&
      (r.value.body.None? <==> Trim(s) == []) &&
      (r.value.body.Some? ==> StartsWith(Trim(s), r.value.body.value) && ' ' !in r.value.body.value) &&
      (r.value.attr.Some? ==> EndsWith(Trim(s), r.value.attr.value) && Trim(r.value.attr.value) == r.value.attr.value) &&
      (r.value.attr.Some? ==> r.value.body.Some?) &&
      (' ' !in Trim(s) ==> r.value.attr.None?)
  {
    var newS := Trim(s);
    var ai := RunLength(newS, ' ', false);
    var body := Trim(newS[..ai]);
    var attr := if |body| < |newS| then Trim(newS[|body|..]) else "";
    ElementFacts(newS, ai, body, attr);
    var e := ElementParse(s).value;
    assert e.body == if |body| > 0 then Some(body) else None;
    assert e.attr == if |attr| > 0 then Some(attr) else None;
  }

  /**
   * The exact result: with `t` the trimmed input and `k` the length of its
   * run before the first space, the body is the trimmed `t[..k]` and the
   * attribute the trimmed `t[k..]`, each `None` when empty.
   */
  lemma ElementParseExact(s: string)
    ensures var t := Trim(s); var k := RunLength(t, ' ', false);
      ElementParse(s) == Some(Entity(0,
        if Trim(t[..k]) == [] then None else Some(Trim(t[..k])),
        if Trim(t[k..]) == [] then None else Some(Trim(t[k..])), 0, 0))
  {
    var t := Trim(s);
    var k := RunLength(t, ' ', false);
    var body := Trim(t[..k]);
    BodyFacts(t, k, body);
    BodyGap(t, k, body);
    if |body| < |t| {
      assert t[|body|..] == t[|body|..k] + t[k..];
      TrimWhitespacePrefix(t[|body|..k], t[k..]);
    } else {
      assert t[k..] == [];
    }
  }

  /** Between the body and the first space there is only whitespace. */
  lemma BodyGap(t: string, k: nat, body: string)
    requires t == [] || !IsWhitespace(t[0])
    requires k == RunLength(t, ' ', false) && body == Trim(t[..k])
    ensures |body| <= k
    ensures forall i :: |body| <= i < k ==> IsWhitespace(t[i])
  {
    var p := t[..k];
    TrimStartKeeps(p);
    assert body == TrimEnd(p);
    TrimEndDropsWhitespace(p);
    forall i | |body| <= i < k ensures IsWhitespace(t[i]) {
      assert t[i] == p[i];
    }
  }

  lemma ElementFacts(newS: string, ai: nat, body: string, attr: string)
    requires newS == [] || (!IsWhitespace(newS[0]) && !IsWhitespace(newS[|newS| - 1]))
    requires ai == RunLength(newS, ' ', false) && body == Trim(newS[..ai])
    requires attr == if |body| < |newS| then Trim(newS[|body|..]) else ""
    ensures body == [] <==> newS == []
    ensures StartsWith(newS, body) && ' ' !in body
    ensures EndsWith(newS, attr) && Trim(attr) == attr
    ensures attr != [] ==> body != []
    ensures ' ' !in newS ==> attr == []
  {
    BodyFacts(newS, ai, body);
    if |body| < |newS| {
      AttrFacts(newS, |body|, attr);
      if ' ' !in newS {
        NoSpaceBody(newS, ai, body);
      }
    }
  }

  /** The run before the first space holds no space. */
  lemma RunPrefixNoSpace(s: string, p: string)
    requires p == s[..RunLength(s, ' ', false)]
    ensures forall i :: 0 <= i < |p| ==> p[i] != ' '
  {
    RunLengthSpec(s, ' ', false);
  }

  lemma TrimEndNoSpace(p: string)
    requires forall i :: 0 <= i < |p| ==> p[i] != ' '
    ensures forall i :: 0 <= i < |TrimEnd(p)| ==> TrimEnd(p)[i] != ' '
  {
    assert TrimEnd(p) == p[..|TrimEnd(p)|];
  }

  lemma BodyFacts(newS: string, ai: nat, body: string)
    requires newS == [] || !IsWhitespace(newS[0])
    requires ai == RunLength(newS, ' ', false) && body == Trim(newS[..ai])
    ensures body == [] <==> newS == []
    ensures |body| <= |newS| && newS[..|body|] == body
    ensures ' ' !in body
  {
    var p := newS[..ai];
    TrimStartKeeps(p);
    assert body == TrimEnd(p);
    RunPrefixNoSpace(newS, p);
    TrimEndNoSpace(p);
    if newS != [] {
      assert p[0] == newS[0];
      TrimEndNonEmpty(p);
    }
    assert body == p[..|body|];
  }

  lemma AttrFacts(newS: string, n: nat, attr: string)
    requires newS != [] && !IsWhitespace(newS[|newS| - 1])
    requires n < |newS| && attr == Trim(newS[n..])
    ensures EndsWith(newS, attr) && Trim(attr) == attr
  {
    TrimIdempotent(newS[n..]);
    SuffixTrimEnds(newS, n);
  }

  /** Trimming a suffix of a text without trailing whitespace leaves a suffix of the text. */
  lemma SuffixTrimEnds(s: string, n: nat)
    requires s != [] && !IsWhitespace(s[|s| - 1]) && n < |s|
    ensures EndsWith(s, Trim(s[n..]))
  {
    var rest := s[n..];
    assert rest[|rest| - 1] == s[|s| - 1];
    TrimOfUnpaddedEnd(rest);
    EndsWithDrop(s, n, Trim(rest));
  }

  lemma NoSpaceBody(newS: string, ai: nat, body: string)
    requires newS == [] || (!IsWhitespace(newS[0]) && !IsWhitespace(newS[|newS| - 1]))
    requires ai == RunLength(newS, ' ', false) && body == Trim(newS[..ai])
    requires ' ' !in newS
    ensures body == newS
  {
    RunLengthSpec(newS, ' ', false);
    assert newS[..ai] == newS;
    TrimOfTrimmed(newS);
  }

  /** The three relation marks. */
  predicate IsRelSymbol(c: char) {
    c == '+' || c == '-' || c == '*'
  }

  /** A relation direction: one of the three marks, as a one-character string. */
  predicate IsDir(d: Option<string>) {
    d.Some? && |d.value| == 1 && IsRelSymbol(d.value[0])
  }

  /** Position of the last relation mark in `s`: where the greedy `(.*)[+\-*](.*)` splits a segment. */
  function LastSymbol(s: string): (r: Option<nat>)
    ensures r.Some? ==> r.value < |s| && IsRelSymbol(s[r.value])
    ensures r.Some? ==> forall j :: r.value < j < |s| ==> !IsRelSymbol(s[j])
    ensures r.None? ==> forall j :: 0 <= j < |s| ==> !IsRelSymbol(s[j])
    decreases |s|
  {
    if s == [] then None
    else if IsRelSymbol(s[|s| - 1]) then Some(|s| - 1)
    else LastSymbol(s[..|s| - 1])
  }

  /**
   * The newline-separated segments of the line that contain a relation mark.
   * `.` does not match a newline, so each of them yields one match of the
   * first pattern (two capture groups), and none of the others does.
   */
  function SymbolSegments(segs: seq<string>): (r: seq<string>)
    ensures forall k :: 0 <= k < |r| ==> LastSymbol(r[k]).Some?
  {
    if segs == [] then []
    else SymbolSegments(segs[..|segs| - 1]) + (if LastSymbol(segs[|segs| - 1]).Some? then [segs[|segs| - 1]] else [])
  }

  lemma {:induction false} NoSymbolSegments(segs: seq<string>)
    requires forall k :: 0 <= k < |segs| ==> LastSymbol(segs[k]).None?
    ensures SymbolSegments(segs) == []
  {
    if segs != [] {
      NoSymbolSegments(segs[..|segs| - 1]);
    }
  }

  /**
   * The mark of the last non-overlapping ` X ` (space, mark, space) found
   * scanning left to right from `from`: the loop over every match of
   * `[ ][+\-*][ ]` keeps overwriting `dir`, so the last match wins.
   */
  function LastSpacedSymbol(s: string, from: nat, found: Option<char>): (r: Option<char>)
    ensures r.Some? ==> IsRelSymbol(r.value) || r == found
    ensures r.None? ==> found.None?
    ensures (forall j :: from <= j ==> !SpacedAt(s, j)) ==> r == found
    decreases |s| - from
  {
    if from + 3 > |s| then found
    else if SpacedAt(s, from) then
      LastSpacedSymbol(s, from + 3, Some(s[from + 1]))
    else LastSpacedSymbol(s, from + 1, found)
  }

  /** A ` X ` match (space, mark, space) starts at `j`. */
  predicate SpacedAt(s: string, j: nat) {
    j + 3 <= |s| && s[j] == ' ' && IsRelSymbol(s[j + 1]) && s[j + 2] == ' '
  }

  /**
   * With a match from `from` on, the scan returns the mark of a match after
   * which no match starts: the last one the non-overlapping scan meets.
   */
  lemma {:induction false} LastSpacedSymbolSpec(s: string, from: nat, found: Option<char>)
    ensures (exists j :: from <= j && SpacedAt(s, j)) ==>
      exists j :: from <= j && SpacedAt(s, j) && LastSpacedSymbol(s, from, found) == Some(s[j + 1]) &&
        forall i :: j + 3 <= i ==> !SpacedAt(s, i)
    decreases |s| - from
  {
    if from + 3 <= |s| {
      if SpacedAt(s, from) {
        LastSpacedSymbolSpec(s, from + 3, Some(s[from + 1]));
        if forall i :: from + 3 <= i ==> !SpacedAt(s, i) {
          assert LastSpacedSymbol(s, from, found) == Some(s[from + 1]);
        }
      } else {
        LastSpacedSymbolSpec(s, from + 1, found);
        if exists j :: from <= j && SpacedAt(s, j) {
          var j :| from <= j && SpacedAt(s, j);
          assert from + 1 <= j;
        }
      }
    }
  }

  /** No ` X ` anywhere from `from` on leaves the scan with nothing new. */
  lemma {:induction false} NoSpacedSymbol(s: string, from: nat)
    requires forall j :: from <= j && j + 3 <= |s| ==> !(s[j] == ' ' && IsRelSymbol(s[j + 1]) && s[j + 2] == ' ')
    ensures LastSpacedSymbol(s, from, None) == None
    decreases |s| - from
  {
    if from + 3 <= |s| {
      NoSpacedSymbol(s, from + 1);
    }
  }

  /** What `parse_plain` produces: the items, and the new `current_level` (`None`: unchanged). */
  datatype PlainOutcome = PlainOutcome(items: seq<Item>, newLevel: Option<nat>)

  /** Leading spaces of an indented line. */
  function Indent(s: string): nat {
    RunLength(s, ' ', true)
  }

  /**
   * The item of a relation segment `seg` (one holding a mark at `k`) with
   * direction `d`: both sides of the mark, trimmed twice, must be non-empty.
   */
  function RelationItem(seg: string, k: nat, d: char, level: nat): (r: seq<Item>)
    requires k < |seg| && IsRelSymbol(d)
    ensures |r| <= 1
    ensures |r| == 1 ==> r[0].level == level && r[0].dir == Some([d]) && Unlinked(r[0])
  {
    var rawName := Trim(Trim(seg[..k]));
    var rawRel := Trim(Trim(seg[k + 1..]));
    if |rawName| == 0 || |rawRel| == 0 then []
    else
      var nameEntity := ElementParse(rawName).value;
      var relEntity := ElementParse(rawRel).value;
      [NewItem(level, nameEntity.body, nameEntity.attr, Some([d]), relEntity.body, relEntity.attr)]
  }

  /** A relation item exists exactly when both sides of the mark are non-blank; it carries the mark, a name and a relation. */
  lemma RelationItemSpec(seg: string, k: nat, d: char, level: nat)
    requires k < |seg| && IsRelSymbol(d)
    ensures var r := RelationItem(seg, k, d, level);
      |r| <= 1 &&
      (|r| == 1 <==> Trim(seg[..k]) != [] && Trim(seg[k + 1..]) != []) &&
      (|r| == 1 ==> Unlinked(r[0]) && r[0].level == level && r[0].dir == Some([d])) &&
      (|r| == 1 ==> r[0].name.Some? && r[0].relation.Some?)
  {
    TrimIdempotent(seg[..k]);
    TrimIdempotent(seg[k + 1..]);
    ElementParseSpec(Trim(Trim(seg[..k])));
    ElementParseSpec(Trim(Trim(seg[k + 1..])));
  }

  /** The relation form of an indented line at `level`. */
  function RelationItems(s: string, level: nat): (r: seq<Item>)
    ensures |r| <= 1
    ensures |r| == 1 ==> r[0].level == level && IsDir(r[0].dir)
  {
    var segs := SymbolSegments(Split(s, "\n"));
    if |segs| != 1 then []
    else
      var seg := segs[0];
      match LastSpacedSymbol(s, 0, None)
      case None => []
      case Some(d) => RelationItem(seg, LastSymbol(seg).value, d, level)
  }

  /** At most one item, and when there is one it is unlinked, at `level`, with a direction, a name and a relation. */
  lemma RelationItemsSpec(s: string, level: nat)
    ensures var r := RelationItems(s, level);
      |r| <= 1 &&
      (|r| == 1 ==> Unlinked(r[0]) && r[0].level == level && IsDir(r[0].dir)) &&
      (|r| == 1 ==> r[0].name.Some? && r[0].relation.Some?)
  {
    var segs := SymbolSegments(Split(s, "\n"));
    if |segs| == 1 {
      var seg := segs[0];
      match LastSpacedSymbol(s, 0, None)
      case None =>
      case Some(d) =>
        RelationItemSpec(seg, LastSymbol(seg).value, d, level);
    }
  }

  /**
   * `parse_plain`. A line not opening with two spaces is a root item (a
   * parse failure there is the source's `unwrap` panic). An indented line
   * with an odd number of leading spaces yields nothing; otherwise its level
   * is half that number, and it is a relation when it holds a relation mark.
   */
  function ParsePlainLine(s: string): (r: Outcome<PlainOutcome>)
    ensures r.Panic? ==> !StartsWith(s, "  ") && |Split(s, " ")| > 2
  {
    if !StartsWith(s, "  ") then
      match ParseRootItem(s)
      case Err(e) => Panic("called `Result::unwrap()` on an `Err` value: " + e)
      case Ok(root) => Normal(PlainOutcome([root], Some(0)))
    else
      var spaces := Indent(s);
      if spaces % 2 != 0 then Normal(PlainOutcome([], None))
      else
        var level := spaces / 2;
        if forall j :: 0 <= j < |s| ==> !IsRelSymbol(s[j]) then
          var e := ElementParse(Trim(s)).value;
          Normal(PlainOutcome([NewItem(level, e.body, e.attr, None, None, None)], Some(level)))
        else
          Normal(PlainOutcome(RelationItems(s, level), Some(level)))
  }

  /** A line gives at most one item, unlinked, whose direction is a relation mark when it has one. */
  lemma ParsePlainLineSpec(s: string)
    ensures ParsePlainLine(s).Normal? ==> |ParsePlainLine(s).value.items| <= 1
    ensures ParsePlainLine(s).Normal? ==> forall k :: 0 <= k < |ParsePlainLine(s).value.items| ==>
      Unlinked(ParsePlainLine(s).value.items[k]) &&
      (ParsePlainLine(s).value.items[k].dir.None? || IsDir(ParsePlainLine(s).value.items[k].dir))
  {
    if !StartsWith(s, "  ") {
      RootLine(s);
    } else if Indent(s) % 2 == 0 {
      if forall j :: 0 <= j < |s| ==> !IsRelSymbol(s[j]) {
        EntityLine(s);
      } else {
        RelationLine(s);
      }
    }
  }

  /** An indented line with an odd number of leading spaces gives nothing and leaves the level alone. */
  lemma OddLine(s: string)
    requires StartsWith(s, "  ") && Indent(s) % 2 == 1
    ensures ParsePlainLine(s) == Normal(PlainOutcome([], None))
  {
  }

  /** An indented line with an even number of leading spaces sets the level to half of it, and its item sits there. */
  lemma EvenLine(s: string)
    requires StartsWith(s, "  ") && Indent(s) % 2 == 0
    ensures ParsePlainLine(s).Normal? && ParsePlainLine(s).value.newLevel == Some(Indent(s) / 2)
    ensures forall k :: 0 <= k < |ParsePlainLine(s).value.items| ==> ParsePlainLine(s).value.items[k].level == Indent(s) / 2
  {
    if forall j :: 0 <= j < |s| ==> !IsRelSymbol(s[j]) {
      EntityLine(s);
    } else {
      RelationLine(s);
    }
  }

  /** An unindented line is a root item, or the panic of its failure. */
  lemma RootLine(s: string)
    requires !StartsWith(s, "  ")
    ensures ParsePlainLine(s).Panic? <==> ParseRootItem(s).Err?
    ensures ParsePlainLine(s).Normal? ==>
      ParsePlainLine(s).value.newLevel == Some(0) && ParsePlainLine(s).value.items == [ParseRootItem(s).value] &&
      Unlinked(ParseRootItem(s).value) && ParseRootItem(s).value.dir.None?
  {
    RootItemSpec(s);
  }

  /** An evenly indented line without a relation mark is one plain entity at half the indent. */
  lemma EntityLine(s: string)
    requires StartsWith(s, "  ") && Indent(s) % 2 == 0
    requires forall j :: 0 <= j < |s| ==> !IsRelSymbol(s[j])
    ensures var e := ElementParse(Trim(s)).value;
      ParsePlainLine(s) == Normal(PlainOutcome([NewItem(Indent(s) / 2, e.body, e.attr, None, None, None)], Some(Indent(s) / 2)))
  {
  }

  /** An evenly indented line with a relation mark gives the relation items at half the indent. */
  lemma RelationLine(s: string)
    requires StartsWith(s, "  ") && Indent(s) % 2 == 0
    requires exists j :: 0 <= j < |s| && IsRelSymbol(s[j])
    ensures ParsePlainLine(s) == Normal(PlainOutcome(RelationItems(s, Indent(s) / 2), Some(Indent(s) / 2)))
    ensures var r := RelationItems(s, Indent(s) / 2);
      |r| <= 1 && (|r| == 1 ==> Unlinked(r[0]) && r[0].level == Indent(s) / 2 && IsDir(r[0].dir))
  {
    RelationItemsSpec(s, Indent(s) / 2);
  }

  /** An indented line without any relation mark is a plain entity: one item, no relation. */
  lemma PlainEntityLine(s: string)
    requires StartsWith(s, "  ") && Indent(s) % 2 == 0
    requires forall j :: 0 <= j < |s| ==> !IsRelSymbol(s[j])
    ensures ParsePlainLine(s).Normal? && |ParsePlainLine(s).value.items| == 1
    ensures ParsePlainLine(s).value.items[0].dir == None && ParsePlainLine(s).value.items[0].relation == None
    ensures ParsePlainLine(s).value.items[0].name.Some? <==> Trim(s) != []
  {
    TrimIdempotent(s);
    ElementParseSpec(Trim(s));
  }

  /** A relation item needs a ` X ` somewhere in the line; without one the line yields nothing. */
  lemma RelationNeedsSpacedMark(s: string)
    requires StartsWith(s, "  ") && Indent(s) % 2 == 0
    requires exists j :: 0 <= j < |s| && IsRelSymbol(s[j])
    requires forall j :: 0 <= j && j + 3 <= |s| ==> !(s[j] == ' ' && IsRelSymbol(s[j + 1]) && s[j + 2] == ' ')
    ensures ParsePlainLine(s) == Normal(PlainOutcome([], Some(Indent(s) / 2)))
  {
    NoSpacedSymbol(s, 0);
  }
}

=== FILE: endpoint.dfy ===
/**
 * The output nodes of engine/endpoint.rs. A child is moved into its parent
 * by `attach`, so after the call nothing else can reach it: a parent's list
 * of children is modelled as a sequence of values (`Tree`, `Named`).
 */
module EndpointTree {
  import opened Results

  /** A `NeiEndpoint` as a value: index, optional name, children in order. */
  datatype Tree = Tree(index: nat, name: Option<string>, children: seq<Tree>)

  /** The indices of `t` in depth-first preorder. */
  function Nodes(t: Tree): seq<nat>
    decreases t
  {
    [t.index] + NodesOf(t.children)
  }

  /** The preorders of `ts`, one after another. */
  function NodesOf(ts: seq<Tree>): seq<nat>
    decreases ts
  {
    if ts == [] then [] else NodesOf(ts[..|ts| - 1]) + Nodes(ts[|ts| - 1])
  }

  /** `NeiEndpoint`: a node of the built forest with an ordered list of children. */
  class NeiEndpoint {
    var index: nat
    var name: Option<string>
    var neighbor: Option<seq<Tree>>

    /** `NeiEndpoint::new`: the given index and name, no neighbours yet. */
    constructor New(index: nat, name: Option<string>)
      ensures this.index == index && this.name == name && neighbor == None
      ensures Value() == Tree(index, name, [])
    {
      this.index := index;
      this.name := name;
      neighbor := None;
    }

    function Children(): seq<Tree>
      reads this
    {
      match neighbor
      case Some(list) => list
      case None => []
    }

    function Value(): Tree
      reads this
    {
      Tree(index, name, Children())
    }

    /**
     * `NeiEndpoint::attach`: `sub` becomes the last child; earlier children
     * keep their order; the first attach creates a one-element list. The
     * node's own index and name do not change.
     */
    method Attach(sub: NeiEndpoint)
      modifies this
      ensures index == old(index) && name == old(name)
      ensures neighbor == Some(old(Children()) + [old(sub.Value())])
      ensures old(neighbor) == None ==> neighbor == Some([old(sub.Value())])
      ensures Value() == Tree(index, name, old(Children()) + [old(sub.Value())])
    {
      var v := sub.Value();
      match neighbor {
        case Some(list) =>
          neighbor := Some(list + [v]);
        case None =>
          assert Children() + [v] == [v];
          neighbor := Some([v]);
      }
    }
  }

  /** An `Endpoint` as a value: its name and its children keyed by name. */
  datatype Named = Named(name: string, children: map<string, Named>)

  /** `Endpoint`: a node whose children are keyed by their names. */
  class Endpoint {
    var name: string
    var root: Endpoint?
    var neighbor: Option<map<string, Named>>

    /** `Endpoint::new`: the given name, no parent, no children. */
    constructor New(input: string)
      ensures name == input && root == null && neighbor == None
    {
      name := input;
      root := null;
      neighbor := None;
    }

    function Children(): map<string, Named>
      reads this
    {
      match neighbor
      case Some(m) => m
      case None => map[]
    }

    function Value(): Named
      reads this
    {
      Named(name, Children())
    }

    /**
     * `Endpoint::attach`: inserts `sub` under its own name, replacing any
     * child of that name; every other child stays. Always `Ok`.
     */
    method Attach(sub: Endpoint) returns (r: Result<()>)
      modifies this
      ensures r == Ok(())
      ensures name == old(name) && root == old(root)
      ensures neighbor == Some(old(Children())[old(sub.name) := old(sub.Value())])
      ensures forall k :: k in old(Children()) && k != old(sub.name) ==> k in Children() && Children()[k] == old(Children())[k]
    {
      var v := sub.Value();
      var key := sub.name;
      match neighbor {
        case Some(m) =>
          neighbor := Some(m[key := v]);
        case None =>
          neighbor := Some(map[key := v]);
      }
      r := Ok(());
    }
  }
}

=== FILE: engine.dfy ===
/**
 * The driver of engine/engine.rs: every line of the outline file is cut
 * into segments and handed to the section the last marker line opened
 * (`#[import]` or `#[content]`); then the content passes link the items and
 * build the forest that `compile` returns.
 */
module SegmentEngine {
  import opened Results
  import opened StripUtil
  import opened ParseUtil
  import opened ContentLine
  import opened Levels
  import opened Forest
  import opened EndpointTree
  import opened ContentEngine
  import ImportEngine

  datatype SegmentType = SegInit | SegImport | SegContent

  /** A line of the file: its number (from 1) and its segments. */
  datatype LineContext = LineContext(lineNumber: nat, seg: seq<string>)

  /** The section a marker segment opens; other segments open none. */
  function Marker(s: string): (r: Option<SegmentType>)
    ensures r.Some? <==> s == "#[import]" || s == "#[content]"
    ensures r.Some? ==> r.value != SegInit
  {
    if s == "#[import]" then Some(SegImport)
    else if s == "#[content]" then Some(SegContent)
    else None
  }

  /** Some segment of the line is a marker. */
  predicate HasMarker(seg: seq<string>) {
    seg != [] && (HasMarker(seg[..|seg| - 1]) || Marker(seg[|seg| - 1]).Some?)
  }

  /** The section after the markers of `seg`, read left to right, starting in `status`. */
  function StatusAfter(seg: seq<string>, status: SegmentType): SegmentType {
    if seg == [] then status
    else
      var m := Marker(seg[|seg| - 1]);
      if m.Some? then m.value else StatusAfter(seg[..|seg| - 1], status)
  }

  /** A line has a marker exactly when one of its segments is one. */
  lemma {:induction false} HasMarkerIff(seg: seq<string>)
    ensures HasMarker(seg) <==> exists k :: 0 <= k < |seg| && Marker(seg[k]).Some?
    decreases |seg|
  {
    if seg != [] {
      var init := seg[..|seg| - 1];
      HasMarkerIff(init);
      if HasMarker(init) {
        var k :| 0 <= k < |init| && Marker(init[k]).Some?;
        assert seg[k] == init[k];
      }
      if k :| 0 <= k < |seg| - 1 && Marker(seg[k]).Some? {
        assert init[k] == seg[k];
      }
    }
  }

  /** A line without markers leaves the section as it was. */
  lemma {:induction false} NoMarkerKeepsStatus(seg: seq<string>, status: SegmentType)
    requires !HasMarker(seg)
    ensures StatusAfter(seg, status) == status
    decreases |seg|
  {
    if seg != [] {
      NoMarkerKeepsStatus(seg[..|seg| - 1], status);
    }
  }

  /** The section is the one the last marker of the line opens. */
  lemma {:induction false} LastMarkerWins(seg: seq<string>, status: SegmentType, k: nat)
    requires k < |seg| && Marker(seg[k]).Some?
    requires forall j :: k < j < |seg| ==> Marker(seg[j]).None?
    ensures StatusAfter(seg, status) == Marker(seg[k]).value
    decreases |seg|
  {
    if k < |seg| - 1 {
      var init := seg[..|seg| - 1];
      assert init[k] == seg[k];
      forall j | k < j < |init| ensures Marker(init[j]).None? {
        assert init[j] == seg[j];
      }
      LastMarkerWins(init, status, k);
    }
  }

  /** What the parse state of the engine holds: the section, the content level and the content items. */
  datatype Session = Session(status: SegmentType, level: nat, items: seq<Item>)

  /**
   * `parse_raw_line`: nothing before the first marker; the import section
   * only reads the line (it can panic); the content section adds the
   * line's items.
   */
  function RawStep(st: Session, seg: seq<string>): (r: Outcome<Session>)
    ensures r.Normal? ==> r.value.status == st.status && |st.items| <= |r.value.items| && r.value.items[..|st.items|] == st.items
    ensures r.Panic? ==> st.status != SegInit
  {
    match st.status
    case SegInit => Normal(st)
    case SegImport =>
      (match ImportEngine.ImportLines(seg)
       case Panic(e) => Panic(e)
       case Normal(_) => Normal(st))
    case SegContent =>
      (match SegmentItems(seg, st.level)
       case Panic(e) => Panic(e)
       case Normal(p) => Normal(st.(level := p.level, items := st.items + p.items)))
  }

  /**
   * `parse_line`: an empty line does nothing; a line with a marker switches
   * to the last marker's section and is not parsed; any other line is
   * parsed in the current section.
   */
  function LineStep(st: Session, seg: seq<string>): (r: Outcome<Session>)
    ensures r.Normal? ==> |st.items| <= |r.value.items| && r.value.items[..|st.items|] == st.items
    ensures r.Panic? ==> |seg| >= 1 && !HasMarker(seg) && st.status != SegInit
  {
    if |seg| < 1 then Normal(st)
    else if HasMarker(seg) then Normal(st.(status := StatusAfter(seg, st.status)))
    else RawStep(st, seg)
  }

  /** The lines parsed one after another, up to the first that panics. */
  function Run(st: Session, lines: seq<seq<string>>): (r: Outcome<Session>)
    ensures r.Normal? ==> |st.items| <= |r.value.items| && r.value.items[..|st.items|] == st.items
  {
    if lines == [] then Normal(st)
    else
      match Run(st, lines[..|lines| - 1])
      case Panic(e) => Panic(e)
      case Normal(s) => LineStep(s, lines[|lines| - 1])
  }

  /** Once a prefix of the lines panics, the whole run does. */
  lemma {:induction false} RunPanicStays(st: Session, lines: seq<seq<string>>, k: nat)
    requires k <= |lines| && Run(st, lines[..k]).Panic?
    ensures Run(st, lines).Panic?
    decreases |lines| - k
  {
    if k < |lines| {
      assert lines[..k + 1][..k] == lines[..k];
      RunPanicStays(st, lines, k + 1);
    } else {
      assert lines[..k] == lines;
    }
  }

  /** Items the content passes have not linked yet, behind the sentinel. */
  predicate UnbuiltItems(items: seq<Item>) {
    |items| >= 1 && items[0].index == 0 && items[0].root == 0 &&
    forall j :: 0 <= j < |items| ==> items[j].subList == []
  }

  /** A line keeps the items unlinked: the content section only appends freshly parsed items. */
  lemma LineStepUnbuilt(st: Session, seg: seq<string>)
    requires UnbuiltItems(st.items) && LineStep(st, seg).Normal?
    ensures UnbuiltItems(LineStep(st, seg).value.items)
    ensures st.items <= LineStep(st, seg).value.items
  {
    SegmentItemsUnlinked(seg, st.level);
    var r := LineStep(st, seg).value;
    if st.status == SegContent && |seg| >= 1 && !HasMarker(seg) {
      var added := SegmentItems(seg, st.level).value.items;
      assert r.items == st.items + added;
      forall j | 0 <= j < |r.items| ensures r.items[j].subList == [] {
        if j >= |st.items| {
          assert r.items[j] == added[j - |st.items|];
        }
      }
    }
  }

  /** A run from unlinked items keeps them unlinked, and only ever appends. */
  lemma {:induction false} RunUnbuilt(st: Session, lines: seq<seq<string>>)
    requires UnbuiltItems(st.items) && Run(st, lines).Normal?
    ensures UnbuiltItems(Run(st, lines).value.items)
    ensures st.items <= Run(st, lines).value.items
    decreases |lines|
  {
    if lines != [] {
      var init := lines[..|lines| - 1];
      RunUnbuilt(st, init);
      var mid := Run(st, init).value;
      LineStepUnbuilt(mid, lines[|lines| - 1]);
    }
  }

  /**
   * The content passes that follow the reading: `parse_level` gives every
   * item its index and root, `parse_sub_arch` the lists of its children.
   * Items that are not in the shape reading leaves are mapped to the empty
   * list.
   */
  ghost function Linking(items: seq<Item>): (r: seq<Item>)
    ensures Forward(r)
  {
    if UnbuiltItems(items) then
      LeveledLinked(items);
      ChildListsForward(Leveled(items));
      WithChildLists(Leveled(items))
    else []
  }

  /**
   * The forest `compile` returns has the sentinel 0 at its root and holds
   * every item of the file exactly once, top-level items in file order.
   */
  lemma CompiledForest(items: seq<Item>)
    requires UnbuiltItems(items)
    ensures |Linking(items)| == |items|
    ensures Nodes(Arch(Linking(items)))[0] == 0 && NoDup(Nodes(Arch(Linking(items))))
    ensures forall v: nat :: v in Nodes(Arch(Linking(items))) <==> v < |items|
  {
    ArchCoversOnce(Linking(items));
  }

  /** A line with a marker only switches the section. */
  lemma MarkerLineSwitches(st: Session, seg: seq<string>, k: nat)
    requires k < |seg| && Marker(seg[k]).Some?
    ensures LineStep(st, seg) == Normal(st.(status := StatusAfter(seg, st.status)))
  {
    HasMarkerIff(seg);
  }

  /** Before the first marker, lines are dropped unread. */
  lemma InitIgnoresLines(st: Session, seg: seq<string>)
    requires st.status == SegInit
    ensures LineStep(st, seg).Normal?
    ensures LineStep(st, seg).value.level == st.level && LineStep(st, seg).value.items == st.items
  {
  }

  /** Lines of the import section never change the content items. */
  lemma ImportKeepsContent(st: Session, seg: seq<string>)
    requires st.status == SegImport
    ensures LineStep(st, seg).Normal? ==>
      LineStep(st, seg).value.level == st.level && LineStep(st, seg).value.items == st.items
  {
  }

  /** The segments of each line as `compile` reads them: trailing newlines stripped, the rest one segment. */
  function Segments(lines: seq<string>): (r: seq<seq<string>>)
    ensures |r| == |lines|
  {
    seq(|lines|, k requires 0 <= k < |lines| => ParseSimple(WithoutTrailing(lines[k], '\n')))
  }

  /** `Engine`: the current section and the two section parsers. */
  class Engine {
    var segStatus: SegmentType
    const importData: ImportEngine.Import
    const contentData: Content

    /** `Engine::init`: no section yet, both parsers fresh. */
    constructor Init()
      ensures segStatus == SegInit && fresh(importData) && fresh(contentData)
      ensures importData.dataList == [] && contentData.currentLevel == 0 && contentData.dataList == [Sentinel]
      ensures contentData.Unbuilt()
    {
      segStatus := SegInit;
      importData := new ImportEngine.Import.Init();
      contentData := new Content.Init();
    }

    /** The parse state: the section, the content level and the content items. */
    function Snapshot(): Session
      reads this, contentData
    {
      Session(segStatus, contentData.currentLevel, contentData.dataList)
    }

    /** `seg_status_switch`: the section becomes `status` (unchanged if it already is). */
    method SegStatusSwitch(status: SegmentType)
      modifies this
      ensures segStatus == status
    {
      if status == segStatus {
        return;
      }
      segStatus := status;
    }

    /** `parse_raw_line`: the line goes to the parser of the current section. */
    method ParseRawLine(linec: LineContext) returns (r: Outcome<()>)
      modifies contentData
      ensures r.Panic? <==> RawStep(old(Snapshot()), linec.seg).Panic?
      ensures r.Normal? ==> Snapshot() == RawStep(old(Snapshot()), linec.seg).value
    {
      match segStatus
      case SegInit =>
        r := Normal(());
      case SegImport =>
        r := importData.ParseItem(linec.seg);
      case SegContent =>
        r := contentData.ParseItem(linec.seg);
    }

    /** `parse_line`: markers switch the section, and a line without one is parsed in it. */
    method ParseLine(linec: LineContext) returns (r: Outcome<()>)
      modifies this, contentData
      ensures r.Panic? <==> LineStep(old(Snapshot()), linec.seg).Panic?
      ensures r.Normal? ==> Snapshot() == LineStep(old(Snapshot()), linec.seg).value
    {
      var line := linec.seg;
      if |line| < 1 {
        return Normal(());
      }
      var segSkip := false;
      for k := 0 to |line|
        invariant segStatus == StatusAfter(line[..k], old(segStatus))
        invariant segSkip == HasMarker(line[..k])
        invariant contentData.currentLevel == old(contentData.currentLevel)
        invariant contentData.dataList == old(contentData.dataList)
      {
        assert line[..k + 1][..k] == line[..k];
        if line[k] == "#[import]" {
          SegStatusSwitch(SegImport);
          segSkip := true;
        } else if line[k] == "#[content]" {
          SegStatusSwitch(SegContent);
          segSkip := true;
        }
      }
      assert line[..|line|] == line;
      if !segSkip {
        NoMarkerKeepsStatus(line, old(segStatus));
        r := ParseRawLine(linec);
      } else {
        r := Normal(());
      }
    }

    /**
     * The passes `compile` runs once every line is read: levels and roots,
     * then child lists, then the forest of endpoints.
     */
    method BuildArch() returns (end: NeiEndpoint)
      requires contentData.Unbuilt()
      modifies contentData
      ensures fresh(end) && end.Value() == Arch(Linking(old(contentData.dataList)))
    {
      ghost var items := contentData.dataList;
      assert UnbuiltItems(items);
      contentData.ParseLevel();
      LeveledLinked(items);
      ChildListsForward(Leveled(items));
      contentData.ParseSubArch();
      end := contentData.ParseBuildArch();
    }

    /** Every line parsed in turn; the first that panics ends the run. */
    method ParseLines(rawData: seq<LineContext>) returns (r: Outcome<()>)
      requires contentData.Unbuilt()
      modifies this, contentData
      ensures r.Panic? <==> Run(old(Snapshot()), Lines(rawData)).Panic?
      ensures r.Normal? ==> Snapshot() == Run(old(Snapshot()), Lines(rawData)).value && contentData.Unbuilt()
    {
      ghost var s0 := Snapshot();
      ghost var segs := Lines(rawData);
      assert segs[..0] == [];
      for k := 0 to |rawData|
        invariant Run(s0, segs[..k]) == Normal(Snapshot())
        invariant contentData.Unbuilt()
      {
        ghost var before := Snapshot();
        var res := ParseLine(rawData[k]);
        assert segs[..k + 1][..k] == segs[..k];
        if res.Panic? {
          RunPanicStays(s0, segs, k + 1);
          return Panic(res.reason);
        }
        LineStepUnbuilt(before, segs[k]);
      }
      assert segs[..|rawData|] == segs;
      r := Normal(());
    }

    /**
     * `compile`, over the lines the reader yields: every line is parsed,
     * then the content items are linked and built into a forest.
     */
    method Compile(lines: seq<string>) returns (r: Outcome<NeiEndpoint>)
      requires contentData.Unbuilt()
      modifies this, contentData
      ensures r.Panic? <==> Run(old(Snapshot()), Segments(lines)).Panic?
      ensures r.Normal? ==> fresh(r.value)
      ensures r.Normal? ==> r.value.Value() == Arch(Linking(Run(old(Snapshot()), Segments(lines)).value.items))
    {
      var rawData := ReadLines(lines);
      var res := ParseLines(rawData);
      if res.Panic? {
        return Panic(res.reason);
      }
      var arch := BuildArch();
      r := Normal(arch);
    }
  }

  /** The segments of the collected lines. */
  function Lines(rawData: seq<LineContext>): (r: seq<seq<string>>)
    ensures |r| == |rawData| && forall k :: 0 <= k < |r| ==> r[k] == rawData[k].seg
  {
    seq(|rawData|, k requires 0 <= k < |rawData| => rawData[k].seg)
  }

  /**
   * The reading half of `compile`: each line loses its trailing newlines,
   * becomes its segments and is numbered from 1.
   */
  method ReadLines(lines: seq<string>) returns (rawData: seq<LineContext>)
    ensures |rawData| == |lines|
    ensures forall j :: 0 <= j < |lines| ==> rawData[j] == LineContext(j + 1, Segments(lines)[j])
    ensures Lines(rawData) == Segments(lines)
  {
    rawData := [];
    var lineNumber := 1;
    for k := 0 to |lines|
      invariant |rawData| == k && lineNumber == k + 1
      invariant forall j :: 0 <= j < k ==> rawData[j] == LineContext(j + 1, Segments(lines)[j])
    {
      var data := RStrip(lines[k], '\n');
      var line := ParseSimple(data);
      rawData := rawData + [LineContext(lineNumber, line)];
      lineNumber := lineNumber + 1;
    }
  }
}

=== FILE: find.dfy ===
/** The byte scanners of `Finder` (utils/find.rs). */
module FindUtil {
  import opened Results
  import opened Text

  /**
   * Length of the longest prefix of `s` whose characters all satisfy
   * "equals `c`" (when `eq`) or "differs from `c`" (when `!eq`): the one
   * specification behind `next_point`, `next_strip` and `space_count`.
   */
  function RunLength(s: string, c: char, eq: bool): (r: nat)
    ensures r <= |s|
    decreases |s|
  {
    if |s| > 0 && (s[0] == c) == eq then 1 + RunLength(s[1..], c, eq) else 0
  }

  /** The run is as long as it can be: all of it qualifies and the character after it does not. */
  lemma {:induction false} RunLengthSpec(s: string, c: char, eq: bool)
    ensures forall i :: 0 <= i < RunLength(s, c, eq) ==> (s[i] == c) == eq
    ensures RunLength(s, c, eq) < |s| ==> (s[RunLength(s, c, eq)] == c) != eq
    decreases |s|
  {
    if |s| > 0 && (s[0] == c) == eq {
      RunLengthSpec(s[1..], c, eq);
    }
  }

  /** The three facts above pin the run length down: any `k` with them is it. */
  lemma RunLengthUnique(s: string, c: char, eq: bool, k: nat)
    requires k <= |s|
    requires forall i :: 0 <= i < k ==> (s[i] == c) == eq
    requires k < |s| ==> (s[k] == c) != eq
    ensures RunLength(s, c, eq) == k
    decreases |s|
  {
    if k > 0 {
      RunLengthUnique(s[1..], c, eq, k - 1);
    }
  }

  /**
   * `next_point`: distance from `off` to the first character equal to
   * `target` (or, when `!isEqual`, different from it); `|s| - off` when there
   * is none. It never returns `Err`.
   */
  method NextPoint(s: string, off: nat, target: char, isEqual: bool) returns (r: Result<nat>)
    requires off <= |s|
    ensures r == Ok(RunLength(s[off..], target, !isEqual))
  {
    var bytes := s[off..];
    var i := 0;
    while i < |bytes|
      invariant 0 <= i <= |bytes|
      invariant forall j :: 0 <= j < i ==> (bytes[j] == target) != isEqual
    {
      if isEqual {
        if bytes[i] == target {
          RunLengthUnique(bytes, target, !isEqual, i);
          return Ok(i);
        }
      } else {
        if bytes[i] != target {
          RunLengthUnique(bytes, target, !isEqual, i);
          return Ok(i);
        }
      }
      i := i + 1;
    }
    RunLengthUnique(bytes, target, !isEqual, |s| - off);
    return Ok(|s| - off);
  }

  /**
   * Read over the whole of `s`: what `next_point` measures from `off` stays
   * inside `s`, passes only characters that are not the stop character, and
   * ends on one that is (or at the end of `s`).
   */
  lemma NextPointStops(s: string, off: nat, target: char, isEqual: bool)
    requires off <= |s|
    ensures off + RunLength(s[off..], target, !isEqual) <= |s|
    ensures forall i :: off <= i < off + RunLength(s[off..], target, !isEqual) ==> (s[i] == target) != isEqual
    ensures var n := off + RunLength(s[off..], target, !isEqual); n < |s| ==> (s[n] == target) == isEqual
  {
    var n := RunLength(s[off..], target, !isEqual);
    RunLengthSpec(s[off..], target, !isEqual);
    forall i | off <= i < off + n ensures (s[i] == target) != isEqual {
      assert s[i] == s[off..][i - off];
    }
  }

  /** `next_sub`: offset of the first occurrence of `target` in `s[off..]`, or `None`. */
  function NextSub(s: string, off: nat, target: string): (r: Option<nat>)
    requires off <= |s|
    ensures r.Some? ==> OccursAt(s, off + r.value, target)
    ensures r.Some? ==> forall j :: off <= j < off + r.value ==> !OccursAt(s, j, target)
    ensures r.None? ==> forall j :: off <= j ==> !OccursAt(s, j, target)
  {
    var found := IndexOf(s[off..], target);
    forall j: nat | off <= j ensures OccursAt(s[off..], j - off, target) <==> OccursAt(s, j, target) {
      if j + |target| <= |s| {
        assert s[off..][j - off..j - off + |target|] == s[j..j + |target|];
      }
    }
    found
  }

  /**
   * `space_count`: the number of leading characters of `s` that equal
   * `target` (or, when `!isEqual`, differ from it).
   */
  method SpaceCount(s: string, target: char, isEqual: bool) returns (count: nat)
    ensures count == RunLength(s, target, isEqual)
  {
    count := 0;
    var i := 0;
    while i < |s|
      invariant 0 <= i <= |s| && count == i
      invariant forall j :: 0 <= j < i ==> (s[j] == target) == isEqual
    {
      if isEqual {
        if s[i] == target {
          count := count + 1;
        } else {
          break;
        }
      } else {
        if s[i] != target {
          count := count + 1;
        } else {
          break;
        }
      }
      i := i + 1;
    }
    RunLengthUnique(s, target, isEqual, count);
  }
}

=== FILE: forest.dfy ===
/**
 * The forest that `build_sub_list` and `parse_build_arch` (engine/content.rs)
 * build out of the child lists, written as pure functions of the item list
 * and of the set of items already marked processed.
 */
module Forest {
  import opened Results
  import opened ContentLine
  import opened EndpointTree

  /** Every child list names later items of the list, as the level pass guarantees. */
  predicate Forward(data: seq<Item>) {
    forall j, k :: 0 <= j < |data| && 0 <= k < |data[j].subList| ==> j < data[j].subList[k] < |data|
  }

  /** The indices of a `processed` array that are set. */
  function Marked(s: seq<bool>): set<nat> {
    set k: nat | k < |s| && s[k]
  }

  /** A built subtree and the processed set afterwards. */
  datatype Built = Built(tree: Tree, done: set<nat>)

  /** The subtrees built so far for one node and the processed set afterwards. */
  datatype Grown = Grown(trees: seq<Tree>, done: set<nat>)

  /**
   * `build_sub_list(index, name)`: the node `index` carrying the subtrees of
   * its children that were not processed when their turn came.
   */
  function Build(data: seq<Item>, index: nat, name: Option<string>, done: set<nat>): (b: Built)
    requires Forward(data) && index < |data|
    ensures b.tree.index == index && b.tree.name == name
    ensures done <= b.done && |b.tree.children| <= |data[index].subList|
    decreases |data| - index, |data[index].subList| + 1
  {
    var g := Grow(data, index, |data[index].subList|, done);
    Built(Tree(index, name, g.trees), g.done)
  }

  /**
   * The loop of `build_sub_list` over the first `k` entries of `index`'s
   * child list: a processed child is skipped; any other child is built
   * and attached, and only then marked processed.
   */
  function Grow(data: seq<Item>, index: nat, k: nat, done: set<nat>): (g: Grown)
    requires Forward(data) && index < |data| && k <= |data[index].subList|
    ensures done <= g.done && |g.trees| <= k
    ensures forall j :: 0 <= j < |g.trees| ==> g.trees[j].index in data[index].subList
    decreases |data| - index, k
  {
    if k == 0 then Grown([], done)
    else
      var g := Grow(data, index, k - 1, done);
      var c := data[index].subList[k - 1];
      if c in g.done then g
      else
        var b := Build(data, c, data[c].name, g.done);
        Grown(g.trees + [b.tree], b.done + {c})
  }

  /**
   * The loop of `parse_build_arch` over items `1 .. i-1`: an item not yet
   * processed becomes the next top-level subtree. The top-level item itself
   * is not marked.
   */
  function TopLevel(data: seq<Item>, i: nat): (g: Grown)
    requires Forward(data) && i <= |data|
    ensures forall j :: 0 <= j < |g.trees| ==> 0 < g.trees[j].index < i
    decreases i
  {
    if i <= 1 then Grown([], {})
    else
      var g := TopLevel(data, i - 1);
      if i - 1 in g.done then g
      else
        var b := Build(data, i - 1, data[i - 1].name, g.done);
        Grown(g.trees + [b.tree], b.done)
  }

  /** What `parse_build_arch` returns: the node 0 named "root" over the top-level subtrees. */
  function Arch(data: seq<Item>): (t: Tree)
    requires Forward(data)
    ensures t.index == 0 && t.name == Some("root")
  {
    Tree(0, Some("root"), TopLevel(data, |data|).trees)
  }

  /** No value occurs twice. */
  predicate NoDup(s: seq<nat>) {
    forall a, b :: 0 <= a < b < |s| ==> s[a] != s[b]
  }

  /** The indices of the roots of `ts`, in order. */
  function Indices(ts: seq<Tree>): (r: seq<nat>)
    ensures |r| == |ts|
  {
    if ts == [] then [] else Indices(ts[..|ts| - 1]) + [ts[|ts| - 1].index]
  }

  predicate StrictlyIncreasing(s: seq<nat>) {
    forall a, b :: 0 <= a < b < |s| ==> s[a] < s[b]
  }

  /** `a` is `b` with some entries left out. */
  predicate IsSubseq(a: seq<nat>, b: seq<nat>)
    decreases |b|
  {
    a == [] ||
    (b != [] &&
     ((a[|a| - 1] == b[|b| - 1] && IsSubseq(a[..|a| - 1], b[..|b| - 1])) || IsSubseq(a, b[..|b| - 1])))
  }

  /** A child that is not yet processed adds its subtree and joins the processed set. */
  lemma GrowBuilt(data: seq<Item>, index: nat, k: nat, done0: set<nat>, g: Grown, b: Built)
    requires Forward(data) && index < |data| && k < |data[index].subList|
    requires Grow(data, index, k, done0) == g && data[index].subList[k] !in g.done
    requires b == Build(data, data[index].subList[k], data[data[index].subList[k]].name, g.done)
    ensures Grow(data, index, k + 1, done0) == Grown(g.trees + [b.tree], b.done + {data[index].subList[k]})
  {
  }

  /** A child already processed is passed over. */
  lemma GrowSkipped(data: seq<Item>, index: nat, k: nat, done0: set<nat>, g: Grown)
    requires Forward(data) && index < |data| && k < |data[index].subList|
    requires Grow(data, index, k, done0) == g && data[index].subList[k] in g.done
    ensures Grow(data, index, k + 1, done0) == g
  {
  }

  lemma NoDupAppend(x: seq<nat>, y: seq<nat>)
    requires NoDup(x) && NoDup(y)
    requires forall v :: v in x ==> v !in y
    ensures NoDup(x + y)
  {
    forall a, b | 0 <= a < b < |x + y| ensures (x + y)[a] != (x + y)[b] {
      if b >= |x| && a < |x| {
        assert (x + y)[a] in x && (x + y)[b] in y;
      }
    }
  }

  lemma NodesOfSnoc(ts: seq<Tree>, t: Tree)
    ensures NodesOf(ts + [t]) == NodesOf(ts) + Nodes(t)
    ensures Indices(ts + [t]) == Indices(ts) + [t.index]
  {
    assert (ts + [t])[..|ts|] == ts;
  }

  /**
   * A subtree built by `build_sub_list` holds its own index first, then only
   * later items that were unprocessed, each once; afterwards exactly those
   * later items are processed as well.
   */
  lemma {:induction false} BuildFacts(data: seq<Item>, index: nat, name: Option<string>, done: set<nat>)
    requires Forward(data) && index < |data|
    ensures var b := Build(data, index, name, done);
      b.tree.index == index && b.tree.name == name &&
      NoDup(Nodes(b.tree)) &&
      (forall v :: v in NodesOf(b.tree.children) ==> index < v < |data| && v !in done) &&
      (forall v :: v in b.done <==> v in done || v in NodesOf(b.tree.children))
    decreases |data| - index, |data[index].subList| + 1
  {
    var k := |data[index].subList|;
    GrowFacts(data, index, k, done);
    var g := Grow(data, index, k, done);
    NoDupAppend([index], NodesOf(g.trees));
  }

  /**
   * What the loop of `build_sub_list` keeps for node `index`: the subtrees
   * hold each item once, only later items that were unprocessed at the
   * start, and the processed set has grown by exactly those items.
   */
  ghost predicate GrowInv(g: Grown, index: nat, n: nat, done: set<nat>) {
    NoDup(NodesOf(g.trees)) &&
    (forall v :: v in NodesOf(g.trees) ==> index < v < n && v !in done) &&
    (forall v :: v in g.done <==> v in done || v in NodesOf(g.trees))
  }

  lemma {:induction false} GrowFacts(data: seq<Item>, index: nat, k: nat, done: set<nat>)
    requires Forward(data) && index < |data| && k <= |data[index].subList|
    ensures GrowInv(Grow(data, index, k, done), index, |data|, done)
    decreases |data| - index, k
  {
    if k > 0 {
      var g := Grow(data, index, k - 1, done);
      GrowFacts(data, index, k - 1, done);
      var c := data[index].subList[k - 1];
      if c !in g.done {
        GrowFactsBuilt(data, index, k - 1, done, g);
      } else {
        GrowSkipped(data, index, k - 1, done, g);
      }
    }
  }

  /** The step of `GrowFacts` for child `k` when it is built: the new subtree keeps `GrowInv`. */
  lemma GrowFactsBuilt(data: seq<Item>, index: nat, k: nat, done: set<nat>, g: Grown)
    requires Forward(data) && index < |data| && k < |data[index].subList|
    requires Grow(data, index, k, done) == g && GrowInv(g, index, |data|, done)
    requires data[index].subList[k] !in g.done
    ensures GrowInv(Grow(data, index, k + 1, done), index, |data|, done)
    decreases |data| - index, k
  {
    var c := data[index].subList[k];
    var b := Build(data, c, data[c].name, g.done);
    GrowBuilt(data, index, k, done, g, b);
    BuildFacts(data, c, data[c].name, g.done);
    GrowJoin(g, b.tree, b.done, index, |data|, done);
  }

  /** One more subtree, built from unprocessed items after `index`, keeps `GrowInv`. */
  lemma GrowJoin(g: Grown, t: Tree, bdone: set<nat>, index: nat, n: nat, done: set<nat>)
    requires GrowInv(g, index, n, done)
    requires index < t.index < n && t.index !in g.done && NoDup(Nodes(t))
    requires forall v :: v in NodesOf(t.children) ==> t.index < v < n && v !in g.done
    requires forall v :: v in bdone <==> v in g.done || v in NodesOf(t.children)
    ensures GrowInv(Grown(g.trees + [t], bdone + {t.index}), index, n, done)
  {
    NodesOfSnoc(g.trees, t);
    assert Nodes(t) == [t.index] + NodesOf(t.children);
    NoDupAppend(NodesOf(g.trees), Nodes(t));
  }

  /** Keeping a shared last entry keeps a subsequence. */
  lemma SubseqKeep(a: seq<nat>, b: seq<nat>, c: nat)
    requires IsSubseq(a, b)
    ensures IsSubseq(a + [c], b + [c])
  {
    assert (a + [c])[..|a|] == a && (b + [c])[..|b|] == b;
  }

  /** Adding an entry to the longer sequence keeps a subsequence. */
  lemma SubseqSkip(a: seq<nat>, b: seq<nat>, c: nat)
    requires IsSubseq(a, b)
    ensures IsSubseq(a, b + [c])
  {
    assert (b + [c])[..|b|] == b;
  }

  /** The children of a built node come in the order of its child list. */
  lemma {:induction false} GrowOrder(data: seq<Item>, index: nat, k: nat, done: set<nat>)
    requires Forward(data) && index < |data| && k <= |data[index].subList|
    ensures IsSubseq(Indices(Grow(data, index, k, done).trees), data[index].subList[..k])
    decreases k
  {
    var sub := data[index].subList;
    if k > 0 {
      var g := Grow(data, index, k - 1, done);
      GrowOrder(data, index, k - 1, done);
      var c := sub[k - 1];
      assert sub[..k] == sub[..k - 1] + [c];
      if c in g.done {
        GrowSkipped(data, index, k - 1, done, g);
        SubseqSkip(Indices(g.trees), sub[..k - 1], c);
      } else {
        var b := Build(data, c, data[c].name, g.done);
        GrowBuilt(data, index, k - 1, done, g, b);
        NodesOfSnoc(g.trees, b.tree);
        SubseqKeep(Indices(g.trees), sub[..k - 1], c);
      }
    }
  }

  /** The invariant of the top-level loop after items `1 .. i-1`. */
  ghost predicate TopInvariant(data: seq<Item>, i: nat, g: Grown) {
    NoDup(NodesOf(g.trees)) &&
    StrictlyIncreasing(Indices(g.trees)) &&
    (forall v :: v in Indices(g.trees) ==> 1 <= v < i) &&
    (forall v :: v in g.done ==> 1 <= v < |data|) &&
    (forall v :: v in NodesOf(g.trees) <==> v in g.done || v in Indices(g.trees)) &&
    (forall v :: 1 <= v < i ==> v in NodesOf(g.trees))
  }

  /** An item processed before its turn adds nothing at the top level. */
  lemma TopSkip(data: seq<Item>, t: nat, g: Grown)
    requires 1 <= t < |data|
    requires TopInvariant(data, t, g) && t in g.done
    ensures TopInvariant(data, t + 1, g)
  {
  }

  /** The bookkeeping of `TopStep`, over the node lists and sets alone. */
  lemma TopStepCore(n: nat, t: nat, nodes: seq<nat>, ids: seq<nat>, done: set<nat>,
                    kids: seq<nat>, done2: set<nat>)
    requires 1 <= t < n
    requires NoDup(nodes) && StrictlyIncreasing(ids)
    requires forall v :: v in ids ==> 1 <= v < t
    requires forall v :: v in done ==> 1 <= v < n
    requires forall v :: v in nodes <==> v in done || v in ids
    requires forall v :: 1 <= v < t ==> v in nodes
    requires t !in done
    requires NoDup([t] + kids)
    requires forall v :: v in kids ==> t < v < n && v !in done
    requires forall v :: v in done2 <==> v in done || v in kids
    ensures NoDup(nodes + ([t] + kids))
    ensures StrictlyIncreasing(ids + [t])
    ensures forall v :: v in ids + [t] ==> 1 <= v < t + 1
    ensures forall v :: v in done2 ==> 1 <= v < n
    ensures forall v :: v in nodes + ([t] + kids) <==> v in done2 || v in ids + [t]
    ensures forall v :: 1 <= v < t + 1 ==> v in nodes + ([t] + kids)
  {
    NoDupAppend(nodes, [t] + kids);
    forall a, c | 0 <= a < c < |ids + [t]| ensures (ids + [t])[a] < (ids + [t])[c] {
      assert (ids + [t])[a] == ids[a];
      assert ids[a] in ids;
    }
  }

  /** An unprocessed item becomes the next top-level subtree. */
  lemma TopStep(data: seq<Item>, t: nat, g: Grown)
    requires Forward(data) && 1 <= t < |data|
    requires TopInvariant(data, t, g) && t !in g.done
    ensures var b := Build(data, t, data[t].name, g.done);
      TopInvariant(data, t + 1, Grown(g.trees + [b.tree], b.done))
  {
    var b := Build(data, t, data[t].name, g.done);
    BuildFacts(data, t, data[t].name, g.done);
    NodesOfSnoc(g.trees, b.tree);
    assert Nodes(b.tree) == [t] + NodesOf(b.tree.children);
    TopStepCore(|data|, t, NodesOf(g.trees), Indices(g.trees), g.done,
                NodesOf(b.tree.children), b.done);
  }

  lemma {:induction false} TopLevelFacts(data: seq<Item>, i: nat)
    requires Forward(data) && i <= |data|
    ensures TopInvariant(data, i, TopLevel(data, i))
    decreases i
  {
    if i > 1 {
      TopLevelFacts(data, i - 1);
      var g := TopLevel(data, i - 1);
      if i - 1 in g.done {
        TopSkip(data, i - 1, g);
      } else {
        TopStep(data, i - 1, g);
      }
    }
  }

  /**
   * Every item except the sentinel appears exactly once in the forest that
   * `parse_build_arch` returns, and the top-level subtrees come in ascending
   * index order.
   */
  lemma ArchCoversOnce(data: seq<Item>)
    requires Forward(data)
    ensures Nodes(Arch(data))[0] == 0
    ensures NoDup(Nodes(Arch(data)))
    ensures forall v: nat :: v in Nodes(Arch(data)) <==> v < |data| || v == 0
    ensures StrictlyIncreasing(Indices(Arch(data).children))
  {
    TopLevelFacts(data, |data|);
    var ts := TopLevel(data, |data|).trees;
    assert Nodes(Arch(data)) == [0] + NodesOf(ts);
    assert 0 !in NodesOf(ts);
    NoDupAppend([0], NodesOf(ts));
  }
}

=== FILE: import.dfy ===
/**
 * The import section of engine/import.rs: a `use` line such as
 * `use a/b.{c as x, d}` is cut at "/" into a path prefix and a target, the
 * target at "." into an anchor and a member list, and every member becomes
 * a `Dependency`. Malformed pieces become the placeholder `Unknown`; cursor
 * arithmetic that runs past the end of the line is a panic.
 */
module ImportEngine {
  import opened Results
  import opened Text
  import opened FindUtil
  import opened StripUtil
  import opened ConcatUtil

  datatype Dependency = Dependency(path: Option<string>, anchor: Option<string>, alias: Option<string>)

  /** The placeholder every malformed piece turns into. */
  const Unknown := Dependency(Some("/unknow"), Some("/unknow"), Some("unknow"))

  /** A name with its outer blanks, its quotes (as `colon_strip` removes them) and the blanks inside the quotes dropped. */
  function CleanName(s: string): string {
    Trim(ColonStrip(Trim(s)))
  }

  lemma CleanNameTrimmed(s: string)
    ensures Trim(CleanName(s)) == CleanName(s)
  {
    TrimIdempotent(ColonStrip(Trim(s)));
  }

  /** A dependency read from one member: no path yet, but an anchor. */
  predicate Member(d: Dependency) {
    d.path.None? && d.anchor.Some?
  }

  /**
   * `plain_atom_parse`: a member without " as " is an anchor, one with a
   * single " as " an anchor and an alias; an empty anchor or a second
   * " as " gives `Unknown`. No member has a path of its own.
   */
  function PlainAtomParse(tc0: string): (r: Dependency)
    ensures r == Unknown || Member(r)
  {
    var tc := Split(tc0, " as ");
    if |tc| == 1 then
      var anchorReal := CleanName(tc[0]);
      if |anchorReal| < 1 then Unknown else Dependency(None, Some(anchorReal), None)
    else if |tc| == 2 then
      Dependency(None, Some(CleanName(tc[0])), Some(CleanName(tc[1])))
    else Unknown
  }

  /** The names read from a member carry no outer blanks, and an anchor read without an alias is never empty. */
  lemma AtomTrimmed(tc0: string)
    ensures var r := PlainAtomParse(tc0);
      r != Unknown ==> Trim(r.anchor.value) == r.anchor.value && (r.alias.Some? ==> Trim(r.alias.value) == r.alias.value)
    ensures var r := PlainAtomParse(tc0); r != Unknown && r.alias.None? ==> r.anchor.value != []
  {
    var tc := Split(tc0, " as ");
    CleanNameTrimmed(tc[0]);
    if |tc| == 2 {
      CleanNameTrimmed(tc[1]);
    }
  }

  /** A member holding no " as " is its own anchor, cleaned; if nothing is left of it, it is `Unknown`. */
  lemma AtomWithoutAlias(tc0: string)
    requires IndexOf(tc0, " as ").None?
    ensures CleanName(tc0) != [] ==> PlainAtomParse(tc0) == Dependency(None, Some(CleanName(tc0)), None)
    ensures CleanName(tc0) == [] ==> PlainAtomParse(tc0) == Unknown
  {
    SplitNone(tc0, " as ");
  }

  /** A member with exactly one " as " at `k`: the cleaned text before it is the anchor, after it the alias. */
  lemma AtomWithAlias(tc0: string, k: nat)
    requires IndexOf(tc0, " as ") == Some(k)
    requires IndexOf(tc0[k + 4..], " as ").None?
    ensures PlainAtomParse(tc0) == Dependency(None, Some(CleanName(tc0[..k])), Some(CleanName(tc0[k + 4..])))
  {
    var tc := Split(tc0, " as ");
    SplitStep(tc0, " as ", k);
    SplitNone(tc0[k + 4..], " as ");
    assert |tc| == 2 && tc[0] == tc0[..k] && tc[1] == tc0[k + 4..];
  }

  /** Two " as " in one member make it `Unknown`. */
  lemma AtomTwoAliases(tc0: string, k: nat)
    requires IndexOf(tc0, " as ") == Some(k)
    requires IndexOf(tc0[k + 4..], " as ").Some?
    ensures PlainAtomParse(tc0) == Unknown
  {
    var tail := tc0[k + 4..];
    var j := IndexOf(tail, " as ").value;
    assert Split(tc0, " as ") == [tc0[..k]] + Split(tail, " as ");
    assert Split(tail, " as ") == [tail[..j]] + Split(tail[j + 4..], " as ");
  }

  /** Each piece read as a member, in order. */
  function Atoms(pieces: seq<string>): (r: seq<Dependency>)
    ensures |r| == |pieces|
  {
    seq(|pieces|, k requires 0 <= k < |pieces| => PlainAtomParse(Trim(pieces[k])))
  }

  /** What `plain_mul_parse` computes: one dependency per comma-separated piece, in order. */
  function MulParse(tc0: string): seq<Dependency> {
    Atoms(Split(tc0, ","))
  }

  /** One dependency per comma-separated piece: one more than there are commas, the `k`-th read from the `k`-th piece. */
  lemma MulParsePieces(tc0: string)
    ensures |MulParse(tc0)| == CountChar(tc0, ',') + 1
    ensures forall k :: 0 <= k < |MulParse(tc0)| ==> MulParse(tc0)[k] == PlainAtomParse(Trim(Split(tc0, ",")[k]))
  {
    SplitCharCount(tc0, ',');
  }

  /** Every dependency of `deps` with its path set to `p`. */
  function WithPath(deps: seq<Dependency>, p: string): (r: seq<Dependency>)
    ensures |r| == |deps|
    ensures forall k :: 0 <= k < |r| ==> r[k] == deps[k].(path := Some(p))
  {
    seq(|deps|, k requires 0 <= k < |deps| => deps[k].(path := Some(p)))
  }

  /**
   * What `plain_parse_target` computes for `rawObj` under the path `prefix`:
   * without a "." the target is `Unknown`; otherwise the text before the
   * first "." is the anchor.
   */
  function ParseTarget(rawObj: string, prefix: string): (r: seq<Dependency>)
    ensures |r| >= 1
  {
    var tc := Split(rawObj, ".");
    if |tc| < 2 then [Unknown]
    else
      match IndexOf(rawObj, ".")
      case Some(_) => TargetParts(rawObj, prefix, |tc[0]|)
  }

  /**
   * The target split at the "." at `k`: the anchor before it, joined to the
   * prefix, is the path of every dependency; after it comes a braced member
   * list or a single member. An empty `{}` list is `Unknown`.
   */
  function TargetParts(rawObj: string, prefix: string, k: nat): (r: seq<Dependency>)
    requires k < |rawObj|
    ensures |r| >= 1
    ensures StartsWith(rawObj[k + 1..], "{") && EndsWith(rawObj, "}") && |rawObj| - k - 1 < 3 ==> r == [Unknown]
    ensures !(StartsWith(rawObj[k + 1..], "{") && EndsWith(rawObj, "}") && |rawObj| - k - 1 < 3) ==>
      forall d :: d in r ==> d.path == Some(RawConcat(prefix, "/", rawObj[..k]))
  {
    var tar := rawObj[k + 1..];
    var path := RawConcat(prefix, "/", rawObj[..k]);
    if StartsWith(tar, "{") && EndsWith(rawObj, "}") then
      if |tar| < 3 then [Unknown]
      else WithPath(MulParse(tar[1..|tar| - 1]), path)
    else [PlainAtomParse(tar).(path := Some(path))]
  }

  /**
   * A target with a "." at `k` (the first): all its dependencies lie under
   * the anchor before the ".", unless the member list is the empty `{}`.
   */
  lemma TargetUnderAnchor(rawObj: string, prefix: string, k: nat)
    requires IndexOf(rawObj, ".") == Some(k)
    ensures k < |rawObj| && ParseTarget(rawObj, prefix) == TargetParts(rawObj, prefix, k)
  {
    SplitAtFirst(rawObj, ".", k);
  }

  /** A braced member list after the "." at `k`: one dependency per comma piece, each under the anchor's path. */
  lemma TargetPartsBraced(rawObj: string, prefix: string, k: nat)
    requires k < |rawObj|
    requires StartsWith(rawObj[k + 1..], "{") && EndsWith(rawObj, "}") && |rawObj[k + 1..]| >= 3
    ensures TargetParts(rawObj, prefix, k) ==
      WithPath(MulParse(rawObj[k + 1..][1..|rawObj[k + 1..]| - 1]), RawConcat(prefix, "/", rawObj[..k]))
  {
  }

  /** A target without any "." is `Unknown`. */
  lemma TargetWithoutDot(rawObj: string, prefix: string)
    requires IndexOf(rawObj, ".").None?
    ensures ParseTarget(rawObj, prefix) == [Unknown]
  {
  }

  /** The panics and the error `line_seg` can end in. */
  const SliceFault := "slice start past the end"
  const IndexFault := "index past the end"
  const InvalidGroup := "Invalid"

  /** One round of the `line_seg` cursor. */
  datatype Round = Piece(end: nat, next: nat) | Invalid | Crash(reason: string)

  /** The first position at or after `i` whose character breaks the run of `c` (`eq`) or of non-`c` (`!eq`); `|s|` if none. */
  function RunEnd(s: string, i: nat, c: char, eq: bool): (r: nat)
    requires i <= |s|
    ensures i <= r <= |s|
    decreases |s| - i
  {
    if i < |s| && (s[i] == c) == eq then RunEnd(s, i + 1, c, eq) else i
  }

  /** `RunEnd` is where the run that `next_strip` and `next_point` measure from `i` ends. */
  lemma {:induction false} RunEndIsRunLength(s: string, i: nat, c: char, eq: bool)
    requires i <= |s|
    ensures RunEnd(s, i, c, eq) == i + RunLength(s[i..], c, eq)
    decreases |s| - i
  {
    if i < |s| {
      assert s[i..][0] == s[i] && s[i..][1..] == s[i + 1..];
      if (s[i] == c) == eq {
        RunEndIsRunLength(s, i + 1, c, eq);
      }
    }
  }

  /** The cursor after the blanks at `i`. */
  function SkipBlanks(s: string, i: nat): (r: nat)
    requires i <= |s|
    ensures i <= r <= |s|
  {
    RunEnd(s, i, ' ', true)
  }

  /** The position of the first `c` at or after `i`; `|s|` if there is none. */
  function FindFrom(s: string, i: nat, c: char): (r: nat)
    requires i <= |s|
    ensures i <= r <= |s|
  {
    RunEnd(s, i, c, false)
  }

  /**
   * The round of `line_seg` starting at `i`: skip blanks, find the ".",
   * skip blanks; then a group or a plain piece starts at `d`. Running off
   * the end is a panic.
   */
  function SegRound(s: string, i: nat): (r: Round)
    requires i < |s|
    ensures r.Piece? ==> i <= r.end <= |s| && i < r.next
  {
    var b := FindFrom(s, SkipBlanks(s, i), '.') + 1;
    if b > |s| then Crash(SliceFault)
    else
      var d := SkipBlanks(s, b);
      if d >= |s| then Crash(IndexFault)
      else if s[d] == '{' then GroupRound(s, i, d)
      else PlainRound(s, i, d)
  }

  /**
   * A "{" at `d` opens a group running to the "}", which must end the line
   * or be followed (after blanks) by ","; the piece keeps the group.
   */
  function GroupRound(s: string, i: nat, d: nat): (r: Round)
    requires i <= d < |s|
    ensures r.Piece? ==> d < r.end <= |s| && d < r.next
  {
    var f := FindFrom(s, d + 1, '}') + 1;
    if f > |s| then Crash(SliceFault)
    else
      var h := SkipBlanks(s, f);
      if h >= |s| then Piece(h, h)
      else if s[h] != ',' then Invalid
      else Piece(h, h + 1)
  }

  /** Without a group the piece runs from `i` to the next ",". */
  function PlainRound(s: string, i: nat, d: nat): (r: Round)
    requires i <= d <= |s|
    ensures r.Piece? ==> d <= r.end <= |s| && d < r.next
  {
    var g := FindFrom(s, d, ',');
    Piece(g, g + 1)
  }

  /** Without a "." after `i` the round panics slicing past the end. */
  lemma SegRoundNoDot(s: string, i: nat, b: nat)
    requires i < |s| && b == FindFrom(s, SkipBlanks(s, i), '.') + 1 && b > |s|
    ensures SegRound(s, i) == Crash(SliceFault)
  {
  }

  /** With only blanks after the "." the round panics indexing past the end. */
  lemma SegRoundDotAtEnd(s: string, i: nat, b: nat, d: nat)
    requires i < |s| && b == FindFrom(s, SkipBlanks(s, i), '.') + 1 && b <= |s|
    requires d == SkipBlanks(s, b) && d >= |s|
    ensures SegRound(s, i) == Crash(IndexFault)
  {
  }

  /** Once the cursor stands on a "{" after the "." and its blanks, the round is a group. */
  lemma SegRoundGroup(s: string, i: nat, b: nat, d: nat)
    requires i < |s| && b == FindFrom(s, SkipBlanks(s, i), '.') + 1 && b <= |s|
    requires d == SkipBlanks(s, b) && d < |s| && s[d] == '{'
    ensures i <= d && SegRound(s, i) == GroupRound(s, i, d)
  {
  }

  /** Once the cursor stands on anything else after the "." and its blanks, the round is a plain piece. */
  lemma SegRoundPlain(s: string, i: nat, b: nat, d: nat)
    requires i < |s| && b == FindFrom(s, SkipBlanks(s, i), '.') + 1 && b <= |s|
    requires d == SkipBlanks(s, b) && d < |s| && s[d] != '{'
    ensures i <= d && SegRound(s, i) == PlainRound(s, i, d)
  {
  }

  /** A group without its "}" panics slicing past the end. */
  lemma GroupRoundUnclosed(s: string, i: nat, d: nat, f: nat)
    requires i <= d < |s| && f == FindFrom(s, d + 1, '}') + 1 && f > |s|
    ensures GroupRound(s, i, d) == Crash(SliceFault)
  {
  }

  /** A closed group ends the line, or is followed by "," or is invalid. */
  lemma GroupRoundClosed(s: string, i: nat, d: nat, f: nat, h: nat)
    requires i <= d < |s| && f == FindFrom(s, d + 1, '}') + 1 && f <= |s|
    requires h == SkipBlanks(s, f)
    ensures GroupRound(s, i, d) ==
      if h >= |s| then Piece(h, h)
      else if s[h] != ',' then Invalid
      else Piece(h, h + 1)
  {
  }

  /** `out` put in front of the pieces of a run, if it has pieces. */
  function Prepend(out: seq<string>, rest: Outcome<Result<seq<string>>>): Outcome<Result<seq<string>>> {
    match rest
    case Panic(e) => Panic(e)
    case Normal(Err(e)) => Normal(Err(e))
    case Normal(Ok(p)) => Normal(Ok(out + p))
  }

  /** What `line_seg` computes from position `i` on. */
  function LineSegFrom(s: string, i: nat): (r: Outcome<Result<seq<string>>>)
    ensures r.Normal? && r.value.Ok? ==> |r.value.value| <= if i < |s| then |s| - i else 0
    decreases |s| - i
  {
    if i >= |s| then Normal(Ok([]))
    else match SegRound(s, i)
      case Crash(reason) => Panic(reason)
      case Invalid => Normal(Err(InvalidGroup))
      case Piece(end, n) => Prepend([Trim(s[i..end])], LineSegFrom(s, n))
  }

  /** A round that yields a piece puts the trimmed piece in front of what the rest of the line yields. */
  lemma LineSegPiece(s: string, i: nat, e: nat, n: nat)
    requires i < |s| && SegRound(s, i) == Piece(e, n)
    ensures LineSegFrom(s, i) == Prepend([Trim(s[i..e])], LineSegFrom(s, n))
  {
  }

  /** At the end of the line nothing more is cut. */
  lemma LineSegDone(s: string, i: nat)
    requires i >= |s|
    ensures LineSegFrom(s, i) == Normal(Ok([]))
  {
  }

  lemma PrependPrepend(a: seq<string>, b: seq<string>, rest: Outcome<Result<seq<string>>>)
    ensures Prepend(a, Prepend(b, rest)) == Prepend(a + b, rest)
  {
    if rest.Normal? && rest.value.Ok? {
      assert a + (b + rest.value.value) == (a + b) + rest.value.value;
    }
  }

  /** `next_strip` over blanks from `i` ends where `SkipBlanks` says. */
  lemma BlanksBy(s: string, i: nat, n: nat)
    requires i <= |s| && n == RunLength(s[i..], ' ', true)
    ensures i + n == SkipBlanks(s, i)
  {
    RunEndIsRunLength(s, i, ' ', true);
  }

  /** `next_point` for `c` from `i` ends where `FindFrom` says. */
  lemma FindBy(s: string, i: nat, c: char, n: nat)
    requires i <= |s| && n == RunLength(s[i..], c, false)
    ensures i + n == FindFrom(s, i, c)
  {
    RunEndIsRunLength(s, i, c, false);
  }

  /**
   * The cursor work of the `line_seg` loop body: moves from `indexNow`
   * through one piece with `next_strip` and `next_point` and says where the
   * piece ends and where the next round starts. This part reaches just past
   * the "."; `AfterDot` does the rest.
   */
  method SegStep(s: string, indexNow: nat) returns (r: Round)
    requires indexNow < |s|
    ensures r == SegRound(s, indexNow)
  {
    var nextDelta := 0;
    var next := NextStrip(s, indexNow, ' ', true);
    BlanksBy(s, indexNow, next.value);
    nextDelta := nextDelta + next.value;
    var ai := NextPoint(s, indexNow + nextDelta, '.', true);
    match ai {
      case Ok(c) =>
        FindBy(s, indexNow + nextDelta, '.', c);
        nextDelta := nextDelta + c + 1;
        if indexNow + nextDelta > |s| {
          SegRoundNoDot(s, indexNow, indexNow + nextDelta);
          return Crash(SliceFault);
        }
        r := AfterDot(s, indexNow, nextDelta);
      case Err(_) =>
        assert false;
    }
  }

  /** The rest of the loop body from just past the ".": skip blanks, then a group or a plain piece. */
  method AfterDot(s: string, indexNow: nat, nextDelta: nat) returns (r: Round)
    requires indexNow < |s| && indexNow + nextDelta <= |s|
    requires indexNow + nextDelta == FindFrom(s, SkipBlanks(s, indexNow), '.') + 1
    ensures r == SegRound(s, indexNow)
  {
    ghost var b := indexNow + nextDelta;
    var next := NextStrip(s, indexNow + nextDelta, ' ', true);
    BlanksBy(s, indexNow + nextDelta, next.value);
    var nextDelta := nextDelta + next.value;
    ghost var d := indexNow + nextDelta;
    if indexNow + nextDelta >= |s| {
      SegRoundDotAtEnd(s, indexNow, b, d);
      return Crash(IndexFault);
    }
    if s[indexNow + nextDelta] == '{' {
      SegRoundGroup(s, indexNow, b, d);
      r := GroupStep(s, indexNow, nextDelta);
    } else {
      SegRoundPlain(s, indexNow, b, d);
      r := PlainStep(s, indexNow, nextDelta);
    }
  }

  /** The group branch of the `line_seg` loop body, the cursor `nextDelta` past `indexNow` on the "{". */
  method GroupStep(s: string, indexNow: nat, nextDelta: nat) returns (r: Round)
    requires indexNow + nextDelta < |s|
    ensures r == GroupRound(s, indexNow, indexNow + nextDelta)
  {
    ghost var d := indexNow + nextDelta;
    var nextDelta := nextDelta + 1;
    var gap := NextPoint(s, indexNow + nextDelta, '}', true);
    FindBy(s, indexNow + nextDelta, '}', gap.value);
    nextDelta := nextDelta + gap.value + 1;
    ghost var f := indexNow + nextDelta;
    if indexNow + nextDelta > |s| {
      GroupRoundUnclosed(s, indexNow, d, f);
      return Crash(SliceFault);
    }
    r := AfterGroup(s, indexNow, d, nextDelta);
  }

  /** The group branch from just past the "}": skip blanks, then the end of the line, a "," or an invalid line. */
  method AfterGroup(s: string, indexNow: nat, ghost d: nat, nextDelta: nat) returns (r: Round)
    requires indexNow <= d < |s| && indexNow + nextDelta <= |s|
    requires indexNow + nextDelta == FindFrom(s, d + 1, '}') + 1
    ensures r == GroupRound(s, indexNow, d)
  {
    ghost var f := indexNow + nextDelta;
    var next := NextStrip(s, indexNow + nextDelta, ' ', true);
    BlanksBy(s, f, next.value);
    var nextDelta := nextDelta + next.value;
    GroupRoundClosed(s, indexNow, d, f, indexNow + nextDelta);
    if indexNow + nextDelta >= |s| {
      return Piece(nextDelta + indexNow, indexNow + nextDelta);
    }
    if s[indexNow + nextDelta] != ',' {
      return Invalid;
    }
    r := Piece(nextDelta + indexNow, indexNow + nextDelta + 1);
  }

  /** The plain branch of the `line_seg` loop body: the piece runs to the next ",". */
  method PlainStep(s: string, indexNow: nat, nextDelta: nat) returns (r: Round)
    requires indexNow + nextDelta <= |s|
    ensures r == PlainRound(s, indexNow, indexNow + nextDelta)
  {
    var gap := NextPoint(s, indexNow + nextDelta, ',', true);
    FindBy(s, indexNow + nextDelta, ',', gap.value);
    var nextDelta := nextDelta + gap.value + 1;
    r := Piece(nextDelta + indexNow - 1, indexNow + nextDelta);
  }

  /**
   * `line_seg`: splits a member list at the commas that are not inside a
   * `{ }` group, each piece trimmed. A group followed by anything but ","
   * is `Err(InvalidGroup)`; a piece without "." or a "." at the end panics.
   */
  method LineSeg(s: string) returns (r: Outcome<Result<seq<string>>>)
    ensures r == LineSegFrom(s, 0)
  {
    var outData: seq<string> := [];
    var indexNow: nat := 0;
    match LineSegFrom(s, 0) {
      case Normal(Ok(p)) => assert [] + p == p;
      case _ =>
    }
    while indexNow < |s|
      invariant LineSegFrom(s, 0) == Prepend(outData, LineSegFrom(s, indexNow))
      decreases |s| - indexNow
    {
      var round := SegStep(s, indexNow);
      match round {
        case Crash(reason) =>
          return Panic(reason);
        case Invalid =>
          return Normal(Err(InvalidGroup));
        case Piece(end, n) =>
          var waitStr := Trim(s[indexNow..end]);
          PrependPrepend(outData, [waitStr], LineSegFrom(s, n));
          outData := outData + [waitStr];
          indexNow := n;
      }
    }
    r := Normal(Ok(outData));
    assert outData + [] == outData;
  }

  /** Every piece `line_seg` returns is trimmed. */
  lemma {:induction false} LineSegTrimmed(s: string, i: nat)
    ensures LineSegFrom(s, i).Normal? && LineSegFrom(s, i).value.Ok? ==>
      forall p :: p in LineSegFrom(s, i).value.value ==> Trim(p) == p
    decreases |s| - i
  {
    if i < |s| {
      match SegRound(s, i)
      case Piece(end, n) =>
        LineSegTrimmed(s, n);
        TrimIdempotent(s[i..end]);
      case _ =>
    }
  }

  /** The pieces of a member list, each read as a target with no prefix, one after another. */
  function Targets(pieces: seq<string>): (r: seq<Dependency>)
    ensures |r| >= |pieces|
  {
    if pieces == [] then [] else Targets(pieces[..|pieces| - 1]) + ParseTarget(pieces[|pieces| - 1], "")
  }

  lemma TargetsStep(pieces: seq<string>, i: nat)
    requires i < |pieces|
    ensures Targets(pieces[..i + 1]) == Targets(pieces[..i]) + ParseTarget(pieces[i], "")
  {
    assert pieces[..i + 1][..i] == pieces[..i];
  }

  /** Pushes every element of `more`, in order, onto `out`. */
  method PushAll(out: seq<Dependency>, more: seq<Dependency>) returns (r: seq<Dependency>)
    ensures r == out + more
  {
    r := out;
    for j := 0 to |more|
      invariant r == out + more[..j]
    {
      r := r + [more[j]];
    }
    assert more[..|more|] == more;
  }

  /**
   * What `plain_mul_anchor_parse` computes: the targets of the pieces
   * `line_seg` cuts out; nothing at all when `line_seg` reports an invalid
   * group, and a panic when it panics.
   */
  function MulAnchorParse(tc0: string): (r: Outcome<seq<Dependency>>)
    ensures r.Panic? <==> LineSegFrom(tc0, 0).Panic?
  {
    match LineSegFrom(tc0, 0)
    case Panic(e) => Panic(e)
    case Normal(Err(_)) => Normal([])
    case Normal(Ok(tc)) => Normal(Targets(tc))
  }

  /** Every path of `deps` that is present put under `prefix`; absent paths stay absent. */
  function Prefixed(deps: seq<Dependency>, prefix: string): (r: seq<Dependency>)
    ensures |r| == |deps|
    ensures forall k :: 0 <= k < |r| ==> r[k].anchor == deps[k].anchor && r[k].alias == deps[k].alias
    ensures forall k :: 0 <= k < |r| ==> r[k].path.Some? == deps[k].path.Some?
    ensures forall k :: 0 <= k < |r| && deps[k].path.Some? ==> r[k].path == Some(RawConcat(prefix, "/", deps[k].path.value))
  {
    seq(|deps|, k requires 0 <= k < |deps| => UnderPrefix(deps[k], prefix))
  }

  /** One dependency with its path, if present, put under `prefix`. */
  function UnderPrefix(d: Dependency, prefix: string): Dependency {
    if d.path.Some? then d.(path := Some(RawConcat(prefix, "/", d.path.value))) else d
  }

  /** The loop of `plain_parse_impl` after entry `i`: one more entry agrees with `Prefixed`. */
  lemma PrefixedStep(deps: seq<Dependency>, prefix: string, m: seq<Dependency>, i: nat)
    requires i < |m| == |deps|
    requires forall j :: 0 <= j < i ==> m[j] == Prefixed(deps, prefix)[j]
    requires forall j :: i <= j < |m| ==> m[j] == deps[j]
    ensures forall j :: 0 <= j <= i ==> m[i := UnderPrefix(m[i], prefix)][j] == Prefixed(deps, prefix)[j]
    ensures forall j :: i < j < |m| ==> m[i := UnderPrefix(m[i], prefix)][j] == deps[j]
  {
  }

  /**
   * What `plain_parse_impl` computes for the last "/"-piece `rawObj` under
   * `prefix`: a braced list of targets, each put under the prefix, or a
   * single target. An empty `{}` is `Unknown`.
   */
  function ParseImpl(rawObj: string, prefix: string): (r: Outcome<seq<Dependency>>)
    ensures r.Panic? <==>
      StartsWith(rawObj, "{") && EndsWith(rawObj, "}") && |rawObj| >= 3 && LineSegFrom(rawObj[1..|rawObj| - 1], 0).Panic?
  {
    if StartsWith(rawObj, "{") && EndsWith(rawObj, "}") then
      if |rawObj| < 3 then Normal([Unknown])
      else
        match MulAnchorParse(rawObj[1..|rawObj| - 1])
        case Panic(e) => Panic(e)
        case Normal(deps) => Normal(Prefixed(deps, prefix))
    else Normal(ParseTarget(rawObj, prefix))
  }

  /** An empty braced list `{}` is a single `Unknown`, whatever the prefix. */
  lemma EmptyBracesUnknown(prefix: string)
    ensures ParseImpl("{}", prefix) == Normal([Unknown])
  {
  }

  /** A member list that `line_seg` rejects as an invalid group gives no dependency, and no panic. */
  lemma InvalidGroupNothing(tc0: string)
    requires LineSegFrom(tc0, 0).Normal? && LineSegFrom(tc0, 0).value.Err?
    ensures MulAnchorParse(tc0) == Normal([])
  {
  }

  /** What `plain_parse` computes: all "/"-pieces but the last form the prefix, the last one is parsed under it. */
  function ParseObject(tc0: seq<string>): (r: Outcome<seq<Dependency>>)
    requires |tc0| >= 1
    ensures r.Panic? ==> StartsWith(tc0[|tc0| - 1], "{") && EndsWith(tc0[|tc0| - 1], "}")
  {
    ParseImpl(tc0[|tc0| - 1], SlashFold(tc0[..|tc0| - 1]))
  }

  /** What `extract` (and `alis_simple_process`) computes for the text after "use ". */
  function Extracted(s: string): (r: Outcome<seq<Dependency>>)
    ensures IndexOf(s, "/").None? ==> r == ParseImpl(s, "")
  {
    ParseObject(Split(s, "/"))
  }

  /** What `parse_item` does with one segment: blank and comment segments are skipped; the rest must be long enough to drop "use ". */
  function ImportLine(rst: string): (r: Outcome<()>)
    ensures r.Panic? ==> |Trim(rst)| > 0 && !StartsWith(Trim(rst), "//")
    ensures 0 < |Trim(rst)| < 4 && !StartsWith(Trim(rst), "//") ==> r == Panic(ShortLine)
    ensures |Trim(rst)| >= 4 && !StartsWith(Trim(rst), "//") ==> (r.Panic? <==> Extracted(Trim(rst)[4..]).Panic?)
  {
    var rs := Trim(rst);
    if |rs| == 0 || StartsWith(rs, "//") then Normal(())
    else if |rs| < 4 then Panic(ShortLine)
    else
      match Extracted(rs[4..])
      case Panic(e) => Panic(e)
      case Normal(_) => Normal(())
  }

  const ShortLine := "byte index 4 is out of bounds"

  /** The segments of one line in turn, up to the first that panics. */
  function ImportLines(seg: seq<string>): (r: Outcome<()>)
    ensures r.Panic? <==> exists k :: 0 <= k < |seg| && ImportLine(seg[k]).Panic?
  {
    if seg == [] then Normal(())
    else
      match ImportLine(seg[0])
      case Panic(e) => Panic(e)
      case Normal(_) =>
        var rest := ImportLines(seg[1..]);
        assert forall k :: 1 <= k < |seg| ==> seg[k] == seg[1..][k - 1];
        rest
  }

  /** `Import`: the import section. Its dependency list is only ever read. */
  class Import {
    var dataList: seq<Dependency>

    constructor Init()
      ensures dataList == []
    {
      dataList := [];
    }

    /** `plain_mul_parse`: one dependency per comma-separated piece, each piece trimmed first. */
    method PlainMulParse(tc0: string) returns (r: seq<Dependency>)
      ensures r == MulParse(tc0)
    {
      var outData: seq<Dependency> := [];
      var tc := Split(tc0, ",");
      ghost var all := Atoms(tc);
      for i := 0 to |tc|
        invariant outData == all[..i]
      {
        var line := Trim(tc[i]);
        var dep := PlainAtomParse(line);
        assert all[..i + 1] == all[..i] + [dep];
        outData := outData + [dep];
      }
      assert all[..|tc|] == all;
      r := outData;
    }

    /** `plain_parse_target`: the anchor before the first "." is the path of the member or of every member of a braced list. */
    method PlainParseTarget(rawObj: string, prefix: string) returns (r: seq<Dependency>)
      ensures r == ParseTarget(rawObj, prefix)
    {
      var tc := Split(rawObj, ".");
      if |tc| < 2 {
        return [Unknown];
      }
      ghost var k := IndexOf(rawObj, ".").value;
      SplitAtFirst(rawObj, ".", k);
      TargetUnderAnchor(rawObj, prefix, k);
      var anchor := tc[0];
      var tarOff := |anchor| + 1;
      var tar := rawObj[tarOff..];
      if StartsWith(tar, "{") && EndsWith(rawObj, "}") {
        var tarLen := |tar|;
        if tarLen < 3 {
          return [Unknown];
        }
        var mulTarObj := tar[1..tarLen - 1];
        var path := RawConcat(prefix, "/", anchor);
        var mulDep := PlainMulParse(mulTarObj);
        r := SetPaths(mulDep, path);
      } else {
        var dep := PlainAtomParse(tar);
        var path := RawConcat(prefix, "/", anchor);
        dep := dep.(path := Some(path));
        return [dep];
      }
    }

    /** The loop of `plain_parse_target`: the path of every member, in place, set to `path`. */
    method SetPaths(members: seq<Dependency>, path: string) returns (mulDep: seq<Dependency>)
      ensures mulDep == WithPath(members, path)
    {
      mulDep := members;
      for i := 0 to |mulDep|
        invariant |mulDep| == |members|
        invariant forall j :: 0 <= j < i ==> mulDep[j] == members[j].(path := Some(path))
        invariant forall j :: i <= j < |mulDep| ==> mulDep[j] == members[j]
      {
        mulDep := mulDep[i := mulDep[i].(path := Some(path))];
      }
    }

    /** `plain_mul_anchor_parse`: the targets of the pieces of `line_seg`, gathered in order. */
    method PlainMulAnchorParse(tc0: string) returns (r: Outcome<seq<Dependency>>)
      ensures r == MulAnchorParse(tc0)
    {
      var outData: seq<Dependency> := [];
      var tokens := LineSeg(tc0);
      match tokens {
        case Panic(e) =>
          return Panic(e);
        case Normal(Ok(tc)) =>
          for i := 0 to |tc|
            invariant outData == Targets(tc[..i])
          {
            var mulDep := PlainParseTarget(tc[i], "");
            outData := PushAll(outData, mulDep);
            TargetsStep(tc, i);
          }
          assert tc[..|tc|] == tc;
        case Normal(Err(_)) =>
      }
      r := Normal(outData);
    }

    /** `plain_parse_impl`: a braced list of targets, each put under the prefix, or a single target. */
    method PlainParseImpl(rawObj: string, prefix: string) returns (r: Outcome<seq<Dependency>>)
      ensures r == ParseImpl(rawObj, prefix)
    {
      if StartsWith(rawObj, "{") && EndsWith(rawObj, "}") {
        var mulObj := |rawObj|;
        if mulObj < 3 {
          return Normal([Unknown]);
        }
        var mulRawObj := rawObj[1..mulObj - 1];
        var found := PlainMulAnchorParse(mulRawObj);
        if found.Panic? {
          return Panic(found.reason);
        }
        var mulADep := PrefixPaths(found.value, prefix);
        return Normal(mulADep);
      }
      var targets := PlainParseTarget(rawObj, prefix);
      return Normal(targets);
    }

    /** The loop of `plain_parse_impl`: every present path of the list, in place, put under the prefix. */
    method PrefixPaths(deps: seq<Dependency>, prefix: string) returns (mulADep: seq<Dependency>)
      ensures mulADep == Prefixed(deps, prefix)
    {
      mulADep := deps;
      var i := 0;
      while i < |mulADep|
        invariant 0 <= i <= |mulADep| == |deps|
        invariant forall j :: 0 <= j < i ==> mulADep[j] == Prefixed(deps, prefix)[j]
        invariant forall j :: i <= j < |mulADep| ==> mulADep[j] == deps[j]
      {
        ghost var m := mulADep;
        PrefixedStep(deps, prefix, m, i);
        var d := mulADep[i];
        match d.path {
          case Some(p) =>
            var path := RawConcat(prefix, "/", p);
            mulADep := mulADep[i := d.(path := Some(path))];
          case None =>
        }
        assert mulADep == m[i := UnderPrefix(d, prefix)];
        i := i + 1;
      }
    }

    /** `plain_parse`: the prefix is the `slash_concat` of all pieces but the last. */
    method PlainParse(tc0: seq<string>) returns (r: Outcome<seq<Dependency>>)
      requires |tc0| >= 1
      ensures r == ParseObject(tc0)
    {
      var totLen := |tc0|;
      var prefix := SlashConcat(tc0, totLen - 1, "");
      var obj := tc0[totLen - 1];
      r := PlainParseImpl(obj, prefix);
    }

    /** `alis_simple_process`: split at every "/" and parse the pieces. */
    method AlisSimpleProcess(s: string) returns (r: Outcome<seq<Dependency>>)
      ensures r == Extracted(s)
    {
      var tc := Split(s, "/");
      r := PlainParse(tc);
    }

    /** `extract`: its pattern `(.+/)?(.*)` matches every text, so it always goes on to `alis_simple_process`. */
    method Extract(s: string) returns (r: Outcome<seq<Dependency>>)
      ensures r == Extracted(s)
    {
      r := AlisSimpleProcess(s);
    }

    /**
     * `parse_item`: every segment that is neither blank nor a comment has its
     * first four characters dropped and the rest extracted; the result is
     * discarded, so the only effect is a possible panic. The dependency list
     * is left alone (the method modifies nothing).
     */
    method ParseItem(seg: seq<string>) returns (r: Outcome<()>)
      ensures r == ImportLines(seg)
    {
      for i := 0 to |seg|
        invariant ImportLines(seg) == ImportLines(seg[i..])
      {
        assert seg[i..][1..] == seg[i + 1..];
        var rs := Trim(seg[i]);
        if |rs| == 0 {
          continue;
        }
        var newS := rs;
        if StartsWith(newS, "//") {
          continue;
        }
        if |newS| < 4 {
          return Panic(ShortLine);
        }
        var s := newS[4..];
        var found := Extract(s);
        if found.Panic? {
          return Panic(found.reason);
        }
      }
      r := Normal(());
    }
  }
}

=== FILE: import_examples.dfy ===
/**
 * Worked lines of the import section (engine/import.rs), each computed
 * through the model: the text after "use ", the member list inside braces,
 * and the cuts `line_seg` makes.
 */
module ImportExamples {
  import opened Results
  import opened Text
  import opened ConcatUtil
  import opened ImportEngine

  /** A name with no blanks around it and no opening quote is kept as it is. */
  lemma CleanPlain(s: string)
    requires s != [] && !IsWhitespace(s[0]) && !IsWhitespace(s[|s| - 1]) && s[0] != '"'
    ensures CleanName(s) == s
  {
    TrimOfTrimmed(s);
  }

  /** One leading blank is all `Trim` takes from a name that is otherwise unpadded. */
  lemma TrimOneBlank(t: string)
    requires t != [] && !IsWhitespace(t[0]) && !IsWhitespace(t[|t| - 1])
    ensures Trim(" " + t) == t
  {
    var u := " " + t;
    assert SkipWhitespace(u, 1) == 1;
    assert u[1..] == t;
    TrimEndKeeps(t);
  }

  lemma TrimBlankD()
    ensures Trim(" d") == "d"
  {
    assert SkipWhitespace(" d", 1) == 1;
    assert TrimStart(" d") == "d";
    TrimEndKeeps("d");
  }

  lemma AliasCut()
    ensures IndexOf("c as x", " as ") == Some(1) && IndexOf("x", " as ").None?
    ensures "c as x"[..1] == "c" && "c as x"[1 + 4..] == "x"
  {
    var t := "c as x";
    assert OccursAt(t, 1, " as ") by { assert t[1..5] == " as "; }
    assert !OccursAt(t, 0, " as ") by { assert t[0..4][0] == 'c'; }
  }

  /** `c as x` is the anchor `c` under the alias `x`. */
  lemma AtomWithAliasExample()
    ensures PlainAtomParse("c as x") == Dependency(None, Some("c"), Some("x"))
  {
    AliasCut();
    AtomWithAlias("c as x", 1);
    CleanLetters();
  }

  lemma CleanLetters()
    ensures CleanName("c") == "c" && CleanName("x") == "x" && CleanName("d") == "d"
  {
    CleanLetter('c');
    CleanLetter('x');
    CleanLetter('d');
  }

  lemma CleanLetter(c: char)
    requires 'a' <= c <= 'z'
    ensures CleanName([c]) == [c]
  {
    CleanPlain([c]);
  }

  /** `d` is the anchor `d` with no alias. */
  lemma AtomPlainExample()
    ensures PlainAtomParse("d") == Dependency(None, Some("d"), None)
  {
    assert Split("d", " as ") == ["d"];
    CleanLetters();
  }

  lemma CommaPieces()
    ensures "c as x, d"[..6] == "c as x" && "c as x, d"[6 + 1..] == " d"
  {
  }

  lemma TwoPiecesSplit()
    ensures Split("c as x, d", ",") == ["c as x", " d"]
  {
    SplitOnceChar("c as x, d", ',', 6);
    CommaPieces();
  }

  lemma AtomsOfTwo(p: string, q: string)
    ensures Atoms([p, q]) == [PlainAtomParse(Trim(p)), PlainAtomParse(Trim(q))]
  {
    var r := Atoms([p, q]);
    PairDisplay(r);
    assert r[0] == PlainAtomParse(Trim(p));
    assert r[1] == PlainAtomParse(Trim(q));
  }

  /** The member list `c as x, d` gives two dependencies, in order. */
  lemma MemberListExample()
    ensures MulParse("c as x, d") == [Dependency(None, Some("c"), Some("x")), Dependency(None, Some("d"), None)]
  {
    TwoPiecesSplit();
    AtomsOfTwo("c as x", " d");
    TrimOfTrimmed("c as x");
    TrimBlankD();
    AtomWithAliasExample();
    AtomPlainExample();
  }

  lemma WithPathOfTwo(d: Dependency, e: Dependency, p: string)
    ensures WithPath([d, e], p) == [d.(path := Some(p)), e.(path := Some(p))]
  {
  }

  lemma BracedTargetShape()
    ensures var raw := "b.{c as x, d}";
      IndexOf(raw, ".") == Some(1) &&
      StartsWith(raw[2..], "{") && EndsWith(raw, "}") && |raw[2..]| >= 3 &&
      raw[2..][1..|raw[2..]| - 1] == "c as x, d" && raw[..1] == "b"
  {
    var raw := "b.{c as x, d}";
    assert raw[1] == '.';
    assert OccursAt(raw, 1, ".") by { assert raw[1..2] == "."; }
    assert !OccursAt(raw, 0, ".") by { assert raw[0..1] == "b"; }
    assert raw[2..] == "{c as x, d}";
    assert raw[2..][..1] == "{";
    assert raw[|raw| - 1..] == "}";
  }

  lemma PathExample()
    ensures RawConcat("a", "/", "b") == "a/b"
  {
  }

  /** The target `b.{c as x, d}` under the prefix `a`: both members lie under the path `a/b`. */
  lemma BracedTargetExample()
    ensures ParseTarget("b.{c as x, d}", "a") ==
      [Dependency(Some("a/b"), Some("c"), Some("x")), Dependency(Some("a/b"), Some("d"), None)]
  {
    var raw := "b.{c as x, d}";
    BracedTargetShape();
    TargetUnderAnchor(raw, "a", 1);
    TargetPartsBraced(raw, "a", 1);
    MemberListExample();
    PathExample();
    WithPathOfTwo(Dependency(None, Some("c"), Some("x")), Dependency(None, Some("d"), None), "a/b");
  }

  lemma GroupSlashCut()
    ensures Split("a/b.{c as x, d}", "/") == ["a", "b.{c as x, d}"]
  {
    var s := "a/b.{c as x, d}";
    SplitOnceChar(s, '/', 1);
    assert s[..1] == "a" && s[1 + 1..] == "b.{c as x, d}";
  }

  lemma SlashFoldSingle(p: string)
    ensures SlashFold([p]) == p
  {
    assert [p][..0] == [];
  }

  /** A single target (no outer braces) is parsed under the prefix as it is. */
  lemma ImplSingleTarget(raw: string, prefix: string)
    requires !StartsWith(raw, "{")
    ensures ParseImpl(raw, prefix) == Normal(ParseTarget(raw, prefix))
  {
  }

  /** `use a/b.{c as x, d}`: two dependencies with the path `a/b`, the first aliased. */
  lemma ExtractGroupExample()
    ensures Extracted("a/b.{c as x, d}") ==
      Normal([Dependency(Some("a/b"), Some("c"), Some("x")), Dependency(Some("a/b"), Some("d"), None)])
  {
    GroupSlashCut();
    SlashFoldSingle("a");
    assert "b.{c as x, d}"[0] == 'b';
    ImplSingleTarget("b.{c as x, d}", "a");
    BracedTargetExample();
  }

  /** `use a/`: nothing follows the last "/", so the only dependency is `Unknown`. */
  lemma ExtractTrailingSlashExample()
    ensures Extracted("a/") == Normal([Unknown])
  {
    SplitOnceChar("a/", '/', 1);
    assert "a/"[..1] == "a" && "a/"[2..] == "";
    assert SlashFold(["a"]) == "a" by { assert ["a"][..0] == []; }
    SplitNone("", ".");
  }

  /** A piece without a "." makes `line_seg` slice past the end of the line. */
  lemma LineSegNoDotExample()
    ensures LineSegFrom("a", 0) == Panic(SliceFault)
  {
    assert SkipBlanks("a", 0) == 0;
    assert FindFrom("a", 0, '.') == 1;
  }

  /** Text after a closed group that is not a "," makes `line_seg` report the line invalid. */
  lemma LineSegInvalidGroupExample()
    ensures LineSegFrom("a.{b}c", 0) == Normal(Err(InvalidGroup))
  {
    var s := "a.{b}c";
    assert SkipBlanks(s, 0) == 0;
    assert FindFrom(s, 0, '.') == 1;
    assert SkipBlanks(s, 2) == 2;
    assert FindFrom(s, 3, '}') == 4;
    assert SkipBlanks(s, 5) == 5;
  }

  lemma TwoPiecesRounds()
    ensures SegRound("a.b, c.{d, e}", 0) == Piece(3, 4)
    ensures SegRound("a.b, c.{d, e}", 4) == Piece(13, 13)
  {
    var s := "a.b, c.{d, e}";
    assert FindFrom(s, 0, '.') == 1;
    assert FindFrom(s, 2, ',') == 3;
    assert SkipBlanks(s, 4) == 5;
    assert FindFrom(s, 5, '.') == 6;
    assert FindFrom(s, 8, '}') == 12;
  }

  lemma TwoPiecesTrims()
    ensures Trim("a.b, c.{d, e}"[0..3]) == "a.b" && Trim("a.b, c.{d, e}"[4..13]) == "c.{d, e}"
  {
    var s := "a.b, c.{d, e}";
    assert s[0..3] == "a.b" && s[4..13] == " " + "c.{d, e}";
    TrimOfTrimmed("a.b");
    TrimOneBlank("c.{d, e}");
  }

  lemma PrependTwo(x: string, y: string)
    ensures Prepend([x], Prepend([y], Normal(Ok([])))) == Normal(Ok([x, y]))
  {
    assert [x] + ([y] + []) == [x, y];
  }

  /** Two rounds that reach the end of the line give exactly their two pieces. */
  lemma LineSegTwoRounds(s: string, x: string, y: string, a: nat, b: nat)
    requires LineSegFrom(s, 0) == Prepend([x], LineSegFrom(s, a))
    requires LineSegFrom(s, a) == Prepend([y], LineSegFrom(s, b))
    requires b >= |s|
    ensures LineSegFrom(s, 0) == Normal(Ok([x, y]))
  {
    LineSegDone(s, b);
    PrependTwo(x, y);
  }

  /** `a.b, c.{d, e}` is cut at the "," outside the group, and the group stays whole. */
  lemma LineSegTwoPiecesExample()
    ensures LineSegFrom("a.b, c.{d, e}", 0) == Normal(Ok(["a.b", "c.{d, e}"]))
  {
    var s := "a.b, c.{d, e}";
    TwoPiecesRounds();
    LineSegPiece(s, 0, 3, 4);
    LineSegPiece(s, 4, 13, 13);
    TwoPiecesTrims();
    LineSegTwoRounds(s, "a.b", "c.{d, e}", 4, 13);
  }
}

=== FILE: levels.dfy ===
/**
 * The level pass of engine/content.rs (`parse_item_level` driven by
 * `parse_level`) as a pure fold over the levels of items 1, 2, ... The
 * ancestor table `path` holds, at slot `j >= 1`, the latest item at level
 * `j - 1` that is still open; slot 0 is the sentinel item 0.
 */
module Levels {
  /** A `LevelTable`: the ancestor path and `current_level`. */
  datatype Table = Table(path: seq<nat>, current: nat)

  /** The shape every call keeps: one slot per open level, the sentinel first. */
  predicate ValidTable(t: Table) {
    |t.path| == t.current + 1 && t.path[0] == 0
  }

  /** The table after items `1 .. |roots|` and the root each of them got. */
  datatype Resolution = Resolution(table: Table, roots: seq<nat>)

  /**
   * The table after `parse_item_level` enters item `item` at level `lv`: a
   * level deeper than `current` leaves it alone; otherwise slots `0 .. lv`
   * stay, the item becomes slot `lv + 1` and the level becomes `lv + 1`.
   */
  function Enter(t: Table, lv: nat, item: nat): (r: Table)
    requires ValidTable(t)
    ensures ValidTable(r)
  {
    if lv > t.current then t else Table(t.path[..lv + 1] + [item], lv + 1)
  }

  /** The root `parse_item_level` returns for an item at level `lv`: slot `lv`, or 0 when `lv` is too deep. */
  function RootAt(t: Table, lv: nat): (r: nat)
    requires ValidTable(t)
    ensures r in t.path
  {
    if lv > t.current then 0 else t.path[lv]
  }

  /**
   * `parse_level` over items `1 .. |levels|`, `levels[k]` being the level of
   * item `k + 1`: each item in turn takes its root from the table and is
   * entered into it.
   */
  function Resolve(levels: seq<nat>): (r: Resolution)
    ensures ValidTable(r.table) && |r.roots| == |levels|
  {
    if levels == [] then Resolution(Table([0], 0), [])
    else
      var r := Resolve(levels[..|levels| - 1]);
      var lv := levels[|levels| - 1];
      Resolution(Enter(r.table, lv, |levels|), r.roots + [RootAt(r.table, lv)])
  }

  /** Resolving more items leaves the roots already given alone. */
  lemma {:induction false} ResolvePrefix(levels: seq<nat>, k: nat)
    requires k <= |levels|
    ensures Resolve(levels[..k]).roots == Resolve(levels).roots[..k]
    decreases |levels|
  {
    if k < |levels| {
      var init := levels[..|levels| - 1];
      ResolvePrefix(init, k);
      assert init[..k] == levels[..k];
      assert Resolve(levels).roots[..|levels| - 1] == Resolve(init).roots;
    } else {
      assert levels[..k] == levels;
    }
  }

  /** Resolving item `n + 1` after items `1 .. n`: the step `parse_level` takes for it. */
  lemma ResolveNext(levels: seq<nat>, n: nat)
    requires n < |levels|
    ensures Resolve(levels[..n + 1]).table == Enter(Resolve(levels[..n]).table, levels[n], n + 1)
    ensures Resolve(levels).roots[n] == RootAt(Resolve(levels[..n]).table, levels[n])
  {
    ResolveAt(levels, n);
    ResolveNextRoot(levels, n);
  }

  lemma ResolveAt(levels: seq<nat>, n: nat)
    requires n < |levels|
    ensures Resolve(levels[..n + 1]).table == Enter(Resolve(levels[..n]).table, levels[n], n + 1)
    ensures Resolve(levels[..n + 1]).roots[n] == RootAt(Resolve(levels[..n]).table, levels[n])
  {
    var pre := levels[..n + 1];
    assert pre[..|pre| - 1] == levels[..n];
  }

  lemma ResolveNextRoot(levels: seq<nat>, n: nat)
    requires n < |levels|
    ensures Resolve(levels).roots[n] == RootAt(Resolve(levels[..n]).table, levels[n])
  {
    ResolveAt(levels, n);
    RootStable(levels, n + 1, n);
  }

  /** Root `j` is settled once item `j + 1` is resolved. */
  lemma RootStable(levels: seq<nat>, k: nat, j: nat)
    requires j < k <= |levels|
    ensures Resolve(levels[..k]).roots[j] == Resolve(levels).roots[j]
  {
    ResolvePrefix(levels, k);
  }

  /** Each open slot `j >= 1` of the table names an earlier item at level `j - 1`. */
  ghost predicate PathShape(levels: seq<nat>, t: Table) {
    forall j :: 1 <= j < |t.path| ==> 1 <= t.path[j] <= |levels| && levels[t.path[j] - 1] == j - 1
  }

  lemma {:induction false} ResolveShape(levels: seq<nat>)
    ensures PathShape(levels, Resolve(levels).table)
    decreases |levels|
  {
    if levels != [] {
      var init := levels[..|levels| - 1];
      ResolveShape(init);
      var r := Resolve(init);
      var lv := levels[|levels| - 1];
      if lv <= r.table.current {
        var p := r.table.path[..lv + 1] + [|levels|];
        forall j | 1 <= j < |p| ensures 1 <= p[j] <= |levels| && levels[p[j] - 1] == j - 1 {
          if j <= lv {
            assert p[j] == r.table.path[j];
            assert levels[p[j] - 1] == init[p[j] - 1];
          }
        }
      } else {
        forall j | 1 <= j < |r.table.path|
          ensures levels[r.table.path[j] - 1] == j - 1
        {
          assert levels[r.table.path[j] - 1] == init[r.table.path[j] - 1];
        }
      }
    }
  }

  /**
   * Every root is an earlier item: item `k + 1` gets a root at most `k`. A
   * level-0 item hangs under the sentinel, and a non-zero root sits exactly
   * one level above its item.
   */
  lemma RootsPointBack(levels: seq<nat>)
    ensures forall k :: 0 <= k < |levels| ==> Resolve(levels).roots[k] <= k
    ensures forall k :: 0 <= k < |levels| && levels[k] == 0 ==> Resolve(levels).roots[k] == 0
    ensures forall k :: 0 <= k < |levels| && Resolve(levels).roots[k] != 0 ==>
      levels[Resolve(levels).roots[k] - 1] + 1 == levels[k]
  {
    forall k | 0 <= k < |levels|
      ensures Resolve(levels).roots[k] <= k
      ensures levels[k] == 0 ==> Resolve(levels).roots[k] == 0
      ensures Resolve(levels).roots[k] != 0 ==> levels[Resolve(levels).roots[k] - 1] + 1 == levels[k]
    {
      RootPointsBack(levels, k);
    }
  }

  /** The root of item `k + 1` is read from the table after the items before it, whose slots name earlier items. */
  lemma RootPointsBack(levels: seq<nat>, k: nat)
    requires k < |levels|
    ensures Resolve(levels).roots[k] <= k
    ensures levels[k] == 0 ==> Resolve(levels).roots[k] == 0
    ensures Resolve(levels).roots[k] != 0 ==> levels[Resolve(levels).roots[k] - 1] + 1 == levels[k]
  {
    ResolveNext(levels, k);
    var init := levels[..k];
    ResolveShape(init);
    var t := Resolve(init).table;
    var lv := levels[k];
    if 0 < lv <= t.current {
      assert levels[t.path[lv] - 1] == init[t.path[lv] - 1];
    }
  }

  /**
   * An outline without jumps: the first item is at level 0 and each later
   * item is at most one level deeper than the one before.
   */
  predicate WellNested(levels: seq<nat>) {
    (levels == [] || levels[0] == 0) &&
    forall k :: 1 <= k < |levels| ==> levels[k] <= levels[k - 1] + 1
  }

  /** The latest item (counted from 1) at level `m` among `levels`; 0 when there is none. */
  function LastAt(levels: seq<nat>, m: nat): (r: nat)
    ensures r <= |levels|
    ensures r > 0 ==> levels[r - 1] == m
  {
    if levels == [] then 0
    else if levels[|levels| - 1] == m then |levels|
    else LastAt(levels[..|levels| - 1], m)
  }

  /** In a well-nested outline every item is taken, and slot `j` is the latest item at level `j - 1`. */
  ghost predicate OpenPath(levels: seq<nat>, t: Table) {
    ValidTable(t) &&
    (levels != [] ==> t.current == levels[|levels| - 1] + 1) &&
    forall j :: 1 <= j <= t.current ==> t.path[j] == LastAt(levels, j - 1)
  }

  lemma {:induction false} WellNestedPath(levels: seq<nat>)
    requires WellNested(levels)
    ensures ValidTable(Resolve(levels).table) && OpenPath(levels, Resolve(levels).table)
    decreases |levels|
  {
    if levels != [] {
      var init := levels[..|levels| - 1];
      assert WellNested(init);
      WellNestedPath(init);
      var r := Resolve(init);
      var lv := levels[|levels| - 1];
      assert lv <= r.table.current;
      var p := r.table.path[..lv + 1] + [|levels|];
      forall j | 1 <= j <= lv + 1 ensures p[j] == LastAt(levels, j - 1) {
        if j <= lv {
          assert p[j] == r.table.path[j];
        }
      }
    }
  }

  /**
   * In a well-nested outline the root of every item is the latest earlier
   * item one level up, or the sentinel 0 for a level-0 item.
   */
  lemma RootIsLatestParent(levels: seq<nat>, k: nat)
    requires WellNested(levels) && k < |levels|
    ensures Resolve(levels).roots[k] == if levels[k] == 0 then 0 else LastAt(levels[..k], levels[k] - 1)
  {
    var init := levels[..k];
    assert WellNested(init);
    WellNestedPath(init);
    ResolveNext(levels, k);
    var t := Resolve(init).table;
    var lv := levels[k];
    if k == 0 {
      assert lv == 0 && t.current == 0;
    } else {
      assert init[k - 1] == levels[k - 1];
      assert lv <= t.current;
    }
    if lv > 0 {
      assert t.path[lv] == LastAt(init, lv - 1);
    }
  }

  /**
   * The outline of the table comment beside `parse_item_level`, items at
   * levels 0, 1, 2, 1, 2: the roots are 0, 1, 2, 1, 4, and after the third
   * item the table is [0, 1, 2, 3] (the comment writes [0, 1, 2, 2]).
   */
  lemma CommentOutline()
    ensures Resolve([0, 1, 2, 1, 2]).roots == [0, 1, 2, 1, 4]
    ensures Resolve([0, 1, 2]).table == Table([0, 1, 2, 3], 3)
  {
    assert [0, 1, 2, 1, 2][..4] == [0, 1, 2, 1];
    assert [0, 1, 2, 1][..3] == [0, 1, 2];
    assert [0, 1, 2][..2] == [0, 1];
    assert [0, 1][..1] == [0];
    assert [0][..0] == [];
  }

  /**
   * An item deeper than the open path is not taken: it gets root 0 and the
   * table is left as it was.
   */
  lemma JumpOrphans(levels: seq<nat>, n: nat)
    requires n < |levels| && levels[n] > Resolve(levels[..n]).table.current
    ensures Resolve(levels).roots[n] == 0
    ensures Resolve(levels[..n + 1]).table == Resolve(levels[..n]).table
  {
    ResolveNext(levels, n);
  }

  /** The outline of levels 0, 2: the second item gets root 0 and the table stays `[0, 1]`. */
  lemma JumpIsOrphaned()
    ensures Resolve([0, 2]).roots == [0, 0]
    ensures Resolve([0, 2]).table == Table([0, 1], 1)
  {
    assert [0, 2][..1] == [0];
    assert [0][..0] == [];
  }
}

=== FILE: parse.dfy ===
/** The line wrappers of parse/parse.rs. */
module ParseUtil {
  import opened Text

  /** `parse_simple`: the line, unchanged, as the only segment of a one-element list. */
  function ParseSimple(line: string): (r: seq<string>)
    ensures |r| == 1 && r[0] == line
  {
    [line]
  }

  /** `s` with every whitespace character removed. */
  function RemoveWhitespace(s: string): string
  {
    if s == [] then []
    else RemoveWhitespace(s[..|s| - 1]) + (if IsWhitespace(s[|s| - 1]) then [] else [s[|s| - 1]])
  }

  /** The tokens written one after another. */
  function Concatenation(tokens: seq<string>): string
  {
    if tokens == [] then [] else Concatenation(tokens[..|tokens| - 1]) + tokens[|tokens| - 1]
  }

  predicate IsToken(t: string) {
    |t| > 0 && forall i :: 0 <= i < |t| ==> !IsWhitespace(t[i])
  }

  /**
   * `parse_simple_vector`: the whitespace-separated tokens of `line`, in
   * order. The library split and the loop that copies its pieces are one
   * loop here.
   */
  method ParseSimpleVector(line: string) returns (out: seq<string>)
    ensures forall k :: 0 <= k < |out| ==> IsToken(out[k])
    ensures Concatenation(out) == RemoveWhitespace(line)
  {
    out := [];
    var cur: string := [];
    var i := 0;
    while i < |line|
      invariant 0 <= i <= |line|
      invariant forall k :: 0 <= k < |out| ==> IsToken(out[k])
      invariant forall j :: 0 <= j < |cur| ==> !IsWhitespace(cur[j])
      invariant Concatenation(out) + cur == RemoveWhitespace(line[..i])
    {
      RemoveWhitespaceNext(line, i);
      if IsWhitespace(line[i]) {
        if cur != [] {
          ConcatenationNext(out, cur);
          out := out + [cur];
          cur := [];
        }
      } else {
        cur := cur + [line[i]];
      }
      i := i + 1;
    }
    if cur != [] {
      ConcatenationNext(out, cur);
      out := out + [cur];
    }
    assert line[..|line|] == line;
  }

  lemma ConcatenationNext(tokens: seq<string>, t: string)
    ensures Concatenation(tokens + [t]) == Concatenation(tokens) + t
  {
    assert (tokens + [t])[..|tokens|] == tokens;
  }

  lemma RemoveWhitespaceNext(line: string, i: nat)
    requires i < |line|
    ensures RemoveWhitespace(line[..i + 1]) == RemoveWhitespace(line[..i]) + (if IsWhitespace(line[i]) then [] else [line[i]])
  {
    assert line[..i + 1][..i] == line[..i];
  }
}

=== FILE: results.dfy ===
/** Result shapes shared by every module of the model. */
module Results {

  /** Rust's `Option`. */
  datatype Option<T> = None | Some(value: T)

  /** Rust's `Result<T, String>` (the error text is kept as the source spells it). */
  datatype Result<T> = Ok(value: T) | Err(error: string)

  /**
   * How a call of the source ends: normally with a value, or in a Rust panic
   * (an `unwrap` of an `Err`, or a slice or index outside the string), which
   * aborts the whole compilation.
   */
  datatype Outcome<T> = Normal(value: T) | Panic(reason: string)
}

=== FILE: strip.dfy ===
/** The strippers of `Strip` (utils/strip.rs). */
module StripUtil {
  import opened Results
  import opened Text
  import opened FindUtil

  /** `s` with its trailing run of `mark` removed. */
  function WithoutTrailing(s: string, mark: char): (r: string)
    ensures |r| <= |s| && r == s[..|r|]
    ensures r == [] || r[|r| - 1] != mark
    ensures forall i :: |r| <= i < |s| ==> s[i] == mark
    decreases |s|
  {
    if |s| > 0 && s[|s| - 1] == mark then WithoutTrailing(s[..|s| - 1], mark) else s
  }

  /** `rstrip`: walks back from the end while the last character is `mark`. */
  method RStrip(input: string, mark: char) returns (r: string)
    ensures r == WithoutTrailing(input, mark)
  {
    var totLen := |input|;
    while totLen > 0
      invariant 0 <= totLen <= |input|
      invariant WithoutTrailing(input[..totLen], mark) == WithoutTrailing(input, mark)
    {
      if input[totLen - 1] == mark {
        assert input[..totLen][..totLen - 1] == input[..totLen - 1];
        totLen := totLen - 1;
      } else {
        break;
      }
    }
    r := input[0..totLen];
  }

  /** Stripping twice strips nothing more. */
  lemma RStripIdempotent(s: string, mark: char)
    ensures WithoutTrailing(WithoutTrailing(s, mark), mark) == WithoutTrailing(s, mark)
  {
  }

  /** Input that does not end with `mark` comes back unchanged. */
  lemma RStripKeepsUnterminated(s: string, mark: char)
    requires s == [] || s[|s| - 1] != mark
    ensures WithoutTrailing(s, mark) == s
  {
  }

  predicate Quoted(s: string) {
    StartsWith(s, "\"") && EndsWith(s, "\"")
  }

  /**
   * `colon_strip`: for input both started and ended by a double quote, drops
   * the opening quote and the LAST TWO characters (the closing quote and the
   * character before it), or gives "" when the input is shorter than three.
   * Any other input is returned unchanged.
   */
  function ColonStrip(input: string): (r: string)
    ensures !Quoted(input) ==> r == input
    ensures Quoted(input) && |input| < 3 ==> r == ""
    ensures Quoted(input) && |input| >= 3 ==> |r| == |input| - 3 && "\"" + r + input[|input| - 2..] == input
  {
    if Quoted(input) then
      if |input| < 3 then "" else input[1..|input| - 2]
    else input
  }

  /** A worked case: the quoted name `"ab"` loses its `b` as well as its quotes. */
  lemma ColonStripDropsLastTwo()
    ensures ColonStrip("\"ab\"") == "a"
  {
  }

  /**
   * `next_strip`: distance from `off` to the first character that breaks the
   * run (differs from `target` when `isEqual`, equals it otherwise), or
   * `|s| - off`. It never returns `Err`.
   */
  method NextStrip(s: string, off: nat, target: char, isEqual: bool) returns (r: Result<nat>)
    requires off <= |s|
    ensures r == Ok(RunLength(s[off..], target, isEqual))
  {
    var bytes := s[off..];
    var i := 0;
    while i < |bytes|
      invariant 0 <= i <= |bytes|
      invariant forall j :: 0 <= j < i ==> (bytes[j] == target) == isEqual
    {
      if isEqual {
        if bytes[i] != target {
          RunLengthUnique(bytes, target, isEqual, i);
          return Ok(i);
        }
      } else {
        if bytes[i] == target {
          RunLengthUnique(bytes, target, isEqual, i);
          return Ok(i);
        }
      }
      i := i + 1;
    }
    RunLengthUnique(bytes, target, isEqual, |s| - off);
    return Ok(|s| - off);
  }
}

=== FILE: text.dfy ===
/**
 * The pieces of Rust's string library that the compiler relies on, over
 * ASCII strings: `trim`, `starts_with`, `ends_with`, `find` and `split`.
 */
module Text {
  import opened Results

  /** ASCII characters that Rust's `char::is_whitespace` accepts. */
  predicate IsWhitespace(c: char) {
    c == ' ' || ('\t' <= c <= '\r')
  }

  predicate StartsWith(s: string, p: string) {
    |p| <= |s| && s[..|p|] == p
  }

  predicate EndsWith(s: string, p: string) {
    |p| <= |s| && s[|s| - |p|..] == p
  }

  /** Index of the first non-whitespace character at or after `i`; `|s|` if there is none. */
  function SkipWhitespace(s: string, i: nat): (r: nat)
    requires i <= |s|
    ensures i <= r <= |s|
    ensures r == |s| || !IsWhitespace(s[r])
    decreases |s| - i
  {
    if i < |s| && IsWhitespace(s[i]) then SkipWhitespace(s, i + 1) else i
  }

  /** Everything `SkipWhitespace` passes over is whitespace. */
  lemma {:induction false} SkipWhitespaceSkips(s: string, i: nat)
    requires i <= |s|
    ensures forall k :: i <= k < SkipWhitespace(s, i) ==> IsWhitespace(s[k])
    decreases |s| - i
  {
    if i < |s| && IsWhitespace(s[i]) {
      SkipWhitespaceSkips(s, i + 1);
    }
  }

  /** The end of `s[..j]` once its trailing whitespace is dropped. */
  function BackOverWhitespace(s: string, j: nat): (r: nat)
    requires j <= |s|
    ensures r <= j
    ensures r == 0 || !IsWhitespace(s[r - 1])
    decreases j
  {
    if j > 0 && IsWhitespace(s[j - 1]) then BackOverWhitespace(s, j - 1) else j
  }

  /** Everything `BackOverWhitespace` passes over is whitespace. */
  lemma {:induction false} BackOverWhitespaceSkips(s: string, j: nat)
    requires j <= |s|
    ensures forall k :: BackOverWhitespace(s, j) <= k < j ==> IsWhitespace(s[k])
    decreases j
  {
    if j > 0 && IsWhitespace(s[j - 1]) {
      BackOverWhitespaceSkips(s, j - 1);
    }
  }

  /** Drops the leading run of whitespace. */
  function TrimStart(s: string): (r: string)
    ensures |r| <= |s| && r == s[|s| - |r|..]
    ensures r == [] || !IsWhitespace(r[0])
  {
    s[SkipWhitespace(s, 0)..]
  }

  /** What `TrimStart` drops is whitespace. */
  lemma TrimStartDropsWhitespace(s: string)
    ensures forall i :: 0 <= i < |s| - |TrimStart(s)| ==> IsWhitespace(s[i])
  {
    SkipWhitespaceSkips(s, 0);
  }

  /** Drops the trailing run of whitespace. */
  function TrimEnd(s: string): (r: string)
    ensures |r| <= |s| && r == s[..|r|]
    ensures r == [] || !IsWhitespace(r[|r| - 1])
  {
    s[..BackOverWhitespace(s, |s|)]
  }

  /** What `TrimEnd` drops is whitespace. */
  lemma TrimEndDropsWhitespace(s: string)
    ensures forall i :: |TrimEnd(s)| <= i < |s| ==> IsWhitespace(s[i])
  {
    BackOverWhitespaceSkips(s, |s|);
  }

  /** A string whose first character is not whitespace has nothing to trim at the front. */
  lemma TrimStartKeeps(s: string)
    requires s == [] || !IsWhitespace(s[0])
    ensures TrimStart(s) == s
  {
  }

  /** A string whose last character is not whitespace has nothing to trim at the end. */
  lemma TrimEndKeeps(s: string)
    requires s == [] || !IsWhitespace(s[|s| - 1])
    ensures TrimEnd(s) == s
  {
  }

  /** A string opening with a non-whitespace character keeps something after `TrimEnd`. */
  lemma TrimEndNonEmpty(s: string)
    requires s != [] && !IsWhitespace(s[0])
    ensures TrimEnd(s) != []
  {
    TrimEndDropsWhitespace(s);
  }

  /** A string closing with a non-whitespace character keeps its last character after `TrimStart`. */
  lemma TrimStartNonEmpty(s: string)
    requires s != [] && !IsWhitespace(s[|s| - 1])
    ensures TrimStart(s) != [] && TrimStart(s)[|TrimStart(s)| - 1] == s[|s| - 1]
  {
    TrimStartDropsWhitespace(s);
  }

  /** Rust's `str::trim`. */
  function Trim(s: string): (r: string)
    ensures |r| <= |s|
    ensures r == [] || (!IsWhitespace(r[0]) && !IsWhitespace(r[|r| - 1]))
  {
    TrimEnd(TrimStart(s))
  }

  /** A string that neither starts nor ends with whitespace is its own trim. */
  lemma TrimOfTrimmed(s: string)
    requires s == [] || (!IsWhitespace(s[0]) && !IsWhitespace(s[|s| - 1]))
    ensures Trim(s) == s
  {
  }

  /** Without trailing whitespace, trimming only drops the leading run. */
  lemma TrimOfUnpaddedEnd(s: string)
    requires s != [] && !IsWhitespace(s[|s| - 1])
    ensures Trim(s) == TrimStart(s) && EndsWith(s, Trim(s))
  {
    TrimStartNonEmpty(s);
    TrimEndKeeps(TrimStart(s));
  }

  /** A suffix of a suffix is a suffix. */
  lemma EndsWithDrop(s: string, n: nat, t: string)
    requires n <= |s| && EndsWith(s[n..], t)
    ensures EndsWith(s, t)
  {
    assert s[|s| - |t|..] == s[n..][|s[n..]| - |t|..];
  }

  lemma TrimIdempotent(s: string)
    ensures Trim(Trim(s)) == Trim(s)
  {
    TrimOfTrimmed(Trim(s));
  }

  /** Trimming yields the empty string exactly when the input is all whitespace. */
  lemma TrimEmptyIff(s: string)
    ensures Trim(s) == [] <==> forall i :: 0 <= i < |s| ==> IsWhitespace(s[i])
  {
    var t := TrimStart(s);
    TrimStartDropsWhitespace(s);
    TrimEndDropsWhitespace(t);
    if Trim(s) != [] {
      assert t[0] == s[|s| - |t|];
    }
  }

  /** `TrimStart` drops exactly a leading whitespace run that stops at a non-whitespace character. */
  lemma TrimStartUnique(s: string, n: nat)
    requires n <= |s| && (n == |s| || !IsWhitespace(s[n]))
    requires forall i :: 0 <= i < n ==> IsWhitespace(s[i])
    ensures TrimStart(s) == s[n..]
  {
    TrimStartDropsWhitespace(s);
  }

  /** Leading whitespace in front of a text does not change its trim. */
  lemma TrimWhitespacePrefix(w: string, x: string)
    requires forall i :: 0 <= i < |w| ==> IsWhitespace(w[i])
    ensures Trim(w + x) == Trim(x)
  {
    var n := |x| - |TrimStart(x)|;
    TrimStartDropsWhitespace(x);
    TrimStartUnique(w + x, |w| + n);
    assert (w + x)[|w| + n..] == x[n..];
  }

  /** A two-element sequence is the display of its elements. */
  lemma PairDisplay<T>(r: seq<T>)
    requires |r| == 2
    ensures r == [r[0], r[1]]
  {
  }

  /** `t` occurs in `s` starting at position `j`. */
  predicate OccursAt(s: string, j: nat, t: string) {
    j + |t| <= |s| && s[j..j + |t|] == t
  }

  /** Rust's `str::find`: the first position at which `t` occurs in `s`. */
  function IndexOf(s: string, t: string): (r: Option<nat>)
    ensures r.Some? ==> OccursAt(s, r.value, t)
    ensures r.Some? ==> forall j :: 0 <= j < r.value ==> !OccursAt(s, j, t)
    ensures r.None? ==> forall j: nat :: !OccursAt(s, j, t)
    decreases |s|
  {
    if OccursAt(s, 0, t) then Some(0)
    else if |s| == 0 then None
    else
      var rest := IndexOf(s[1..], t);
      assert forall j: nat :: OccursAt(s[1..], j, t) <==> OccursAt(s, j + 1, t) by {
        forall j: nat ensures OccursAt(s[1..], j, t) <==> OccursAt(s, j + 1, t) {
          if j + |t| <= |s[1..]| {
            assert s[1..][j..j + |t|] == s[j + 1..j + 1 + |t|];
          }
        }
      }
      match rest
      case None =>
        assert forall j: nat :: !OccursAt(s, j, t) by {
          forall j: nat ensures !OccursAt(s, j, t) {
            if j > 0 { assert !OccursAt(s[1..], j - 1, t); }
          }
        }
        None
      case Some(k) =>
        assert forall j :: 0 <= j < k + 1 ==> !OccursAt(s, j, t) by {
          forall j | 0 <= j < k + 1 ensures !OccursAt(s, j, t) {
            if j > 0 { assert !OccursAt(s[1..], j - 1, t); }
          }
        }
        Some(k + 1)
  }

  /** Rust's `str::split` with a non-empty separator: the pieces between the non-overlapping occurrences of `sep`, left to right. */
  function Split(s: string, sep: string): (r: seq<string>)
    requires |sep| > 0
    ensures |r| >= 1
    decreases |s|
  {
    match IndexOf(s, sep)
    case None => [s]
    case Some(k) => [s[..k]] + Split(s[k + |sep|..], sep)
  }

  /** At the first occurrence of `sep` the split yields the text before it and at least one more piece. */
  lemma SplitAtFirst(s: string, sep: string, k: nat)
    requires |sep| > 0 && IndexOf(s, sep) == Some(k)
    ensures |Split(s, sep)| >= 2 && Split(s, sep)[0] == s[..k] && k + |sep| <= |s|
  {
  }

  /** The split at a found separator: the text before it, then the split of the rest. */
  lemma SplitStep(s: string, sep: string, k: nat)
    requires |sep| > 0 && IndexOf(s, sep) == Some(k)
    ensures Split(s, sep) == [s[..k]] + Split(s[k + |sep|..], sep)
  {
    var rest := s[k + |sep|..];
    assert Split(s, sep) == [s[..k]] + Split(rest, sep);
  }

  /** Without an occurrence of `sep` the split is the whole input. */
  lemma SplitNone(s: string, sep: string)
    requires |sep| > 0 && IndexOf(s, sep).None?
    ensures Split(s, sep) == [s]
  {
  }

  /** A one-character separator occurs at no position below `hi` where the character does not. */
  lemma AbsentChar(s: string, c: char, hi: nat)
    requires forall i :: 0 <= i < hi && i < |s| ==> s[i] != c
    ensures forall j: nat :: j < hi ==> !OccursAt(s, j, [c])
  {
    forall j: nat | j < hi ensures !OccursAt(s, j, [c]) {
      if j + 1 <= |s| {
        assert s[j..j + 1] == [s[j]];
      }
    }
  }

  /** A one-character separator that does not occur leaves the text whole. */
  lemma SplitAbsentChar(s: string, c: char)
    requires forall i :: 0 <= i < |s| ==> s[i] != c
    ensures Split(s, [c]) == [s]
  {
    AbsentChar(s, c, |s| + 1);
    SplitNone(s, [c]);
  }

  /** A character at `k` with none before it is the first occurrence. */
  lemma FirstChar(s: string, c: char, k: nat)
    requires k < |s| && s[k] == c
    requires forall i :: 0 <= i < k ==> s[i] != c
    ensures IndexOf(s, [c]) == Some(k)
  {
    assert OccursAt(s, k, [c]) by { assert s[k..k + 1] == [c]; }
    AbsentChar(s, c, k);
  }

  /** A one-character separator occurring exactly once, at `k`, cuts the text in two there. */
  lemma SplitOnceChar(s: string, c: char, k: nat)
    requires k < |s| && s[k] == c
    requires forall i :: 0 <= i < |s| && i != k ==> s[i] != c
    ensures Split(s, [c]) == [s[..k], s[k + 1..]]
  {
    FirstChar(s, c, k);
    var tail := s[k + 1..];
    forall i | 0 <= i < |tail| ensures tail[i] != c {
      assert tail[i] == s[k + 1 + i];
    }
    SplitAbsentChar(tail, c);
    SplitStep(s, [c], k);
    assert s[k + |[c]|..] == tail;
  }

  /** The pieces joined back together with `sep` between them. */
  function Join(parts: seq<string>, sep: string): string
    requires |parts| >= 1
  {
    if |parts| == 1 then parts[0] else parts[0] + sep + Join(parts[1..], sep)
  }

  /** At an occurrence `k` of `sep`, the text is the part before it, `sep`, and the rest. */
  lemma CutAt(s: string, sep: string, k: nat)
    requires OccursAt(s, k, sep)
    ensures s == s[..k] + sep + s[k + |sep|..]
  {
    assert s == s[..k] + s[k..k + |sep|] + s[k + |sep|..];
  }

  /** Splitting loses nothing: joining the pieces with the separator restores the input. */
  lemma {:induction false} JoinSplit(s: string, sep: string)
    requires |sep| > 0
    ensures Join(Split(s, sep), sep) == s
    decreases |s|
  {
    var idx := IndexOf(s, sep);
    if idx.Some? {
      var k := idx.value;
      var tail := s[k + |sep|..];
      JoinSplit(tail, sep);
      var rest := Split(tail, sep);
      var parts := Split(s, sep);
      assert parts == [s[..k]] + rest;
      assert |parts| != 1 && parts[0] == s[..k] && parts[1..] == rest;
      CutAt(s, sep, k);
    }
  }

  /** A text in which `t` occurs nowhere has no first occurrence of it. */
  lemma NotFound(s: string, t: string)
    requires forall j: nat :: !OccursAt(s, j, t)
    ensures IndexOf(s, t).None?
  {
  }

  /** The text before the first occurrence of `sep` holds no occurrence of it. */
  lemma BeforeFirstFree(s: string, sep: string, k: nat)
    requires |sep| > 0 && IndexOf(s, sep) == Some(k)
    ensures IndexOf(s[..k], sep).None?
  {
    var head := s[..k];
    forall j: nat ensures !OccursAt(head, j, sep) {
      HeadFree(s, sep, k, j);
    }
    NotFound(head, sep);
  }

  /** No position of the text before the first occurrence starts an occurrence. */
  lemma HeadFree(s: string, sep: string, k: nat, j: nat)
    requires |sep| > 0 && IndexOf(s, sep) == Some(k)
    ensures !OccursAt(s[..k], j, sep)
  {
    if j + |sep| <= k {
      assert !OccursAt(s, j, sep);
      SliceOfPrefix(s, k, j, j + |sep|);
    }
  }

  lemma SliceOfPrefix(s: string, k: nat, a: nat, b: nat)
    requires a <= b <= k <= |s|
    ensures s[..k][a..b] == s[a..b]
  {
  }

  /** No piece of a split contains the separator. */
  lemma {:induction false} SplitPiecesFree(s: string, sep: string)
    requires |sep| > 0
    ensures forall p :: p in Split(s, sep) ==> IndexOf(p, sep).None?
    decreases |s|
  {
    match IndexOf(s, sep)
    case None =>
    case Some(k) =>
      SplitStep(s, sep, k);
      SplitPiecesFree(s[k + |sep|..], sep);
      BeforeFirstFree(s, sep, k);
  }

  /** Number of occurrences of `c` in `s`. */
  function CountChar(s: string, c: char): nat
    decreases |s|
  {
    if s == [] then 0 else (if s[0] == c then 1 else 0) + CountChar(s[1..], c)
  }

  lemma {:induction false} CountCharAppend(a: string, b: string, c: char)
    ensures CountChar(a + b, c) == CountChar(a, c) + CountChar(b, c)
    decreases |a|
  {
    if a == [] {
      assert a + b == b;
    } else {
      assert (a + b)[1..] == a[1..] + b;
      CountCharAppend(a[1..], b, c);
    }
  }

  /** Splitting at a single character gives one more piece than it has occurrences. */
  lemma {:induction false} SplitCharCount(s: string, c: char)
    ensures |Split(s, [c])| == CountChar(s, c) + 1
    decreases |s|
  {
    match IndexOf(s, [c])
    case None =>
      CountCharNone(s, c);
    case Some(k) =>
      var tail := s[k + 1..];
      SplitCharCount(tail, c);
      forall j | 0 <= j < |s[..k]| ensures !OccursAt(s[..k], j, [c]) {
        assert !OccursAt(s, j, [c]);
        assert s[..k][j..j + 1] == s[j..j + 1];
      }
      CountCharNone(s[..k], c);
      assert s == s[..k] + [c] + tail;
      CountCharAppend(s[..k] + [c], tail, c);
      CountCharAppend(s[..k], [c], c);
  }

  lemma CountCharNone(s: string, c: char)
    requires forall j :: 0 <= j < |s| ==> !OccursAt(s, j, [c])
    ensures CountChar(s, c) == 0
  {
    forall j | 0 <= j < |s| ensures s[j] != c {
      assert !OccursAt(s, j, [c]) && s[j..j + 1] == [s[j]];
    }
    CountCharAbsent(s, c);
  }

  lemma {:induction false} CountCharAbsent(s: string, c: char)
    requires forall j :: 0 <= j < |s| ==> s[j] != c
    ensures CountChar(s, c) == 0
    decreases |s|
  {
    if s != [] {
      assert forall j :: 0 <= j < |s[1..]| ==> s[1..][j] == s[j + 1];
      CountCharAbsent(s[1..], c);
    }
  }
}
